=== FILE: README.md ===
# deep_research, modelled in Dafny

The deep_research pipeline answers a research question through a fixed LangGraph workflow. The nodes run in this order:

1. **scope**: the summarising model restates the question.
2. **plan**: the same model writes a bullet plan, which is parsed into steps.
3. **research**: web search hits and MCP tool results become findings, and the researching model summarises them.
4. **synth**: the synthesising model drafts a report from a clipped scope and the twelve most recent findings.
5. **review**: the reviewing model returns a JSON critique.

A router sends a rejected draft back to research until `max_research_loops` reviews have been counted. Every completion goes through a retry wrapper. That wrapper retries transient provider failures. A provider that reports a zero quota is turned into a `QuotaExhaustedError` instead. The MCP gateway connects to the configured servers and registers their tools as `server:tool`. It resolves bare tool names and renders tool results as text. The chat models for the four roles are built from model ids. When a run ends, its state is flattened into JSON-friendly values and logged.

The project has one module per source file, plus five support modules:

- Wrappers: Option and Result.
- Strings: Python's `lower`, `in`, `strip(chars)`, `splitlines`, `join` and `s[-n:]`.
- Json.
- OrderedDict: Python's insertion-ordered dict.
- State: the shared state and its merge.

Anything the code reaches outside itself is a function parameter:

- the model chains;
- the Tavily search;
- the MCP sessions;
- `json.loads` and `json.dumps`;
- `str(exc)` and `str(metadata)`;
- the clock.

The LangGraph runtime is modelled by a driver in `Graph`. That driver is generic over how a node is run. Properties of the workflow are proved once for any runner meeting a hypothesis. They are then carried over to the concrete pipeline of the five nodes.

## Model

| member | source | states |
|---|---|---|
| Retry.FirstInt | src/deep_research/retry.py:25-37 | the first integer attribute in scan order; `None` exactly when no candidate is an integer |
| Retry.FirstIntAppend | src/deep_research/retry.py:25-37 | the exception's own attributes are consulted before the response's: a code found there wins |
| Retry.ExtractStatusCode | src/deep_research/retry.py:25-37 | the code is the first integer among the exception's `status_code`, `status`, `code`, then a truthy `response`'s `status`, `status_code`, `code` |
| Retry.IsZeroQuota | src/deep_research/retry.py:40-46 | definition: the lower-cased message mentions "insufficient_quota", "insufficient quota" or "limit: 0", or both "quota exceeded" and "limit" |
| Retry.ShouldRetry | src/deep_research/retry.py:49-65 | definition: the checks in the source's order (quota-exhausted, zero quota, status, class name, message); `ShouldRetryMeaning` states what the order decides |
| Retry.ShouldRetryMeaning | src/deep_research/retry.py:49-65 | a quota-exhausted or zero-quota failure is never retried; any other failure is retried exactly when its status is one of 408, 409, 429, 500, 502, 503, 504, its class name or its message carries a transient keyword |
| Retry.QuotaExhaustedNeverRetried | src/deep_research/retry.py:49-65 | `QuotaExhaustedError` is refused by the first check, though its name and message both carry the transient keyword "quota" |
| Retry.RateLimitStatusRetried | src/deep_research/retry.py:56-58 | a non-quota failure with status 429 is retried |
| Retry.MaxCalls | src/deep_research/retry.py:78-79 | `stop_after_attempt(n)` allows exactly `n` calls when `n >= 1` and exactly one otherwise |
| Retry.Escalate | src/deep_research/retry.py:88-93 | a zero-quota failure leaves the attempt as `QuotaExhaustedError`; every other failure leaves unchanged |
| Retry.AttemptFrom | src/deep_research/retry.py:68-93 | the attempt loop from call `i` produces the outcome the loop's rules admit, after more than `i` calls |
| Retry.ExplainsUnique | src/deep_research/retry.py:68-93 | the call sequence determines the loop's outcome: two admissible outcomes are equal |
| Retry.StopsNoEarlier | src/deep_research/retry.py:68-93 | two admissible outcomes stop at the same call: neither can stop before the other |
| Retry.StopsAtLast | src/deep_research/retry.py:68-93 | the loop stops because the policy refuses the last failure or the attempt budget is spent |
| Retry.Invoke | src/deep_research/retry.py:68-93 | `ainvoke_with_retry`'s outcome is one the loop's rules admit: between 1 and max(n,1) calls, every call but the last retried, and the last call's value or its escalated error |
| Retry.InvokeIsExplained | src/deep_research/retry.py:68-93 | any admissible outcome is the one `ainvoke_with_retry` computes |
| Retry.AinvokeWithRetry | src/deep_research/retry.py:68-93 | the imperative loop makes between 1 and max(n,1) calls, retries only after retried failures, returns the last call's value or its escalated error |
| Retry.RetriedErrorsAreOriginal | src/deep_research/retry.py:88-93 | a failure that gets retried was not a zero-quota one, so it is re-raised as it was |
| Retry.FirstSuccessReturned | src/deep_research/retry.py:85-87 | the first call that succeeds ends the loop, with its value, after `k+1` calls |
| Retry.NonRetryablePropagatesAtOnce | src/deep_research/retry.py:68-93 | a failure the policy refuses escapes after one call |
| Retry.ExhaustionReraisesLast | src/deep_research/retry.py:68-93 | when every call fails retryably, the last failure is re-raised after max(n,1) calls |
| Retry.ZeroQuotaFailsFast | src/deep_research/retry.py:85-93 | a zero-quota failure ends the loop at once with `QuotaExhaustedError` |
| Tools.BlockChunk | src/deep_research/tools.py:71-78 | a text block gives its text and any other non-image block its `str`; an image block's chunk ends with its uri and is never empty, so it is never dropped |
| Tools.ResultChunks | src/deep_research/tools.py:66-81 | one chunk per content block in order, then the dumped structured content when it is non-empty |
| Tools.NonEmpty | src/deep_research/tools.py:87 | every kept chunk is non-empty and one of the chunks, there are no more of them than chunks, and all chunks are kept when none is empty |
| Tools.NonEmptyAppend | src/deep_research/tools.py:87 | the filter distributes over concatenation, so the kept chunks keep their order |
| Tools.NonEmptySingle | src/deep_research/tools.py:87 | one chunk is kept exactly when it is not empty; with `NonEmptyAppend` this determines the filter on every list |
| Tools.Render | src/deep_research/tools.py:58-87 | a `CallToolResult` with a truthy error renders as "Error: " and its message; a dict as its JSON dump; a result of any other type as its `str` |
| Tools.RenderRecoversChunks | src/deep_research/tools.py:66-87 | without structured content, a non-error result whose block chunks are single lines splits back into exactly its non-empty block chunks, in block order |
| Tools.RenderStructuredLast | src/deep_research/tools.py:66-87 | non-empty structured content is rendered last: the text is the newline-join of the kept block chunks, a newline when any is kept, then the dump |
| Tools.NewGateway | src/deep_research/tools.py:93-98 | a new gateway is not started, holds no tools and satisfies the gateway invariant |
| Tools.AvailableTools | src/deep_research/tools.py:100-102 | exactly the registered qualified names, each once |
| Strings.StripIsInfix | src/deep_research/nodes/planner.py:18 | `strip(chars)` leaves an infix of the line with only characters of the set cut off on either side |
| Strings.StripEmpty | src/deep_research/nodes/planner.py:18-19 | `strip(chars)` gives "" exactly when every character of the line is in the set |
| Strings.StripIdempotent | src/deep_research/nodes/planner.py:18 | stripping twice is stripping once |
| Strings.SplitJoinRoundTrip | src/deep_research/nodes/planner.py:17 | `splitlines` of the newline-join of non-empty single lines gives the lines back |
| Tools.RegisterTools | src/deep_research/tools.py:150-152 | the registry's key set gains exactly `server:tool` for each listed tool, each recorded under its server (the key order is `RegisterToolsKeys`) |
| Tools.RegisterToolsKeys | src/deep_research/tools.py:150-152 | the registry's key order after registering a listing is Python's insertion order: old keys keep their places, new qualified names follow in listing order, a repeated one keeps its first place |
| Tools.RegisterToolsAppend | src/deep_research/tools.py:150-152 | registering a listing `a + b` is registering `a` and then `b` |
| Tools.RegisterToolsSingle | src/deep_research/tools.py:151-152 | registering one tool is one dictionary assignment `tools[server:tool] = (server, tool)` |
| Tools.ConnectOne | src/deep_research/tools.py:118-154 | one server's key set contribution is its listed tools, only when it has an endpoint and its listing succeeds; registration facts are kept |
| Tools.ConnectOneTools | src/deep_research/tools.py:118-154 | only a server that gets as far as listing changes the registry, and it does so by registering its listing |
| Tools.ConnectOneKeys | src/deep_research/tools.py:118-154 | one server's qualified names are inserted, in listing order, after every key already registered |
| Tools.ConnectFrom | src/deep_research/tools.py:118-154 | the server loop's key set is the old keys plus every server's contribution |
| Tools.ConnectFromKeys | src/deep_research/tools.py:118-154 | the server loop inserts each server's listing in turn, server by server in configuration order |
| Tools.Start | src/deep_research/tools.py:104-156 | `start` does nothing when already started, with no servers, or without the MCP package; otherwise it marks the gateway started, its key set gains every listed tool, and it keeps the invariant |
| Tools.StartKeys | src/deep_research/tools.py:101-156 | after `start`, `available_tools` lists the earlier names and then each listed tool's qualified name, servers in configuration order and tools in listing order, each at its first registration |
| Tools.StartIdempotent | src/deep_research/tools.py:104-108 | starting twice is starting once |
| Tools.ListedToolsRegistered | src/deep_research/tools.py:118-154 | every tool a reachable server lists is registered under its qualified name |
| Tools.StartKeysComeFromListingServers | src/deep_research/tools.py:118-154 | every key `start` adds comes from a configured server that got as far as listing that tool |
| Tools.Shutdown | src/deep_research/tools.py:158-168 | shutdown is a no-op when not started; otherwise contexts close in reverse order and the gateway is left stopped with no tools or sessions |
| Tools.SuffixMatches | src/deep_research/tools.py:188-189 | exactly the registry keys ending in `":" + name`, and no more of them than keys |
| Tools.SuffixMatchesAppend | src/deep_research/tools.py:188-189 | matching distributes over concatenation, so the matches keep the registry's order |
| Tools.SuffixMatchesSingle | src/deep_research/tools.py:188-189 | one key matches exactly when it ends in `":" + name`; with `SuffixMatchesAppend` this determines the matches of every registry |
| Tools.ResolveName | src/deep_research/tools.py:184-193 | an exact key resolves to itself; a bare name resolves only to a unique suffix match; otherwise it fails as unknown or ambiguous |
| Tools.ResolveAmbiguous | src/deep_research/tools.py:184-193 | two registered tools sharing a bare name make that name ambiguous |
| Tools.ResolveUnique | src/deep_research/tools.py:184-193 | a bare name that exactly one key ends with resolves to that key |
| Tools.SuffixMatchesDistinct | src/deep_research/tools.py:188-189 | the matches of a duplicate-free registry are duplicate-free |
| Tools.Invoke | src/deep_research/tools.py:170-193 | `invoke` starts lazily; with no tools it fails; a name that does not resolve fails with the resolution's error; reaching the call requires a registered resolved name |
| Tools.InvokeResolved | src/deep_research/tools.py:170-193 | on a well-formed started gateway a name that resolves, exactly or as a unique bare name, reaches its server's session under the tool's own name, and a returned result is rendered |
| State.DefaultFinding | src/deep_research/state.py:12-19 | a finding without a confidence gets 0.5 and the capture time |
| State.Keys | src/deep_research/state.py:28-39 | an update sets no key exactly when it is the empty update |
| State.Apply | src/deep_research/state.py:28-39 | every key the update does not set, all nine of them, keeps the state's value |
| State.ApplySets | src/deep_research/state.py:28-39 | each key the update sets takes the update's value; a returned `messages` replaces the transcript under overwriting and is appended to it under `operator.add` |
| State.ApplyNothing | src/deep_research/state.py:28-39 | merging the empty update changes nothing |
| State.ApplyOverwriteIdempotent | src/deep_research/state.py:28-39 | under overwriting, merging an update twice is merging it once |
| State.AppendedMessageMerge | src/deep_research/state.py:39 | a node returning the prior transcript plus one message leaves that transcript under overwriting, and a doubled one under `operator.add` |
| State.Complete | src/deep_research/retry.py:68-93 | a node's completion is the retry wrapper's result over the chain, with the default 3 attempts |
| State.CompleteFirstAttempt | src/deep_research/retry.py:85-87 | a chain whose first attempt answers completes with that answer |
| Scoper.History | src/deep_research/nodes/scoper.py:22 | the history is never empty, and is the placeholder when there are no messages |
| Scoper.HistoryRecoversWindow | src/deep_research/nodes/scoper.py:22 | the history's lines are the texts of the last four messages |
| Scoper.HistoryIgnoresOlder | src/deep_research/nodes/scoper.py:22 | messages before the last four do not affect the history |
| Scoper.OrElse | src/deep_research/nodes/scoper.py:27-28 | a missing or empty value falls back to the placeholder |
| Scoper.ScoperNode | src/deep_research/nodes/scoper.py:21-32 | succeeds exactly when the completion does; then it sets exactly `scope` (the answer) and appends one AI message |
| Planner.KeptStep | src/deep_research/nodes/planner.py:17-20 | a line gives at most one step, non-empty and with no bullet character at either end, and a single line when the line is one; it gives none exactly when it is made of bullet characters only |
| Planner.KeptStepAround | src/deep_research/nodes/planner.py:17-20 | a line that is a trimmed text with bullet characters around it gives exactly that text |
| Planner.KeepStepsAround | src/deep_research/nodes/planner.py:15-22 | lines that are each a trimmed text with bullet characters around it give exactly those texts, in order |
| Planner.ParsePlanBulleted | src/deep_research/nodes/planner.py:15-22 | a non-empty answer whose lines are each a trimmed single-line text with bullet characters around it parses to exactly those texts, in order |
| Planner.ParsePlanExample | src/deep_research/nodes/planner.py:15-22 | the answer "- a\n- b" parses to the plan ["a", "b"] |
| Planner.KeepSteps | src/deep_research/nodes/planner.py:15-22 | at most one step per line, each non-empty and with no bullet character at either end (which text each line gives is `KeepStepsAppend`, `KeptStep` and `KeptStepAround`) |
| Planner.KeepStepsAppend | src/deep_research/nodes/planner.py:15-22 | lines are parsed independently: the steps of two blocks are the concatenation of their steps |
| Planner.KeepStepsFixed | src/deep_research/nodes/planner.py:15-22 | steps that are already trimmed are kept as they are |
| Planner.KeepStepsSingleLine | src/deep_research/nodes/planner.py:17-21 | steps kept from single lines are single lines |
| Planner.ParsePlan | src/deep_research/nodes/planner.py:15-22 | the plan is never empty, every step is a trimmed single line, it is the kept steps when some line survives and the default step when none does (a bulleted list's steps are `ParsePlanBulleted`) |
| Planner.ParsePlanReparse | src/deep_research/nodes/planner.py:15-22 | the plan's own newline-joined text parses back to the same plan |
| Planner.BulletsTrimmedAsSet | src/deep_research/nodes/planner.py:18 | `strip("- ")` treats its argument as a set, so "- -a-b -" gives the step "a-b" |
| Planner.FindingsPreview | src/deep_research/nodes/planner.py:30 | the preview is the placeholder exactly when there are no findings |
| Planner.PreviewRecoversSources | src/deep_research/nodes/planner.py:30 | the preview's lines are "- source" for the last three findings |
| Planner.PlannerUpdate | src/deep_research/nodes/planner.py:39-41 | the planner sets exactly `plan` (the parsed answer, never empty) and `messages` (the prior ones plus the plan as one AI message, one step per line) |
| Planner.PlannerNode | src/deep_research/nodes/planner.py:29-41 | fails exactly when the completion fails, with its error; otherwise returns the planner's update for the answer |
| Synthesizer.SliceStop | src/deep_research/nodes/synthesizer.py:15-20 | Python's slice stop: a negative stop counts from the end, and the result stays in range |
| Synthesizer.Clip | src/deep_research/nodes/synthesizer.py:15-20 | a fitting value is unchanged; a long one becomes a prefix of it followed by "..." |
| Synthesizer.ClipLength | src/deep_research/nodes/synthesizer.py:15-20 | with a limit of at least 3 the clipped length is min(length, limit) |
| Synthesizer.ClipIdempotent | src/deep_research/nodes/synthesizer.py:15-20 | with a limit of at least 3, clipping twice is clipping once |
| Synthesizer.ClipBelowThreeGrows | src/deep_research/nodes/synthesizer.py:15-20 | at a limit of 1 or 2 the negative stop makes clipping a value that does not fit lengthen it by the limit, and clipping again lengthens it once more |
| Synthesizer.ClipZeroKeepsLength | src/deep_research/nodes/synthesizer.py:15-20 | at a limit of 0 a value of at least 3 characters keeps its length, its last three characters replaced by "..." |
| Synthesizer.ClipLongContent | src/deep_research/nodes/synthesizer.py:33 | a 2000-character content becomes its first 797 characters and "..." |
| Synthesizer.FindingLine | src/deep_research/nodes/synthesizer.py:32-34 | definition: "- ", the source clipped to 120, ": ", the content clipped to 800; `FindingLineBounded` bounds it |
| Synthesizer.FindingLineBounded | src/deep_research/nodes/synthesizer.py:31-35 | each finding's line is bounded by the two clip limits, whatever the finding's size |
| Synthesizer.FindingsText | src/deep_research/nodes/synthesizer.py:31-35 | the text is the placeholder exactly when there are no findings |
| Synthesizer.FindingsTextRecoversWindow | src/deep_research/nodes/synthesizer.py:31-35 | the text's lines are the rendered lines of the last twelve findings |
| Synthesizer.FindingsTextIgnoresOlder | src/deep_research/nodes/synthesizer.py:31-35 | findings before the last twelve do not reach the prompt |
| Synthesizer.SynthesizerScopeBounded | src/deep_research/nodes/synthesizer.py:36 | the scope the model sees is at most 500 characters, and "" when there is none |
| Synthesizer.SynthesizerNode | src/deep_research/nodes/synthesizer.py:27-46 | succeeds exactly when the completion does; then it sets exactly `draft_report` (the answer), `needs_revision` (false) and appends one AI message |
| Reviewer.FallbackReview | src/deep_research/nodes/reviewer.py:31-34 | the fallback is an object that rejects, quotes the raw answer and says "Revise and retry" |
| Reviewer.NeedsRevision | src/deep_research/nodes/reviewer.py:36 | a missing or false `approved` needs revision, a true one does not |
| Reviewer.Decode | src/deep_research/nodes/reviewer.py:31-36 | an object is used as decoded, a non-JSON answer falls back, other JSON makes `.get` raise |
| Reviewer.ReviewerNode | src/deep_research/nodes/reviewer.py:20-40 | without a draft it only asks for revision; with one, a failed model call or a non-object answer fails the node with that error, and otherwise it stores the decoded answer as the review, derives `needs_revision` from it, logs it and counts one more loop |
| Reviewer.ShortCircuitIgnoresModel | src/deep_research/nodes/reviewer.py:21-22 | an empty draft's review does not depend on the model, sets only `needs_revision` and leaves the loop count alone |
| Reviewer.NonJsonAnswerRejects | src/deep_research/nodes/reviewer.py:31-34 | a non-JSON answer is stored as the fallback review and needs revision |
| Reviewer.NonObjectAnswerRaises | src/deep_research/nodes/reviewer.py:31-36 | JSON that is not an object makes the node fail |
| Reviewer.ApprovalDecidesRevision | src/deep_research/nodes/reviewer.py:36 | an object review needs revision exactly when `approved` is missing or falsy |
| Researcher.SearchWeb | src/deep_research/nodes/researcher.py:29-41 | no tool gives no hits, a failing search gives one error hit, otherwise the tool's hits |
| Researcher.Confidence | src/deep_research/nodes/researcher.py:75 | `min(1.0, score)`: at most 1 and at most the score, and equal to one of them |
| Researcher.WebFindings | src/deep_research/nodes/researcher.py:70-76 | web findings have confidence at most 1, and there are none without a search tool |
| Researcher.WebFindingsAppend | src/deep_research/nodes/researcher.py:70-76 | the findings of a plan are those of its first steps followed by those of the rest |
| Researcher.WebFindingsOfStep | src/deep_research/nodes/researcher.py:70-76 | a step's findings are its search hits for "query :: step", in order |
| Researcher.SearchTools | src/deep_research/nodes/researcher.py:53 | exactly the tool names mentioning "search" or "rag" (ignoring case), and no more of them than names |
| Researcher.SearchToolsAppend | src/deep_research/nodes/researcher.py:53 | selecting distributes over concatenation, so the selected tools keep the registry's order |
| Researcher.SearchToolsSingle | src/deep_research/nodes/researcher.py:53 | one name is selected exactly when it mentions "search" or "rag"; with `SearchToolsAppend` this determines the selection of every list |
| Researcher.McpFinding | src/deep_research/nodes/researcher.py:55-60 | a tool call yields a finding named after it: its output with confidence 0.7, or its error text with 0.2 |
| Researcher.InvokeEach | src/deep_research/nodes/researcher.py:53-60 | definition: the names in order, each search tool called on the gateway the previous call left, each giving one finding; `InvokeEachCount`, `InvokeEachSources` and `InvokeEachConfidences` state its properties |
| Researcher.InvokeEachFindings | src/deep_research/nodes/researcher.py:53-60 | one finding per search tool, in order, each from that tool's call |
| Researcher.InvokeEachCount | src/deep_research/nodes/researcher.py:53-60 | calling the search tools gives exactly one finding per tool |
| Researcher.InvokeEachSources | src/deep_research/nodes/researcher.py:55-60 | the `k`-th finding is named after the `k`-th search tool |
| Researcher.InvokeEachConfidences | src/deep_research/nodes/researcher.py:55-60 | every tool finding has confidence 0.7 or 0.2 |
| Researcher.CallMcpConfidences | src/deep_research/nodes/researcher.py:43-61 | every MCP finding has confidence 0.7 or 0.2 |
| Researcher.CallMcp | src/deep_research/nodes/researcher.py:43-61 | no gateway gives nothing; otherwise the gateway is started and its search tools are called |
| Researcher.EffectiveSteps | src/deep_research/nodes/researcher.py:65 | the steps are never empty and are the plan when it has any |
| Researcher.EvidenceText | src/deep_research/nodes/researcher.py:73-87 | the evidence is the placeholder without findings, else their "source: content" blobs separated by blank lines |
| Researcher.ResearcherNode | src/deep_research/nodes/researcher.py:63-93 | on success it sets exactly `findings` (prior, gathered, then the summary) and appends one AI message |
| Researcher.FindingsOnlyGrow | src/deep_research/nodes/researcher.py:89-93 | the old findings are a prefix of the new ones, and at least one finding is added |
| Researcher.Gathered | src/deep_research/nodes/researcher.py:70-80 | definition: the web findings of every effective step, then the MCP findings; `GatheredBounded` bounds their confidence |
| Researcher.GatheredBounded | src/deep_research/nodes/researcher.py:70-80 | every gathered finding has confidence at most 1 |
| Researcher.AppendKeepsPrefix | src/deep_research/nodes/researcher.py:89-93 | appending bounded findings keeps the prior ones as a prefix and the new ones bounded |
| Researcher.NoToolsNoEvidence | src/deep_research/nodes/researcher.py:63-93 | with neither search tool nor gateway nothing is gathered and the prompt says so |
| Graph.Router | src/deep_research/graph.py:73-78 | revise exactly when revision is needed and fewer than `max_research_loops` loops are counted |
| Graph.Next | src/deep_research/graph.py:67-87 | after scope nothing returns to scope or plan, and the run ends only after review routes to the end |
| Graph.InitialState | src/deep_research/graph.py:91-106 | the initial state holds the query and scope, empty plan and findings, no draft or review, loop 0, and the question then the metadata's text (when non-empty) as messages |
| Graph.Drive | src/deep_research/graph.py:67-89 | definition of the compiled graph's run: execute the node, stop on its error, merge its update, follow the edge or the router, and complete after review routes to the end; its properties are the `Drive…` lemmas below |
| Graph.DriveLength | src/deep_research/graph.py:67-89 | a run makes at most `fuel` node executions |
| Graph.DriveEndsWithReview | src/deep_research/graph.py:67-87 | a completed run's last node is review, the only node the router follows |
| Graph.DriveStep | src/deep_research/graph.py:67-87 | a node that succeeds and is not the last puts its event in front of the run from the node after it, with the same outcome |
| Graph.DriveLast | src/deep_research/graph.py:73-87 | a review after which the router chooses the end completes the run with that review's update merged |
| Graph.DriveFinalState | src/deep_research/graph.py:107 | a completed run's state is the initial state with every update merged in order |
| Graph.LoopOrder | src/deep_research/graph.py:67-87 | from a node of the research cycle, nodes run in the order research, synth, review, research, ... |
| Graph.LoopKeepsPlan | src/deep_research/graph.py:67-87 | when only the planner sets the plan, no update after planning touches it and a completed run ends with the plan it had |
| Graph.ResearchKeepsPlan | src/deep_research/graph.py:67-87 | from research on, neither scope nor plan runs again and the plan stays as it was |
| Graph.RunOrder | src/deep_research/graph.py:67-87 | a run executes scope, then plan, then the research cycle |
| Graph.PlanOrder | src/deep_research/graph.py:67-87 | from plan on, a run executes plan and then the research cycle |
| Graph.RejectingLoop | src/deep_research/graph.py:73-87 | from any node of the cycle with `k < max(N,1)` reviews counted, a rejecting run completes after the rest of this pass and `max(N,1)-k-1` more, with the count at max(N,1) and revision still needed |
| Graph.RejectingRunPasses | src/deep_research/graph.py:67-87 | an always-rejecting reviewer makes a run execute `2 + 3*max(N,1)` nodes and end still needing revision |
| Graph.EmptyDraftNeverCompletes | src/deep_research/graph.py:73-78 | when every draft is empty and loops remain, the loop count never moves and the run never completes |
| Graph.EmptyDraftZeroLoopsCompletes | src/deep_research/graph.py:73-78 | with zero loops allowed an empty draft ends the run after one pass |
| Graph.RunNode | src/deep_research/graph.py:51-59 | only the researcher touches the MCP gateway |
| Graph.NodeUpdateKeys | src/deep_research/graph.py:61-65 | each node sets exactly its own keys, except that an empty-draft review sets only `needs_revision` |
| Graph.PipelineOnlyPlannerPlans | src/deep_research/graph.py:51-65 | in the pipeline only the planner sets the plan |
| Graph.PlanFixedAfterPlanning | src/deep_research/graph.py:67-87 | no node after the planner changes the plan |
| Graph.AnswersComplete | src/deep_research/retry.py:85-87 | a chain that answers at once completes with its answer |
| Graph.ResearchQuiet | src/deep_research/nodes/researcher.py:89-93 | the researcher touches neither the loop count nor the revision flag nor the draft |
| Graph.ScopePlanQuiet | src/deep_research/nodes/scoper.py:21-32 | scope and plan touch neither the loop count nor the revision flag |
| Graph.SynthDrafts | src/deep_research/nodes/synthesizer.py:37-46 | a synthesizer that answers non-empty text sets a non-empty draft |
| Graph.SynthEmpty | src/deep_research/nodes/synthesizer.py:37-46 | a synthesizer that answers "" sets the empty draft and leaves the loop count alone |
| Graph.ReviewRejects | src/deep_research/nodes/reviewer.py:31-40 | a rejecting reviewer counts one more loop and asks for revision |
| Graph.PipelineRejecting | src/deep_research/graph.py:51-65 | a pipeline whose reviewer always rejects meets the rejecting-runner hypothesis |
| Graph.PipelineRejectingRun | src/deep_research/graph.py:67-87 | the five-node pipeline with a rejecting reviewer runs `2 + 3*max(N,1)` nodes and completes with the loop count at max(N,1) and revision still needed |
| Graph.PipelineEmptyDraft | src/deep_research/graph.py:51-65 | a pipeline whose synthesizer answers "" meets the empty-draft hypothesis |
| Graph.PipelineEmptyDraftSpins | src/deep_research/graph.py:73-87 | the pipeline with an empty draft and loops remaining never completes |
| Graph.PipelineGateway | src/deep_research/graph.py:39 | the pipeline holds a gateway exactly when servers are configured, freshly built and not started |
| Graph.Run | src/deep_research/graph.py:91-109 | definition: the drive from scope on the initial state, with the gateway the pipeline holds |
| Graph.StreamEvents | src/deep_research/graph.py:111-136 | one update event per executed node, in order, then one result event holding the merged state when the run completes |
| Graph.OneResultEvent | src/deep_research/graph.py:129-136 | a completed run's stream has exactly one result event, last; an unfinished one has none |
| Graph.StreamResultIsFinalState | src/deep_research/graph.py:128-136 | under overwriting merges, the streamed result, merged with `dict.update`, is the state the run completes with |
| Graph.StreamResultUnderConcatenation | src/deep_research/graph.py:128-136 | under the concatenating reducer, the streamed result agrees with the driver's final state on every key but `messages`, and its `messages` is the last update's |
| Llm.ModelName | src/deep_research/llm.py:14-17 | an id without "/" is its own name; otherwise the name is what follows the first "/" |
| Llm.ModelNameAfterProvider | src/deep_research/llm.py:14-17 | later "/"s stay in the name |
| Llm.BuildOpenAI | src/deep_research/llm.py:13-21 | succeeds exactly when the stripped key is non-empty, using the stripped key, the model name and temperature 0.2 |
| Llm.BuildGoogle | src/deep_research/llm.py:24-38 | succeeds exactly when the key is non-empty, using it unstripped, with no client retries and a 60-second timeout |
| Llm.OpenAIKeyStripped | src/deep_research/llm.py:18-20 | an OpenAI key never starts or ends with whitespace |
| Llm.BlankKeyOnlyRefusedForOpenAI | src/deep_research/llm.py:18-20 | a blank key is refused for OpenAI but accepted for Google |
| Llm.ErrorText | src/deep_research/llm.py:20-59 | definition: the texts of the three `ValueError`s raised at lines 20, 30 and 59 |
| Llm.BuildModel | src/deep_research/llm.py:54-59 | the id's prefix picks the builder; an id with neither prefix fails naming the role |
| Llm.ProviderFollowsPrefix | src/deep_research/llm.py:54-59 | a built model's provider is the one its id's prefix names |
| Llm.BuildAll | src/deep_research/llm.py:50-60 | on success each role gets its own model in order; on failure the error is the first failing role's |
| Llm.InitModels | src/deep_research/llm.py:41-60 | on success the registry has exactly the four roles in order, each with the model built from its own id; it fails exactly when some role's model cannot be built, with the error of the first role that fails |
| Llm.UnsupportedIdAborts | src/deep_research/llm.py:58-59 | an unsupported id for any one of the four roles makes the whole initialisation fail |
| Persistence.ToSerializable | src/deep_research/persistence.py:15-32 | a datetime becomes its ISO text; dataclasses, messages, lists and dicts keep their shape; other values are unchanged |
| Persistence.PlainUnchanged | src/deep_research/persistence.py:15-32 | a value with nothing to flatten comes back unchanged |
| Persistence.SerializedIsPlain | src/deep_research/persistence.py:15-32 | when messages hold plain parts, the result holds no datetime, dataclass or message |
| Persistence.SerializeIdempotent | src/deep_research/persistence.py:15-32 | serialising twice is serialising once, for values whose messages hold plain parts |
| Persistence.MessageContentNotFlattened | src/deep_research/persistence.py:20-27 | a datetime inside a message's content survives serialisation |
| Persistence.Lookup | src/deep_research/persistence.py:43-45 | a key is found exactly when present, with a value bound to it |
| Persistence.Assign | src/deep_research/persistence.py:44-45 | an existing key keeps its place, a new key is appended, and nothing else changes |
| Persistence.AssignLookup | src/deep_research/persistence.py:44-45 | after assigning, the key holds the new value and every other key its old one |
| Persistence.Payload | src/deep_research/persistence.py:42-45 | the payload holds `run_id` and `timestamp`, and every other key as the serialised state has it |
| Persistence.JsonPlain | src/deep_research/persistence.py:28-32 | a decoded review has nothing to flatten |
| Persistence.FindingLogged | src/deep_research/persistence.py:18-19 | a finding is logged as a dict of its four fields with the capture time as ISO text |
| Persistence.PayloadShape | src/deep_research/persistence.py:42-45 | `run_id` and `timestamp` follow the state's own keys, and every value is plain |
| Persistence.StateLogShape | src/deep_research/persistence.py:42-47 | a logged state has its nine keys in order, then `run_id` and `timestamp`, and is fully flattened |

## Left out

- The LangGraph runtime's recursion limit is a `fuel` bound on node executions, because the limit is not visible in these files. Running out of fuel is an `OutOfSteps` outcome rather than `GraphRecursionError`.
- The `messages` reducer is a parameter (`Overwrite` or `Concatenate`). `ResearchState.messages` declares `operator.add`, while every node returns the full transcript plus one message, so under that reducer each update doubles the transcript.
- `max_research_loops = N` gives max(N, 1) reviewer passes, because the router compares the count after the review increments it.
- Backoff timing (`wait_exponential`), floating-point scores and times, `uuid4`, `datetime.utcnow` and the file write are not modelled. The run id and timestamps are parameters, with one `now` per run for findings.
- `json.loads`, `json.dumps`, `str(exc)`, `repr` and `str(metadata)` are parameters, because their exact text is Python's.
- The Tavily client, the MCP stdio/SSE clients and the chat models are parameters: what each call answers is given, not computed.
- Tools.Start: a raise escaping `start()` outside its per-server `try` (for example from `AsyncExitStack` itself) is not modelled, so the researcher's `except` around `start` never fires in the model.
- Json.Get returns the first binding of a duplicated key, where Python's `json.loads` keeps the last one. Decoded objects are assumed to have distinct keys.
- Persistence.SerializeIdempotent requires that message content, name and extra arguments be plain, because the source does not flatten inside messages (see `MessageContentNotFlattened`).
- Persistence.Assign replaces the first binding of a key and assumes distinct keys, as a Python dict has.
- Tuples, sets and other containers passed to `_to_serializable` are not modelled, because the state holds none.
- Lower-casing is ASCII only. Keyword checks in the retry policy and the tool filter ignore non-ASCII case folding.
- Graph.Run: it has no contract of its own; it calls the driver, whose properties are stated above. The gateway a run leaves behind (started, with sessions) is not returned, because a trace does not carry it; a later run is modelled by passing that gateway in.
- Configuration loading, the prompts' exact wording, the CLI and the Streamlit front end are outside the modelled core.

=== FILE: graph.dfy ===
/** The research workflow: the initial state, the fixed edges scope -> plan -> research ->
    synth -> review, the review router that loops back to research, and a driver that runs
    the nodes of the pipeline in that order.

    The graph runtime is not part of the source, so the driver is explicit: it takes a
    step budget (`fuel`, standing for the runtime's recursion limit) and the way updates
    are merged (`MessageMerge`). The theorems below say how many research passes a rejecting
    reviewer causes, and that an empty draft makes the loop spin until the budget runs out.
 */
module Graph {
  import opened Wrappers
  import Json
  import Tools
  import opened State
  import Scoper
  import Planner
  import Researcher
  import Synthesizer
  import Reviewer

  datatype Node = Scope | Plan | Research | Synth | Review

  /** The router's two answers: "revise" (back to research) and "complete" (end). */
  datatype Route = Revise | Finish

  /** `review_router`: revise only while revision is needed and loops remain. */
  function Router(s: ResearchState, maxLoops: int): (r: Route)
    ensures r == Revise <==> s.needsRevision && s.loopCount < maxLoops
  {
    if s.needsRevision && s.loopCount < maxLoops then Revise else Finish
  }

  /** The node that runs after `node` given the merged state, or `None` at the end. */
  function Next(node: Node, s: ResearchState, maxLoops: int): (n: Option<Node>)
    ensures n.Some? && node != Scope ==> n.value != Scope && n.value != Plan
    ensures n.Some? && InCycle(node) ==> n.value == CycleNext(node)
    ensures n.None? <==> node == Review && Router(s, maxLoops) == Finish
  {
    match node
    case Scope => Some(Plan)
    case Plan => Some(Research)
    case Research => Some(Synth)
    case Synth => Some(Review)
    case Review => if Router(s, maxLoops) == Revise then Some(Research) else None
  }

  /** The node after `n` in the research cycle research -> synth -> review -> research. */
  function CycleNext(n: Node): Node {
    match n
    case Research => Synth
    case Synth => Review
    case _ => Research
  }

  predicate InCycle(n: Node) {
    n == Research || n == Synth || n == Review
  }

  // ---------------------------------------------------------------------------
  // The initial state

  /** The state a run starts from: the question as the first message, followed by the
      metadata's text only when metadata is given and not empty. */
  function InitialState(query: string, scope: Option<string>, metadata: Option<seq<(string, Json.Value)>>,
                        repr: seq<(string, Json.Value)> -> string): (s: ResearchState)
    ensures s.query == query && s.scope == scope
    ensures s.plan == [] && s.findings == [] && s.draftReport.None? && s.review.None?
    ensures !s.needsRevision && s.loopCount == 0
    ensures |s.messages| == (if metadata.Some? && metadata.value != [] then 2 else 1)
    ensures s.messages[0] == HumanMessage("Research question: " + query)
    ensures |s.messages| == 2 ==> s.messages[1] == HumanMessage(repr(metadata.value))
  {
    var base := [HumanMessage("Research question: " + query)];
    var messages := if metadata.Some? && metadata.value != [] then base + [HumanMessage(repr(metadata.value))] else base;
    ResearchState(query, scope, [], [], None, None, false, 0, messages)
  }

  // ---------------------------------------------------------------------------
  // The driver

  /** One node's result and the environment after it. */
  datatype Step<E> = Step(result: Result<Update, NodeError>, env: E)

  /** How nodes are run: a node, the merged state and an environment (for the pipeline,
      the MCP gateway) give the node's result and the next environment. */
  type Runner<!E> = (Node, ResearchState, E) -> Step<E>

  datatype Event = Event(node: Node, update: Update)

  datatype RunOutcome =
    | Completed(state: ResearchState)        // the router chose "complete"
    | Failed(node: Node, error: NodeError)   // a node raised
    | OutOfSteps(state: ResearchState)       // the step budget ran out

  datatype Trace = Trace(events: seq<Event>, outcome: RunOutcome)

  /** Merge the updates of `events` into `s`, in order. */
  function Fold(s: ResearchState, events: seq<Event>, mode: MessageMerge): ResearchState
    decreases |events|
  {
    if events == [] then s else Fold(Apply(s, events[0].update, mode), events[1..], mode)
  }

  /** Run from `node` on state `s` for at most `fuel` node executions. */
  function Drive<E>(run: Runner<E>, mode: MessageMerge, maxLoops: int, node: Node, s: ResearchState,
                    e: E, fuel: nat): Trace
    decreases fuel
  {
    if fuel == 0 then Trace([], OutOfSteps(s))
    else
      var step := run(node, s, e);
      match step.result
      case Failure(err) => Trace([], Failed(node, err))
      case Success(u) =>
        var s1 := Apply(s, u, mode);
        match Next(node, s1, maxLoops)
        case None => Trace([Event(node, u)], Completed(s1))
        case Some(n) =>
          var t := Drive(run, mode, maxLoops, n, s1, step.env, fuel - 1);
          assert ([Event(node, u)] + t.events)[1..] == t.events;
          Trace([Event(node, u)] + t.events, t.outcome)
  }

  /** A run makes at most `fuel` node executions. */
  lemma {:induction false} DriveLength<E>(run: Runner<E>, mode: MessageMerge, maxLoops: int, node: Node,
                                          s: ResearchState, e: E, fuel: nat)
    ensures |Drive(run, mode, maxLoops, node, s, e, fuel).events| <= fuel
    decreases fuel
  {
    if fuel > 0 && run(node, s, e).result.Success? {
      var step := run(node, s, e);
      var s1 := Apply(s, step.result.value, mode);
      var next := Next(node, s1, maxLoops);
      if next.Some? {
        DriveStepOutcome(run, mode, maxLoops, node, s, e, fuel, next.value);
        DriveLength(run, mode, maxLoops, next.value, s1, step.env, fuel - 1);
      } else {
        DriveLast(run, mode, maxLoops, node, s, e, fuel);
      }
    }
  }

  /** A completed run ends with review, the only node after which the router may choose
      "complete". */
  lemma {:induction false} DriveEndsWithReview<E>(run: Runner<E>, mode: MessageMerge, maxLoops: int, node: Node,
                                                  s: ResearchState, e: E, fuel: nat)
    ensures var t := Drive(run, mode, maxLoops, node, s, e, fuel);
            t.outcome.Completed? ==> |t.events| > 0 && t.events[|t.events| - 1].node == Review
    decreases fuel
  {
    if fuel > 0 && run(node, s, e).result.Success? {
      var step := run(node, s, e);
      var s1 := Apply(s, step.result.value, mode);
      var next := Next(node, s1, maxLoops);
      if next.Some? {
        var rest := Drive(run, mode, maxLoops, next.value, s1, step.env, fuel - 1);
        DriveStep(run, mode, maxLoops, node, s, e, fuel, next.value);
        DriveEndsWithReview(run, mode, maxLoops, next.value, s1, step.env, fuel - 1);
        if rest.outcome.Completed? {
          LastOfCons(Drive(run, mode, maxLoops, node, s, e, fuel).events, rest.events);
        }
      } else {
        DriveLast(run, mode, maxLoops, node, s, e, fuel);
      }
    }
  }

  /** An event in front of a non-empty sequence keeps its last element. */
  lemma LastOfCons(events: seq<Event>, rest: seq<Event>)
    requires |events| == |rest| + 1 && |rest| > 0
    requires forall k :: 0 < k < |events| ==> events[k] == rest[k - 1]
    ensures events[|events| - 1] == rest[|rest| - 1]
  {
  }

  /** A completed run ends in the initial state with every event's update merged into it,
      in the order the nodes ran. */
  lemma {:induction false} DriveFinalState<E>(run: Runner<E>, mode: MessageMerge, maxLoops: int, node: Node,
                                              s: ResearchState, e: E, fuel: nat)
    ensures var t := Drive(run, mode, maxLoops, node, s, e, fuel);
            t.outcome.Completed? ==> t.outcome.state == Fold(s, t.events, mode)
    decreases fuel
  {
    var t := Drive(run, mode, maxLoops, node, s, e, fuel);
    if fuel > 0 && run(node, s, e).result.Success? {
      var step := run(node, s, e);
      var u := step.result.value;
      var s1 := Apply(s, u, mode);
      var next := Next(node, s1, maxLoops);
      if next.Some? {
        var rest := Drive(run, mode, maxLoops, next.value, s1, step.env, fuel - 1);
        DriveStep(run, mode, maxLoops, node, s, e, fuel, next.value);
        assert t.outcome == rest.outcome && t.events[0].update == u;
        DriveFinalState(run, mode, maxLoops, next.value, s1, step.env, fuel - 1);
        assert rest.outcome.Completed? ==> rest.outcome.state == Fold(s1, rest.events, mode);
        FoldCons(s, t.events, rest.events, mode);
        assert Fold(s, t.events, mode) == Fold(s1, rest.events, mode);
      } else {
        DriveLast(run, mode, maxLoops, node, s, e, fuel);
        assert t == Trace([Event(node, u)], Completed(s1));
        FoldCons(s, t.events, [], mode);
        assert Fold(s, t.events, mode) == s1;
      }
    } else {
      assert !t.outcome.Completed?;
    }
  }

  /** Folding events is merging the first and folding the rest into the result. */
  lemma FoldCons(s: ResearchState, events: seq<Event>, rest: seq<Event>, mode: MessageMerge)
    requires |events| == |rest| + 1
    requires forall k :: 0 < k < |events| ==> events[k] == rest[k - 1]
    ensures Fold(s, events, mode) == Fold(Apply(s, events[0].update, mode), rest, mode)
  {
    assert events[1..] == rest;
  }

  /** From position `start` on, the events' nodes begin at `n` and follow the research cycle. */
  predicate CyclesFrom(events: seq<Event>, start: nat, n: Node) {
    && (start < |events| ==> events[start].node == n)
    && (forall k :: start <= k < |events| ==> InCycle(events[k].node))
    && (forall k :: start <= k && k + 1 < |events| ==> events[k + 1].node == CycleNext(events[k].node))
  }

  /** Only the planner sets `plan`. */
  ghost predicate OnlyPlannerPlans<E(!new)>(run: Runner<E>) {
    forall n: Node, s: ResearchState, e: E ::
      n != Plan && run(n, s, e).result.Success? ==> run(n, s, e).result.value.plan.None?
  }

  /** One step of the driver: a node that succeeds and is not the last puts its event in
      front of the run from the node after it. */
  lemma DriveStep<E>(run: Runner<E>, mode: MessageMerge, maxLoops: int, node: Node,
                     s: ResearchState, e: E, fuel: nat, next: Node)
    requires fuel > 0 && run(node, s, e).result.Success?
    requires Next(node, Apply(s, run(node, s, e).result.value, mode), maxLoops) == Some(next)
    ensures var u := run(node, s, e).result.value;
            var t := Drive(run, mode, maxLoops, node, s, e, fuel);
            var r := Drive(run, mode, maxLoops, next, Apply(s, u, mode), run(node, s, e).env, fuel - 1);
            && |t.events| == |r.events| + 1
            && t.events[0] == Event(node, u)
            && (forall k :: 0 < k < |t.events| ==> t.events[k] == r.events[k - 1])
            && t.outcome == r.outcome
  {
    var u := run(node, s, e).result.value;
    var r := Drive(run, mode, maxLoops, next, Apply(s, u, mode), run(node, s, e).env, fuel - 1);
    var events := [Event(node, u)] + r.events;
    assert Drive(run, mode, maxLoops, node, s, e, fuel) == Trace(events, r.outcome);
    assert forall k :: 0 < k < |events| ==> events[k] == r.events[k - 1];
  }

  /** One step of the driver, as far as the run's length and outcome go. */
  lemma DriveStepOutcome<E>(run: Runner<E>, mode: MessageMerge, maxLoops: int, node: Node,
                            s: ResearchState, e: E, fuel: nat, next: Node)
    requires fuel > 0 && run(node, s, e).result.Success?
    requires Next(node, Apply(s, run(node, s, e).result.value, mode), maxLoops) == Some(next)
    ensures var t := Drive(run, mode, maxLoops, node, s, e, fuel);
            var r := Drive(run, mode, maxLoops, next, Apply(s, run(node, s, e).result.value, mode), run(node, s, e).env, fuel - 1);
            |t.events| == |r.events| + 1 && t.outcome == r.outcome
  {
  }

  /** The last step of a completed run. */
  lemma DriveLast<E>(run: Runner<E>, mode: MessageMerge, maxLoops: int, node: Node,
                     s: ResearchState, e: E, fuel: nat)
    requires fuel > 0 && run(node, s, e).result.Success?
    requires Next(node, Apply(s, run(node, s, e).result.value, mode), maxLoops).None?
    ensures var u := run(node, s, e).result.value;
            Drive(run, mode, maxLoops, node, s, e, fuel) == Trace([Event(node, u)], Completed(Apply(s, u, mode)))
  {
  }

  /** From research on, nodes run in the cycle research, synth, review, ...: scope and plan
      never run again. */
  lemma {:induction false} LoopOrder<E>(run: Runner<E>, mode: MessageMerge, maxLoops: int, node: Node,
                                        s: ResearchState, e: E, fuel: nat)
    requires InCycle(node)
    ensures CyclesFrom(Drive(run, mode, maxLoops, node, s, e, fuel).events, 0, node)
    decreases fuel
  {
    if fuel > 0 && run(node, s, e).result.Success? {
      var step := run(node, s, e);
      var s1 := Apply(s, step.result.value, mode);
      var next := Next(node, s1, maxLoops);
      if next.Some? {
        DriveStep(run, mode, maxLoops, node, s, e, fuel, next.value);
        LoopOrder(run, mode, maxLoops, next.value, s1, step.env, fuel - 1);
        ConsCycles(Drive(run, mode, maxLoops, node, s, e, fuel).events,
                   Drive(run, mode, maxLoops, next.value, s1, step.env, fuel - 1).events, node);
      }
    }
  }

  /** An event of a cycle node in front of events that follow the cycle from the node after it. */
  lemma ConsCycles(events: seq<Event>, rest: seq<Event>, n: Node)
    requires InCycle(n)
    requires |events| == |rest| + 1 && events[0].node == n
    requires forall k :: 0 < k < |events| ==> events[k] == rest[k - 1]
    requires CyclesFrom(rest, 0, CycleNext(n))
    ensures CyclesFrom(events, 0, n)
  {
    forall k | 0 <= k && k + 1 < |events|
      ensures events[k + 1].node == CycleNext(events[k].node)
    {
      assert events[k + 1] == rest[k];
      if k > 0 {
        assert events[k] == rest[k - 1];
      }
    }
    forall k | 0 < k < |events|
      ensures InCycle(events[k].node)
    {
      assert events[k] == rest[k - 1];
    }
  }

  /** When only the planner sets the plan, no update after planning touches it, and a
      completed run ends with the plan it had then. */
  lemma {:induction false} LoopKeepsPlan<E(!new)>(run: Runner<E>, mode: MessageMerge, maxLoops: int, node: Node,
                                                  s: ResearchState, e: E, fuel: nat)
    requires OnlyPlannerPlans(run)
    requires node != Scope && node != Plan
    ensures var t := Drive(run, mode, maxLoops, node, s, e, fuel);
            && (forall k :: 0 <= k < |t.events| ==> t.events[k].update.plan.None?)
            && (t.outcome.Completed? ==> t.outcome.state.plan == s.plan)
    decreases fuel
  {
    if fuel > 0 && run(node, s, e).result.Success? {
      var step := run(node, s, e);
      assert step.result.value.plan.None?;
      var s1 := Apply(s, step.result.value, mode);
      var next := Next(node, s1, maxLoops);
      if next.Some? {
        var rest := Drive(run, mode, maxLoops, next.value, s1, step.env, fuel - 1);
        DriveStep(run, mode, maxLoops, node, s, e, fuel, next.value);
        LoopKeepsPlan(run, mode, maxLoops, next.value, s1, step.env, fuel - 1);
        assert rest.outcome.Completed? ==> rest.outcome.state.plan == s1.plan;
        ConsNoPlan(Drive(run, mode, maxLoops, node, s, e, fuel).events, rest.events);
      } else {
        DriveLast(run, mode, maxLoops, node, s, e, fuel);
      }
    }
  }

  /** From research on, with only the planner setting the plan, neither scope nor plan runs
      again and the plan stays as it was. */
  lemma ResearchKeepsPlan<E(!new)>(run: Runner<E>, mode: MessageMerge, maxLoops: int,
                                   s: ResearchState, e: E, fuel: nat)
    requires OnlyPlannerPlans(run)
    ensures var t := Drive(run, mode, maxLoops, Research, s, e, fuel);
            && (forall k :: 0 <= k < |t.events| ==> t.events[k].node != Scope && t.events[k].node != Plan)
            && (t.outcome.Completed? ==> t.outcome.state.plan == s.plan)
  {
    LoopOrder(run, mode, maxLoops, Research, s, e, fuel);
    LoopKeepsPlan(run, mode, maxLoops, Research, s, e, fuel);
  }

  /** An event that leaves the plan alone in front of events that do keeps them all so. */
  lemma ConsNoPlan(events: seq<Event>, rest: seq<Event>)
    requires |events| == |rest| + 1 && events[0].update.plan.None?
    requires forall k :: 0 < k < |events| ==> events[k] == rest[k - 1]
    requires forall k :: 0 <= k < |rest| ==> rest[k].update.plan.None?
    ensures forall k :: 0 <= k < |events| ==> events[k].update.plan.None?
  {
    forall k | 0 < k < |events|
      ensures events[k].update.plan.None?
    {
      assert events[k] == rest[k - 1];
    }
  }

  /** A run starts with scope and plan, then cycles research, synth, review. */
  lemma RunOrder<E>(run: Runner<E>, mode: MessageMerge, maxLoops: int, s: ResearchState, e: E, fuel: nat)
    ensures var t := Drive(run, mode, maxLoops, Scope, s, e, fuel);
            && (|t.events| > 0 ==> t.events[0].node == Scope)
            && (|t.events| > 1 ==> t.events[1].node == Plan)
            && CyclesFrom(t.events, 2, Research)
  {
    if fuel > 0 && run(Scope, s, e).result.Success? {
      var st := run(Scope, s, e);
      var s1 := Apply(s, st.result.value, mode);
      DriveStep(run, mode, maxLoops, Scope, s, e, fuel, Plan);
      PlanOrder(run, mode, maxLoops, s1, st.env, fuel - 1);
      ConsShiftsCycle(Drive(run, mode, maxLoops, Scope, s, e, fuel).events,
                      Drive(run, mode, maxLoops, Plan, s1, st.env, fuel - 1).events, 1, Research);
    }
  }

  /** From plan on, a run executes plan and then cycles research, synth, review. */
  lemma PlanOrder<E>(run: Runner<E>, mode: MessageMerge, maxLoops: int, s: ResearchState, e: E, fuel: nat)
    ensures var t := Drive(run, mode, maxLoops, Plan, s, e, fuel);
            && (|t.events| > 0 ==> t.events[0].node == Plan)
            && CyclesFrom(t.events, 1, Research)
  {
    if fuel > 0 && run(Plan, s, e).result.Success? {
      var st := run(Plan, s, e);
      var s1 := Apply(s, st.result.value, mode);
      DriveStep(run, mode, maxLoops, Plan, s, e, fuel, Research);
      LoopOrder(run, mode, maxLoops, Research, s1, st.env, fuel - 1);
      ConsShiftsCycle(Drive(run, mode, maxLoops, Plan, s, e, fuel).events,
                      Drive(run, mode, maxLoops, Research, s1, st.env, fuel - 1).events, 0, Research);
    }
  }

  /** One event in front of events that follow the cycle from `start` follows it from
      `start + 1`. */
  lemma ConsShiftsCycle(events: seq<Event>, rest: seq<Event>, start: nat, n: Node)
    requires |events| == |rest| + 1
    requires forall k :: 0 < k < |events| ==> events[k] == rest[k - 1]
    requires CyclesFrom(rest, start, n)
    ensures CyclesFrom(events, start + 1, n)
  {
    forall k | start + 1 <= k < |events|
      ensures InCycle(events[k].node)
    {
      assert events[k] == rest[k - 1];
    }
    forall k | start + 1 <= k && k + 1 < |events|
      ensures events[k + 1].node == CycleNext(events[k].node)
    {
      assert events[k] == rest[k - 1] && events[k + 1] == rest[k];
    }
  }

  // ---------------------------------------------------------------------------
  // How long the revise loop runs

  /** The number of research/synth/review passes an always-rejecting reviewer causes. */
  function Passes(maxLoops: int): (n: nat)
    ensures n >= 1 && (maxLoops >= 1 ==> n == maxLoops)
    ensures maxLoops < 1 ==> n == 1
  {
    if maxLoops < 1 then 1 else maxLoops
  }

  /** A successful update that leaves the loop count and the revision flag alone. */
  predicate Quiet(r: Result<Update, NodeError>) {
    r.Success? && r.value.loopCount.None? && r.value.needsRevision.None?
  }

  /** A successful synthesizer update with a non-empty draft. */
  predicate Drafts(r: Result<Update, NodeError>) {
    && r.Success? && r.value.loopCount.None? && r.value.needsRevision == Some(false)
    && r.value.draftReport.Some? && r.value.draftReport.value != ""
  }

  /** A successful review of `s` that counts one more loop and asks for revision. */
  predicate Rejected(r: Result<Update, NodeError>, s: ResearchState) {
    r.Success? && r.value.loopCount == Some(s.loopCount + 1) && r.value.needsRevision == Some(true)
  }

  /** Every node succeeds, drafts are non-empty, and every review of a draft rejects it. */
  ghost predicate RejectingRunner<E(!new)>(run: Runner<E>) {
    && (forall s: ResearchState, e: E :: Quiet(run(Scope, s, e).result))
    && (forall s: ResearchState, e: E :: Quiet(run(Plan, s, e).result))
    && (forall s: ResearchState, e: E :: Quiet(run(Research, s, e).result))
    && (forall s: ResearchState, e: E :: Drafts(run(Synth, s, e).result))
    && (forall s: ResearchState, e: E :: Reviewer.HasDraft(s) ==> Rejected(run(Review, s, e).result, s))
  }

  /** The nodes still to run when a rejecting runner is at `node` with `k` reviews done:
      the rest of this pass and `max(N, 1) - k - 1` more passes. */
  function Remaining(node: Node, k: int, maxLoops: int): int {
    3 * (Passes(maxLoops) - k) - (match node case Synth => 1 case Review => 2 case _ => 0)
  }

  /** From a node of the cycle with `k` reviews done and `k < max(N, 1)`, a rejecting runner
      runs exactly the remaining nodes of the `max(N, 1) - k` passes and completes with
      `loop_count == max(N, 1)` and `needs_revision` still set. */
  lemma {:induction false} RejectingLoop<E(!new)>(run: Runner<E>, mode: MessageMerge, maxLoops: int,
                                                  node: Node, s: ResearchState, e: E, fuel: nat)
    requires RejectingRunner(run)
    requires InCycle(node)
    requires node == Review ==> Reviewer.HasDraft(s)
    requires 0 <= s.loopCount < Passes(maxLoops)
    requires fuel >= Remaining(node, s.loopCount, maxLoops)
    ensures var t := Drive(run, mode, maxLoops, node, s, e, fuel);
            && t.outcome.Completed?
            && t.outcome.state.loopCount == Passes(maxLoops)
            && t.outcome.state.needsRevision
            && |t.events| == Remaining(node, s.loopCount, maxLoops)
    decreases Remaining(node, s.loopCount, maxLoops)
  {
    var step := run(node, s, e);
    var s1 := Apply(s, step.result.value, mode);
    if node == Research {
      assert Quiet(step.result);
      DriveStepOutcome(run, mode, maxLoops, node, s, e, fuel, Synth);
      RejectingLoop(run, mode, maxLoops, Synth, s1, step.env, fuel - 1);
    } else if node == Synth {
      assert Drafts(step.result);
      assert Reviewer.HasDraft(s1);
      DriveStepOutcome(run, mode, maxLoops, node, s, e, fuel, Review);
      RejectingLoop(run, mode, maxLoops, Review, s1, step.env, fuel - 1);
    } else {
      assert Rejected(step.result, s);
      assert s1.loopCount == s.loopCount + 1 && s1.needsRevision;
      if s1.loopCount < maxLoops {
        DriveStepOutcome(run, mode, maxLoops, node, s, e, fuel, Research);
        RejectingLoop(run, mode, maxLoops, Research, s1, step.env, fuel - 1);
      } else {
        DriveLast(run, mode, maxLoops, node, s, e, fuel);
        assert s1.loopCount == Passes(maxLoops);
      }
    }
  }

  /** The headline count: with an always-rejecting reviewer and `max_research_loops = N`,
      a run makes exactly `max(N, 1)` research/synth/review passes (not `N + 1`) and ends
      with `loop_count == max(N, 1)` and `needs_revision` set. */
  lemma RejectingRunPasses<E(!new)>(run: Runner<E>, mode: MessageMerge, maxLoops: int,
                              s: ResearchState, e: E, fuel: nat)
    requires RejectingRunner(run)
    requires s.loopCount == 0
    requires fuel >= 2 + 3 * Passes(maxLoops)
    ensures var t := Drive(run, mode, maxLoops, Scope, s, e, fuel);
            && t.outcome.Completed?
            && t.outcome.state.loopCount == Passes(maxLoops)
            && t.outcome.state.needsRevision
            && |t.events| == 2 + 3 * Passes(maxLoops)
  {
    var st := run(Scope, s, e);
    var s1 := Apply(s, st.result.value, mode);
    var st2 := run(Plan, s1, st.env);
    var s2 := Apply(s1, st2.result.value, mode);
    var f1 := fuel - 1;
    var f2 := f1 - 1;
    DriveStepOutcome(run, mode, maxLoops, Scope, s, e, fuel, Plan);
    DriveStepOutcome(run, mode, maxLoops, Plan, s1, st.env, f1, Research);
    RejectingLoop(run, mode, maxLoops, Research, s2, st2.env, f2);
  }

  /** A runner whose synthesizer drafts "" while the other nodes succeed quietly; a review
      without a draft only raises the revision flag. */
  ghost predicate EmptyDraftRunner<E(!new)>(run: Runner<E>) {
    && (forall s: ResearchState, e: E :: Quiet(run(Research, s, e).result)
                                          && run(Research, s, e).result.value.draftReport.None?)
    && (forall s: ResearchState, e: E :: run(Synth, s, e).result.Success?
                                          && run(Synth, s, e).result.value.draftReport == Some("")
                                          && run(Synth, s, e).result.value.loopCount.None?)
    && (forall s: ResearchState, e: E :: !Reviewer.HasDraft(s) ==>
                                          run(Review, s, e).result == Success(NoUpdate.(needsRevision := Some(true))))
  }

  /** The empty-draft hazard: when the synthesizer answers "" the reviewer short-circuits
      without counting, so while `loop_count < max_research_loops` the router keeps
      choosing "revise" and the run never completes; it only stops when the step budget
      runs out. */
  lemma {:induction false} EmptyDraftNeverCompletes<E(!new)>(run: Runner<E>, mode: MessageMerge, maxLoops: int,
                                                             node: Node, s: ResearchState, e: E, fuel: nat)
    requires EmptyDraftRunner(run)
    requires s.loopCount < maxLoops
    requires InCycle(node)
    requires node == Review ==> !Reviewer.HasDraft(s)
    ensures Drive(run, mode, maxLoops, node, s, e, fuel).outcome.OutOfSteps?
    decreases fuel
  {
    if fuel > 0 {
      var step := run(node, s, e);
      var s1 := Apply(s, step.result.value, mode);
      assert s1.loopCount == s.loopCount;
      assert node == Synth ==> s1.draftReport == Some("");
      assert Next(node, s1, maxLoops) == Some(CycleNext(node));
      EmptyDraftNeverCompletes(run, mode, maxLoops, CycleNext(node), s1, step.env, fuel - 1);
    }
  }

  /** With `max_research_loops = 0` an empty draft ends the run after one pass. */
  lemma EmptyDraftZeroLoopsCompletes<E(!new)>(run: Runner<E>, mode: MessageMerge, s: ResearchState, e: E, fuel: nat)
    requires EmptyDraftRunner(run)
    requires s.loopCount >= 0 && fuel >= 3
    ensures Drive(run, mode, 0, Research, s, e, fuel).outcome.Completed?
    ensures |Drive(run, mode, 0, Research, s, e, fuel).events| == 3
  {
    var r := run(Research, s, e);
    var s1 := Apply(s, r.result.value, mode);
    var y := run(Synth, s1, r.env);
    var s2 := Apply(s1, y.result.value, mode);
    assert !Reviewer.HasDraft(s2);
    var v := run(Review, s2, y.env);
    var s3 := Apply(s2, v.result.value, mode);
    assert Next(Review, s3, 0) == None;
    var f1 := fuel - 1;
    var f2 := f1 - 1;
    DriveStepOutcome(run, mode, 0, Research, s, e, fuel, Synth);
    DriveStepOutcome(run, mode, 0, Synth, s1, r.env, f1, Review);
    DriveLast(run, mode, 0, Review, s2, y.env, f2);
  }

  // ---------------------------------------------------------------------------
  // The pipeline's nodes

  /** Everything outside the workflow that its nodes consult: one chain per model role
      (scope and plan share the summarising model), the optional search tool, the MCP
      environment, `str(exc)` for tool errors, `json.loads`/`json.dumps` and the clock. */
  datatype Pipeline = Pipeline(
    summarizer: Chain,
    researcher: Chain,
    synthesizer: Chain,
    reviewer: Chain,
    search: Option<Researcher.SearchTool>,
    env: Tools.McpEnv,
    explain: Tools.InvokeError -> string,
    loads: string -> Json.Parsed,
    dumps: Json.Value -> string,
    now: Timestamp)

  /** One node of the pipeline; only the researcher touches the MCP gateway. */
  function RunNode(p: Pipeline, node: Node, s: ResearchState, gw: Option<Tools.Gateway>): (r: Step<Option<Tools.Gateway>>)
    ensures node != Research ==> r.env == gw
  {
    match node
    case Scope => Step(Scoper.ScoperNode(s, p.summarizer), gw)
    case Plan => Step(Planner.PlannerNode(s, p.summarizer), gw)
    case Research =>
      var run := Researcher.ResearcherNode(s, p.researcher, p.search, gw, p.env, p.explain, p.now);
      Step(run.result, run.gateway)
    case Synth => Step(Synthesizer.SynthesizerNode(s, p.synthesizer), gw)
    case Review => Step(Reviewer.ReviewerNode(s, p.reviewer, p.loads, p.dumps), gw)
  }

  function PipelineRunner(p: Pipeline): Runner<Option<Tools.Gateway>> {
    (n: Node, s: ResearchState, gw: Option<Tools.Gateway>) => RunNode(p, n, s, gw)
  }

  /** The keys each node sets when it succeeds. */
  function NodeKeys(node: Node): set<Key> {
    match node
    case Scope => {ScopeKey, MessagesKey}
    case Plan => {PlanKey, MessagesKey}
    case Research => {FindingsKey, MessagesKey}
    case Synth => {DraftReportKey, NeedsRevisionKey, MessagesKey}
    case Review => {ReviewKey, NeedsRevisionKey, MessagesKey, LoopCountKey}
  }

  /** Every node sets exactly its own keys, except that the reviewer sets only
      `needs_revision` when there is no draft. */
  lemma NodeUpdateKeys(p: Pipeline, node: Node, s: ResearchState, gw: Option<Tools.Gateway>)
    requires RunNode(p, node, s, gw).result.Success?
    ensures var ks := Keys(RunNode(p, node, s, gw).result.value);
            ks == NodeKeys(node) || (node == Review && ks == {NeedsRevisionKey})
  {
  }

  /** In the pipeline only the planner sets the plan. */
  lemma PipelineOnlyPlannerPlans(p: Pipeline)
    ensures OnlyPlannerPlans(PipelineRunner(p))
  {
    forall n: Node, s: ResearchState, gw: Option<Tools.Gateway> | n != Plan && RunNode(p, n, s, gw).result.Success?
      ensures RunNode(p, n, s, gw).result.value.plan.None?
    {
      NodeUpdateKeys(p, n, s, gw);
    }
  }

  /** The plan a run uses is the planner's: no later node changes it. */
  lemma PlanFixedAfterPlanning(p: Pipeline, mode: MessageMerge, maxLoops: int, s: ResearchState,
                               gw: Option<Tools.Gateway>, fuel: nat)
    ensures var t := Drive(PipelineRunner(p), mode, maxLoops, Research, s, gw, fuel);
            && (forall k :: 0 <= k < |t.events| ==> t.events[k].node != Scope && t.events[k].node != Plan)
            && (t.outcome.Completed? ==> t.outcome.state.plan == s.plan)
  {
    PipelineOnlyPlannerPlans(p);
    ResearchKeepsPlan(PipelineRunner(p), mode, maxLoops, s, gw, fuel);
  }

  /** The chain's first attempt answers every prompt. */
  ghost predicate Answers(chain: Chain) {
    forall pr: Prompt :: chain(pr)(0).Returned?
  }

  /** The chain's first attempt answers every prompt with non-empty text. */
  ghost predicate AnswersNonEmpty(chain: Chain) {
    forall pr: Prompt :: chain(pr)(0).Returned? && chain(pr)(0).value != ""
  }

  /** The chain's first attempt answers every prompt with "". */
  ghost predicate AnswersEmpty(chain: Chain) {
    forall pr: Prompt :: chain(pr)(0) == Retry.Returned("")
  }

  /** A reviewer answer that rejects: not JSON, or an object whose `approved` is falsy. */
  predicate Rejects(loads: string -> Json.Parsed, raw: string) {
    loads(raw).NotJson? || (loads(raw).ParsedObject? && Reviewer.NeedsRevision(loads(raw).fields))
  }

  /** The reviewing chain answers every prompt, always with a rejection. */
  ghost predicate AlwaysRejects(chain: Chain, loads: string -> Json.Parsed) {
    forall pr: Prompt :: chain(pr)(0).Returned? && Rejects(loads, chain(pr)(0).value)
  }

  /** Every model answers at once; drafts are non-empty and every review rejects. */
  ghost predicate RejectingPipeline(p: Pipeline) {
    && Answers(p.summarizer)
    && Answers(p.researcher)
    && AnswersNonEmpty(p.synthesizer)
    && AlwaysRejects(p.reviewer, p.loads)
  }

  lemma AnswersComplete(chain: Chain, pr: Prompt)
    requires Answers(chain)
    ensures Complete(chain, pr) == Success(chain(pr)(0).value)
  {
    CompleteFirstAttempt(chain, pr, chain(pr)(0).value);
  }

  /** A researcher whose model answers at once touches neither the loop count, the
      revision flag nor the draft. */
  lemma ResearchQuiet(s: ResearchState, chain: Chain, tool: Option<Researcher.SearchTool>,
                      gw: Option<Tools.Gateway>, env: Tools.McpEnv,
                      explain: Tools.InvokeError -> string, now: Timestamp)
    requires Answers(chain)
    ensures var r := Researcher.ResearcherNode(s, chain, tool, gw, env, explain, now).result;
            Quiet(r) && r.value.draftReport.None?
  {
    var steps := Researcher.EffectiveSteps(s.plan);
    var gathered := Researcher.Gathered(s, tool, gw, env, explain, now);
    AnswersComplete(chain, Researcher.ResearcherPrompt(s.query, steps, gathered));
    UnsetIsAbsent(Researcher.ResearcherNode(s, chain, tool, gw, env, explain, now).result.value);
  }

  /** Scope and plan, with a model that answers at once, touch neither the loop count nor
      the revision flag. */
  lemma ScopePlanQuiet(s: ResearchState, chain: Chain)
    requires Answers(chain)
    ensures Quiet(Scoper.ScoperNode(s, chain)) && Quiet(Planner.PlannerNode(s, chain))
  {
    AnswersComplete(chain, Scoper.ScoperPrompt(s));
    UnsetIsAbsent(Scoper.ScoperNode(s, chain).value);
    AnswersComplete(chain, Planner.PlannerPrompt(s));
    UnsetIsAbsent(Planner.PlannerNode(s, chain).value);
  }

  /** A synthesizer whose model answers non-empty text sets a non-empty draft, clears the
      revision flag and leaves the loop count alone. */
  lemma SynthDrafts(s: ResearchState, chain: Chain)
    requires AnswersNonEmpty(chain)
    ensures Drafts(Synthesizer.SynthesizerNode(s, chain))
  {
    var pr := Synthesizer.SynthesizerPrompt(s);
    CompleteFirstAttempt(chain, pr, chain(pr)(0).value);
    UnsetIsAbsent(Synthesizer.SynthesizerNode(s, chain).value);
  }

  /** A synthesizer whose model answers "" sets the empty draft and leaves the loop count
      alone. */
  lemma SynthEmpty(s: ResearchState, chain: Chain)
    requires AnswersEmpty(chain)
    ensures var r := Synthesizer.SynthesizerNode(s, chain);
            r.Success? && r.value.draftReport == Some("") && r.value.loopCount.None?
  {
    CompleteFirstAttempt(chain, Synthesizer.SynthesizerPrompt(s), "");
    UnsetIsAbsent(Synthesizer.SynthesizerNode(s, chain).value);
  }

  /** A reviewer whose model always rejects counts one more loop on a draft and asks for
      revision. */
  lemma ReviewRejects(s: ResearchState, chain: Chain, loads: string -> Json.Parsed, dumps: Json.Value -> string)
    requires AlwaysRejects(chain, loads) && Reviewer.HasDraft(s)
    ensures Rejected(Reviewer.ReviewerNode(s, chain, loads, dumps), s)
  {
    var pr := Reviewer.ReviewerPrompt(s);
    var raw := chain(pr)(0).value;
    CompleteFirstAttempt(chain, pr, raw);
    assert Rejects(loads, raw);
  }

  /** A rejecting pipeline is a rejecting runner. */
  lemma PipelineRejecting(p: Pipeline)
    requires RejectingPipeline(p)
    ensures RejectingRunner(PipelineRunner(p))
  {
    PipelineScopePlanQuiet(p);
    PipelineResearchSynth(p);
    PipelineReviewRejects(p);
  }

  lemma PipelineScopePlanQuiet(p: Pipeline)
    requires Answers(p.summarizer)
    ensures forall s: ResearchState, gw: Option<Tools.Gateway> :: Quiet(RunNode(p, Scope, s, gw).result)
    ensures forall s: ResearchState, gw: Option<Tools.Gateway> :: Quiet(RunNode(p, Plan, s, gw).result)
  {
    forall s: ResearchState, gw: Option<Tools.Gateway>
      ensures Quiet(RunNode(p, Scope, s, gw).result)
    {
      ScopePlanQuiet(s, p.summarizer);
    }
    forall s: ResearchState, gw: Option<Tools.Gateway>
      ensures Quiet(RunNode(p, Plan, s, gw).result)
    {
      ScopePlanQuiet(s, p.summarizer);
    }
  }

  lemma PipelineResearchSynth(p: Pipeline)
    requires Answers(p.researcher) && AnswersNonEmpty(p.synthesizer)
    ensures forall s: ResearchState, gw: Option<Tools.Gateway> :: Quiet(RunNode(p, Research, s, gw).result)
    ensures forall s: ResearchState, gw: Option<Tools.Gateway> :: Drafts(RunNode(p, Synth, s, gw).result)
  {
    forall s: ResearchState, gw: Option<Tools.Gateway>
      ensures Quiet(RunNode(p, Research, s, gw).result)
    {
      ResearchQuiet(s, p.researcher, p.search, gw, p.env, p.explain, p.now);
    }
    forall s: ResearchState, gw: Option<Tools.Gateway>
      ensures Drafts(RunNode(p, Synth, s, gw).result)
    {
      SynthDrafts(s, p.synthesizer);
    }
  }

  lemma PipelineReviewRejects(p: Pipeline)
    requires AlwaysRejects(p.reviewer, p.loads)
    ensures forall s: ResearchState, gw: Option<Tools.Gateway> ::
              Reviewer.HasDraft(s) ==> Rejected(RunNode(p, Review, s, gw).result, s)
  {
    forall s: ResearchState, gw: Option<Tools.Gateway> | Reviewer.HasDraft(s)
      ensures Rejected(RunNode(p, Review, s, gw).result, s)
    {
      ReviewRejects(s, p.reviewer, p.loads, p.dumps);
    }
  }

  /** For the pipeline itself: with every review rejecting and `max_research_loops = N`, a
      run executes exactly `2 + 3 * max(N, 1)` nodes, that is `max(N, 1)` review passes,
      and ends with `loop_count == max(N, 1)`. */
  lemma PipelineRejectingRun(p: Pipeline, mode: MessageMerge, maxLoops: int, s: ResearchState,
                             gw: Option<Tools.Gateway>, fuel: nat)
    requires RejectingPipeline(p) && s.loopCount == 0
    requires fuel >= 2 + 3 * Passes(maxLoops)
    ensures var t := Drive(PipelineRunner(p), mode, maxLoops, Scope, s, gw, fuel);
            && t.outcome.Completed?
            && t.outcome.state.loopCount == Passes(maxLoops)
            && t.outcome.state.needsRevision
            && |t.events| == 2 + 3 * Passes(maxLoops)
  {
    PipelineRejecting(p);
    RejectingRunPasses(PipelineRunner(p), mode, maxLoops, s, gw, fuel);
  }

  /** A pipeline whose synthesizer answers "" is an empty-draft runner. */
  lemma PipelineEmptyDraft(p: Pipeline)
    requires Answers(p.researcher) && AnswersEmpty(p.synthesizer)
    ensures EmptyDraftRunner(PipelineRunner(p))
  {
    forall s: ResearchState, gw: Option<Tools.Gateway>
      ensures Quiet(RunNode(p, Research, s, gw).result) && RunNode(p, Research, s, gw).result.value.draftReport.None?
      ensures RunNode(p, Synth, s, gw).result.Success? && RunNode(p, Synth, s, gw).result.value.draftReport == Some("")
      ensures RunNode(p, Synth, s, gw).result.value.loopCount.None?
    {
      ResearchQuiet(s, p.researcher, p.search, gw, p.env, p.explain, p.now);
      SynthEmpty(s, p.synthesizer);
    }
  }

  /** For the pipeline itself: an empty draft with loops remaining never completes. */
  lemma PipelineEmptyDraftSpins(p: Pipeline, mode: MessageMerge, maxLoops: int, s: ResearchState,
                                gw: Option<Tools.Gateway>, fuel: nat)
    requires Answers(p.researcher) && AnswersEmpty(p.synthesizer)
    requires s.loopCount < maxLoops
    ensures Drive(PipelineRunner(p), mode, maxLoops, Research, s, gw, fuel).outcome.OutOfSteps?
  {
    PipelineEmptyDraft(p);
    EmptyDraftNeverCompletes(PipelineRunner(p), mode, maxLoops, Research, s, gw, fuel);
  }

  /** The pipeline's MCP gateway, built once with the pipeline: present exactly when
      servers are configured, and not started until the researcher first needs it. */
  function PipelineGateway(servers: seq<Tools.ServerConfig>): (gw: Option<Tools.Gateway>)
    ensures gw.None? <==> servers == []
    ensures gw.Some? ==> Tools.Wf(gw.value) && !gw.value.started && gw.value.servers == servers
  {
    if servers == [] then None else Some(Tools.NewGateway(servers))
  }

  /** `run(query, scope=..., metadata=...)`: the run starts at the scope node from the
      initial state, with the gateway the pipeline holds, as earlier runs left it. */
  function Run(p: Pipeline, mode: MessageMerge, maxLoops: int, gw: Option<Tools.Gateway>,
               query: string, scope: Option<string>, metadata: Option<seq<(string, Json.Value)>>,
               repr: seq<(string, Json.Value)> -> string, fuel: nat): Trace
  {
    Drive(PipelineRunner(p), mode, maxLoops, Scope, InitialState(query, scope, metadata, repr), gw, fuel)
  }

  // ---------------------------------------------------------------------------
  // Streaming

  datatype StreamEvent = UpdateEvent(node: Node, update: Update) | ResultEvent(state: ResearchState)

  /** What `run_stream` yields for a run: one update event per node in the order the nodes
      ran, then, when the run completes, one result event carrying the initial state with
      every update written over it key by key. */
  function StreamEvents(initial: ResearchState, t: Trace): (evs: seq<StreamEvent>)
    ensures |evs| == |t.events| + (if t.outcome.Completed? then 1 else 0)
    ensures forall k :: 0 <= k < |t.events| ==> evs[k] == UpdateEvent(t.events[k].node, t.events[k].update)
    ensures t.outcome.Completed? ==> evs[|evs| - 1] == ResultEvent(Fold(initial, t.events, Overwrite))
  {
    var updates := seq(|t.events|, k requires 0 <= k < |t.events| => UpdateEvent(t.events[k].node, t.events[k].update));
    if t.outcome.Completed? then updates + [ResultEvent(Fold(initial, t.events, Overwrite))] else updates
  }

  /** A stream carries exactly one result event when the run completes, as its last event,
      and none otherwise. */
  lemma OneResultEvent(initial: ResearchState, t: Trace)
    ensures var evs := StreamEvents(initial, t);
            && (forall k :: 0 <= k < |evs| - 1 ==> evs[k].UpdateEvent?)
            && (evs != [] && evs[|evs| - 1].ResultEvent? <==> t.outcome.Completed?)
  {
  }

  /** Under overwriting merges the streamed result is the state the driver completes with. */
  lemma StreamResultIsFinalState<E>(run: Runner<E>, maxLoops: int, node: Node, s: ResearchState, e: E, fuel: nat)
    requires Drive(run, Overwrite, maxLoops, node, s, e, fuel).outcome.Completed?
    ensures var t := Drive(run, Overwrite, maxLoops, node, s, e, fuel);
            StreamEvents(s, t)[|t.events|] == ResultEvent(t.outcome.state)
  {
    DriveFinalState(run, Overwrite, maxLoops, node, s, e, fuel);
  }

  /** Under the concatenating reducer the streamed result agrees with the driver's final
      state on every key but `messages`; its `messages` is what the last update returned,
      because `dict.update` replaces the list the reducer extends. */
  lemma StreamResultUnderConcatenation<E>(run: Runner<E>, maxLoops: int, node: Node, s: ResearchState, e: E, fuel: nat)
    requires Drive(run, Concatenate, maxLoops, node, s, e, fuel).outcome.Completed?
    ensures var t := Drive(run, Concatenate, maxLoops, node, s, e, fuel);
            var ev := StreamEvents(s, t)[|t.events|];
            && ev.ResultEvent?
            && ev.state.(messages := t.outcome.state.messages) == t.outcome.state
            && (t.events != [] && t.events[|t.events| - 1].update.messages.Some? ==>
                  ev.state.messages == t.events[|t.events| - 1].update.messages.value)
  {
    var t := Drive(run, Concatenate, maxLoops, node, s, e, fuel);
    DriveFinalState(run, Concatenate, maxLoops, node, s, e, fuel);
    FoldAgreesBesideMessages(s, s, t.events);
    if t.events != [] {
      var n := |t.events| - 1;
      assert t.events == t.events[..n] + [t.events[n]];
      FoldSnoc(s, t.events[..n], t.events[n], Overwrite);
    }
  }

  /** Folding with either reducer from states that differ only in `messages` gives states
      that differ only in `messages`. */
  lemma {:induction false} FoldAgreesBesideMessages(a: ResearchState, b: ResearchState, events: seq<Event>)
    requires a.(messages := b.messages) == b
    ensures Fold(a, events, Overwrite).(messages := Fold(b, events, Concatenate).messages)
            == Fold(b, events, Concatenate)
    decreases |events|
  {
    if events != [] {
      var u := events[0].update;
      FoldAgreesBesideMessages(Apply(a, u, Overwrite), Apply(b, u, Concatenate), events[1..]);
    }
  }

  /** The last event is merged last. */
  lemma {:induction false} FoldSnoc(s: ResearchState, events: seq<Event>, ev: Event, mode: MessageMerge)
    ensures Fold(s, events + [ev], mode) == Apply(Fold(s, events, mode), ev.update, mode)
    decreases |events|
  {
    if events == [] {
      assert events + [ev] == [ev];
    } else {
      assert (events + [ev])[1..] == events[1..] + [ev];
      FoldSnoc(Apply(s, events[0].update, mode), events[1..], ev, mode);
    }
  }
}

=== FILE: json.dfy ===
/** JSON-shaped values as `json.loads` produces them and `json.dumps` consumes them.

    Parsing and printing themselves are external: the modules that need them take
    `json.loads`/`json.dumps` as function parameters.
 */
module Json {
  import opened Wrappers

  datatype Value =
    | Null
    | Bool(b: bool)
    | Int(i: int)
    | Real(r: real)
    | Str(s: string)
    | Array(items: seq<Value>)
    | Object(fields: seq<(string, Value)>)

  /** Python truthiness of a decoded value (`bool(x)`). */
  predicate Truthy(v: Value) {
    match v
    case Null => false
    case Bool(b) => b
    case Int(i) => i != 0
    case Real(r) => r != 0.0
    case Str(s) => s != ""
    case Array(items) => |items| > 0
    case Object(fields) => |fields| > 0
  }

  /** `d.get(key)` on a decoded object: the first binding of `key`, if any. */
  function Get(fields: seq<(string, Value)>, key: string): (r: Option<Value>)
    ensures r.Some? <==> exists k :: 0 <= k < |fields| && fields[k].0 == key
    ensures r.Some? ==> exists k :: 0 <= k < |fields| && fields[k] == (key, r.value)
    decreases |fields|
  {
    if |fields| == 0 then None
    else if fields[0].0 == key then Some(fields[0].1)
    else
      var r := Get(fields[1..], key);
      assert forall k :: 0 < k < |fields| ==> fields[k] == fields[1..][k - 1];
      r
  }

  /** What `json.loads(text)` yields, split the way a caller that then calls `.get` must
      distinguish it: an object, any other JSON value, or a decode error. */
  datatype Parsed = ParsedObject(fields: seq<(string, Value)>) | ParsedOther(value: Value) | NotJson
}

=== FILE: llm.dfy ===
/** Building the chat models for the four agent roles from configured model ids: the id's
    prefix picks the provider, the text after the first "/" is the model name, and each
    provider insists on an API key. The client constructors themselves are recorded as the
    arguments they would receive. */
module Llm {
  import opened Wrappers
  import opened Strings

  datatype Provider = OpenAI | Google

  /** The arguments a chat model is constructed with. */
  datatype ChatModel = ChatModel(
    provider: Provider,
    name: string,
    apiKey: string,
    temperature: real,
    maxRetries: Option<nat>,   // the Google client is told not to retry on its own
    timeout: Option<nat>)

  datatype InitError =
    | MissingKey(provider: Provider)
    | UnsupportedModel(modelId: string, role: string)

  const Temperature: real := 0.2
  const GoogleMaxRetries: nat := 0
  const GoogleTimeout: nat := 60

  /** The text of the `ValueError` each failure raises. */
  function ErrorText(e: InitError): string {
    match e
    case MissingKey(OpenAI) => "OPENAI_API_KEY missing but required for OpenAI models"
    case MissingKey(Google) => "GOOGLE_API_KEY missing but required for Google models"
    case UnsupportedModel(id, role) => "Unsupported model id '" + id + "' for role " + role
  }

  /** The characters Python's argument-less `str.strip()` removes (those `str.isspace()`
      accepts). */
  const PyWhitespace: set<char> := {
    '\t', '\n', '\U{000B}', '\U{000C}', '\r', '\U{001C}', '\U{001D}', '\U{001E}', '\U{001F}', ' ',
    '\U{0085}', '\U{00A0}', '\U{1680}', '\U{2000}', '\U{2001}', '\U{2002}', '\U{2003}', '\U{2004}',
    '\U{2005}', '\U{2006}', '\U{2007}', '\U{2008}', '\U{2009}', '\U{200A}', '\U{2028}', '\U{2029}',
    '\U{202F}', '\U{205F}', '\U{3000}'}

  // ---------------------------------------------------------------------------
  // Model names

  /** The index of the first "/" in `s`, or `|s|` when there is none. */
  function SlashIndex(s: string): (i: nat)
    ensures i <= |s|
    ensures forall k :: 0 <= k < i ==> s[k] != '/'
    ensures i < |s| ==> s[i] == '/'
    decreases |s|
  {
    if |s| == 0 || s[0] == '/' then 0 else 1 + SlashIndex(s[1..])
  }

  /** `model_id.split("/", maxsplit=1)[1]` when the id holds a "/", else the whole id. */
  function ModelName(modelId: string): (name: string)
    ensures '/' !in modelId ==> name == modelId
    ensures '/' in modelId ==> |name| < |modelId|
    ensures '/' in modelId ==>
              var head := modelId[..|modelId| - |name| - 1];
              modelId == head + "/" + name && '/' !in head
  {
    var i := SlashIndex(modelId);
    if i == |modelId| then modelId
    else
      assert modelId == modelId[..i] + "/" + modelId[i + 1..];
      modelId[i + 1..]
  }

  /** The name is what follows the provider: later "/"s stay in the name. */
  lemma ModelNameAfterProvider(provider: string, name: string)
    requires '/' !in provider
    ensures ModelName(provider + "/" + name) == name
  {
    var id := provider + "/" + name;
    assert id[|provider|] == '/';
    assert id[..|provider|] == provider;
    assert id[|provider| + 1..] == name;
  }

  // ---------------------------------------------------------------------------
  // The two builders

  /** `_build_openai`: the key is stripped first, and a missing or blank key fails. */
  function BuildOpenAI(modelId: string, apiKey: Option<string>): (r: Result<ChatModel, InitError>)
    ensures r.Success? <==> apiKey.Some? && Strip(apiKey.value, PyWhitespace) != ""
    ensures r.Failure? ==> r.error == MissingKey(OpenAI)
    ensures r.Success? ==>
              && r.value.provider == OpenAI
              && r.value.name == ModelName(modelId)
              && r.value.apiKey == Strip(apiKey.value, PyWhitespace)
              && r.value.temperature == Temperature
              && r.value.maxRetries.None? && r.value.timeout.None?
  {
    var key := if apiKey.Some? && apiKey.value != "" then Some(Strip(apiKey.value, PyWhitespace)) else None;
    if key.None? || key.value == "" then Failure(MissingKey(OpenAI))
    else Success(ChatModel(OpenAI, ModelName(modelId), key.value, Temperature, None, None))
  }

  /** `_build_google`: the key is used as given, and only a missing or empty key fails. */
  function BuildGoogle(modelId: string, apiKey: Option<string>): (r: Result<ChatModel, InitError>)
    ensures r.Success? <==> apiKey.Some? && apiKey.value != ""
    ensures r.Failure? ==> r.error == MissingKey(Google)
    ensures r.Success? ==>
              && r.value.provider == Google
              && r.value.name == ModelName(modelId)
              && r.value.apiKey == apiKey.value
              && r.value.temperature == Temperature
              && r.value.maxRetries == Some(GoogleMaxRetries) && r.value.timeout == Some(GoogleTimeout)
  {
    if apiKey.None? || apiKey.value == "" then Failure(MissingKey(Google))
    else Success(ChatModel(Google, ModelName(modelId), apiKey.value, Temperature, Some(GoogleMaxRetries), Some(GoogleTimeout)))
  }

  /** The key an OpenAI model is given never starts or ends with whitespace. */
  lemma OpenAIKeyStripped(modelId: string, apiKey: Option<string>)
    requires BuildOpenAI(modelId, apiKey).Success?
    ensures var key := BuildOpenAI(modelId, apiKey).value.apiKey;
            key != "" && key[0] !in PyWhitespace && key[|key| - 1] !in PyWhitespace
  {
    var key := Strip(apiKey.value, PyWhitespace);
    assert BuildOpenAI(modelId, apiKey).value.apiKey == key;
  }

  /** A blank key is refused for OpenAI but accepted, unstripped, for Google. */
  lemma BlankKeyOnlyRefusedForOpenAI(modelId: string)
    ensures BuildOpenAI(modelId, Some(" ")) == Failure(MissingKey(OpenAI))
    ensures BuildGoogle(modelId, Some(" ")).Success?
    ensures BuildGoogle(modelId, Some(" ")).value.apiKey == " "
  {
    assert Strip(" ", PyWhitespace) == "" by {
      assert TrimStart(" ", PyWhitespace) == TrimStart(" "[1..], PyWhitespace);
    }
  }

  // ---------------------------------------------------------------------------
  // Dispatch over the roles

  /** One role's model: the id's prefix picks the builder, and an id with neither prefix
      fails naming the role. */
  function BuildModel(role: string, modelId: string, openaiKey: Option<string>,
                      googleKey: Option<string>): (r: Result<ChatModel, InitError>)
    ensures StartsWith(modelId, "openai") ==> r == BuildOpenAI(modelId, openaiKey)
    ensures !StartsWith(modelId, "openai") && StartsWith(modelId, "google") ==> r == BuildGoogle(modelId, googleKey)
    ensures !StartsWith(modelId, "openai") && !StartsWith(modelId, "google") ==>
              r == Failure(UnsupportedModel(modelId, role))
  {
    if StartsWith(modelId, "openai") then BuildOpenAI(modelId, openaiKey)
    else if StartsWith(modelId, "google") then BuildGoogle(modelId, googleKey)
    else Failure(UnsupportedModel(modelId, role))
  }

  /** A built model's provider is the one its id's prefix names. */
  lemma ProviderFollowsPrefix(role: string, modelId: string, openaiKey: Option<string>, googleKey: Option<string>)
    requires BuildModel(role, modelId, openaiKey, googleKey).Success?
    ensures BuildModel(role, modelId, openaiKey, googleKey).value.provider == OpenAI <==> StartsWith(modelId, "openai")
    ensures BuildModel(role, modelId, openaiKey, googleKey).value.provider == Google <==> StartsWith(modelId, "google")
  {
    assert StartsWith(modelId, "openai") ==> modelId[0] == 'o';
  }

  /** Role `k`'s model. */
  function Built(pairs: seq<(string, string)>, k: nat, openaiKey: Option<string>, googleKey: Option<string>): Result<ChatModel, InitError>
    requires k < |pairs|
  {
    BuildModel(pairs[k].0, pairs[k].1, openaiKey, googleKey)
  }

  /** Build every role's model in order; the first failure aborts. */
  function BuildAll(pairs: seq<(string, string)>, openaiKey: Option<string>,
                    googleKey: Option<string>): (r: Result<seq<(string, ChatModel)>, InitError>)
    ensures r.Success? ==>
              && |r.value| == |pairs|
              && forall k :: 0 <= k < |pairs| ==>
                   r.value[k].0 == pairs[k].0 && Built(pairs, k, openaiKey, googleKey) == Success(r.value[k].1)
    ensures r.Failure? ==>
              exists k :: 0 <= k < |pairs| && Built(pairs, k, openaiKey, googleKey) == Failure(r.error)
                          && forall j :: 0 <= j < k ==> Built(pairs, j, openaiKey, googleKey).Success?
    decreases |pairs|
  {
    if pairs == [] then Success([])
    else
      match BuildModel(pairs[0].0, pairs[0].1, openaiKey, googleKey)
      case Failure(e) =>
        assert Built(pairs, 0, openaiKey, googleKey) == Failure(e);
        Failure(e)
      case Success(m) =>
        var rest := BuildAll(pairs[1..], openaiKey, googleKey);
        BuiltShift(pairs, openaiKey, googleKey);
        match rest
        case Failure(e) =>
          var k :| 0 <= k < |pairs| - 1 && Built(pairs[1..], k, openaiKey, googleKey) == Failure(e)
                   && forall j :: 0 <= j < k ==> Built(pairs[1..], j, openaiKey, googleKey).Success?;
          FailureShift(pairs, openaiKey, googleKey, e, k);
          Failure(e)
        case Success(ms) => Success([(pairs[0].0, m)] + ms)
  }

  /** Role `k` of the tail is role `k + 1` of the whole list. */
  lemma BuiltShift(pairs: seq<(string, string)>, openaiKey: Option<string>, googleKey: Option<string>)
    requires |pairs| > 0
    ensures forall k :: 0 <= k < |pairs| - 1 ==>
              Built(pairs[1..], k, openaiKey, googleKey) == Built(pairs, k + 1, openaiKey, googleKey)
  {
  }

  /** When the first role builds, a first failure at `k` in the tail is a first failure at
      `k + 1` in the whole list. */
  lemma FailureShift(pairs: seq<(string, string)>, openaiKey: Option<string>, googleKey: Option<string>,
                     e: InitError, k: nat)
    requires |pairs| > 0 && Built(pairs, 0, openaiKey, googleKey).Success?
    requires k < |pairs| - 1 && Built(pairs[1..], k, openaiKey, googleKey) == Failure(e)
    requires forall j :: 0 <= j < k ==> Built(pairs[1..], j, openaiKey, googleKey).Success?
    ensures Built(pairs, k + 1, openaiKey, googleKey) == Failure(e)
    ensures forall j :: 0 <= j < k + 1 ==> Built(pairs, j, openaiKey, googleKey).Success?
  {
    BuiltShift(pairs, openaiKey, googleKey);
    forall j | 0 < j < k + 1
      ensures Built(pairs, j, openaiKey, googleKey).Success?
    {
      assert Built(pairs[1..], j - 1, openaiKey, googleKey).Success?;
    }
  }

  /** The configured model id of each role. */
  datatype ModelConfig = ModelConfig(
    summarizerModel: string,
    researcherModel: string,
    synthesizerModel: string,
    reviewerModel: string)

  const Roles: seq<string> := ["summarizer", "researcher", "synthesizer", "reviewer"]

  function Providers(m: ModelConfig): seq<(string, string)> {
    [("summarizer", m.summarizerModel), ("researcher", m.researcherModel),
     ("synthesizer", m.synthesizerModel), ("reviewer", m.reviewerModel)]
  }

  /** `init_models`: on success the registry has exactly the four roles, in order, each with
      its own id's model; otherwise the error is that of the first role that fails. */
  function InitModels(m: ModelConfig, openaiKey: Option<string>, googleKey: Option<string>)
    : (r: Result<seq<(string, ChatModel)>, InitError>)
    ensures r.Success? ==> |r.value| == 4 && forall k :: 0 <= k < 4 ==> r.value[k].0 == Roles[k]
    ensures r.Success? ==> forall k :: 0 <= k < 4 ==> Built(Providers(m), k, openaiKey, googleKey) == Success(r.value[k].1)
    ensures r.Failure? <==>
              exists k :: 0 <= k < 4 && Built(Providers(m), k, openaiKey, googleKey).Failure?
    ensures r.Failure? ==>
              exists k :: 0 <= k < 4 && Built(Providers(m), k, openaiKey, googleKey) == Failure(r.error)
                          && forall j :: 0 <= j < k ==> Built(Providers(m), j, openaiKey, googleKey).Success?
  {
    BuildAll(Providers(m), openaiKey, googleKey)
  }

  /** One unsupported id anywhere makes the whole initialisation fail. */
  lemma UnsupportedIdAborts(m: ModelConfig, openaiKey: Option<string>, googleKey: Option<string>, k: nat)
    requires k < 4 && !StartsWith(Providers(m)[k].1, "openai") && !StartsWith(Providers(m)[k].1, "google")
    ensures InitModels(m, openaiKey, googleKey).Failure?
  {
    assert Built(Providers(m), k, openaiKey, googleKey).Failure?;
  }
}

=== FILE: ordered_dict.dfy ===
/** Python's insertion-ordered `dict` with string keys: assigning an existing key keeps its
    position and replaces its value, assigning a new key appends it. */
module OrderedDict {

  datatype Dict<V> = Dict(keys: seq<string>, entries: map<string, V>) {

    /** Keys are distinct and are exactly the mapped keys. */
    ghost predicate Valid() {
      && (forall i, j :: 0 <= i < j < |keys| ==> keys[i] != keys[j])
      && (forall k :: k in entries <==> k in keys)
    }

    predicate IsEmpty() {
      |keys| == 0
    }
  }

  /** A dictionary as Python keeps it: insertion order over distinct keys. */
  type ODict<V> = d: Dict<V> | d.Valid() witness Dict([], map[])

  function Empty<V>(): (d: ODict<V>)
    ensures d.IsEmpty() && d.entries == map[]
  {
    Dict([], map[])
  }

  /** `d[k] = v`. */
  function Put<V>(d: ODict<V>, k: string, v: V): (r: ODict<V>)
    ensures r.entries == d.entries[k := v]
    ensures k in d.entries ==> r.keys == d.keys
    ensures k !in d.entries ==> r.keys == d.keys + [k]
  {
    if k in d.entries then Dict(d.keys, d.entries[k := v])
    else Dict(d.keys + [k], d.entries[k := v])
  }
}

=== FILE: persistence.dfy ===
/** The run log: the final state is flattened into JSON-friendly values (datetimes become
    ISO strings, dataclasses and chat messages become dicts) and the run id and a timestamp
    are added before the payload is written out. */
module Persistence {
  import opened Wrappers
  import Json
  import opened State

  /** The Python values a state is made of. */
  datatype Py =
    | PyNone
    | PyBool(b: bool)
    | PyInt(i: int)
    | PyFloat(r: real)
    | PyStr(s: string)
    | PyDatetime(iso: string)                   // with what `isoformat()` returns for it
    | PyList(items: seq<Py>)
    | PyDict(entries: seq<(string, Py)>)        // keys distinct, in insertion order
    | PyDataclass(fields: seq<(string, Py)>)    // fields in declaration order
    | PyMessage(kind: string, content: Py, name: Py, kwargs: Py)

  /** The keys of a dict's entries, in order. */
  function KeysOf(entries: seq<(string, Py)>): (ks: seq<string>)
    ensures |ks| == |entries|
    ensures forall k :: 0 <= k < |entries| ==> ks[k] == entries[k].0
  {
    seq(|entries|, k requires 0 <= k < |entries| => entries[k].0)
  }

  /** `_to_serializable`. */
  function ToSerializable(v: Py): (r: Py)
    ensures v.PyDatetime? ==> r == PyStr(v.iso)
    ensures v.PyDataclass? ==> r.PyDict? && KeysOf(r.entries) == KeysOf(v.fields)
    ensures v.PyMessage? ==> r.PyDict? && KeysOf(r.entries) == ["type", "content", "name", "additional_kwargs"]
    ensures v.PyMessage? ==> r.entries[0].1 == PyStr(v.kind) && r.entries[1].1 == v.content
    ensures v.PyList? ==> r.PyList? && |r.items| == |v.items|
    ensures v.PyDict? ==> r.PyDict? && KeysOf(r.entries) == KeysOf(v.entries)
    ensures v.PyNone? || v.PyBool? || v.PyInt? || v.PyFloat? || v.PyStr? ==> r == v
    decreases v
  {
    match v
    case PyDatetime(iso) => PyStr(iso)
    case PyDataclass(fields) => PyDict(MapValues(fields, v))
    case PyMessage(kind, content, name, kwargs) =>
      PyDict([("type", PyStr(kind)), ("content", content), ("name", name), ("additional_kwargs", kwargs)])
    case PyList(items) => PyList(seq(|items|, k requires 0 <= k < |items| => ToSerializable(items[k])))
    case PyDict(entries) => PyDict(MapValues(entries, v))
    case _ => v
  }

  /** Every value of `entries` serialised, keys kept; `parent` is the value they belong to. */
  function MapValues(entries: seq<(string, Py)>, ghost parent: Py): (r: seq<(string, Py)>)
    requires forall k :: 0 <= k < |entries| ==> entries[k].1 < parent
    ensures |r| == |entries|
    ensures forall k :: 0 <= k < |entries| ==> r[k] == (entries[k].0, ToSerializable(entries[k].1))
    decreases parent, 0
  {
    seq(|entries|, k requires 0 <= k < |entries| => (entries[k].0, ToSerializable(entries[k].1)))
  }

  /** A value with no datetime, dataclass or message anywhere in it. */
  predicate Plain(v: Py)
    decreases v
  {
    match v
    case PyDatetime(_) => false
    case PyDataclass(_) => false
    case PyMessage(_, _, _, _) => false
    case PyList(items) => forall k :: 0 <= k < |items| ==> Plain(items[k])
    case PyDict(entries) => forall k :: 0 <= k < |entries| ==> Plain(entries[k].1)
    case _ => true
  }

  /** Every message in `v` has plain content, name and extra arguments (the serialiser
      copies those three as they are). */
  predicate MessagesPlain(v: Py)
    decreases v
  {
    match v
    case PyMessage(_, content, name, kwargs) => Plain(content) && Plain(name) && Plain(kwargs)
    case PyList(items) => forall k :: 0 <= k < |items| ==> MessagesPlain(items[k])
    case PyDict(entries) => forall k :: 0 <= k < |entries| ==> MessagesPlain(entries[k].1)
    case PyDataclass(fields) => forall k :: 0 <= k < |fields| ==> MessagesPlain(fields[k].1)
    case _ => true
  }

  /** Plain values are already serialisable: they come back unchanged. */
  lemma {:induction false} PlainUnchanged(v: Py)
    requires Plain(v)
    ensures ToSerializable(v) == v
    decreases v
  {
    match v
    case PyList(items) =>
      forall k | 0 <= k < |items| ensures ToSerializable(items[k]) == items[k] {
        PlainUnchanged(items[k]);
      }
      assert ToSerializable(v).items == items;
    case PyDict(entries) =>
      forall k | 0 <= k < |entries| ensures ToSerializable(entries[k].1) == entries[k].1 {
        PlainUnchanged(entries[k].1);
      }
      assert MapValues(entries, v) == entries;
    case _ =>
  }

  /** Serialising a value whose messages hold plain parts leaves nothing to flatten. */
  lemma {:induction false} SerializedIsPlain(v: Py)
    requires MessagesPlain(v)
    ensures Plain(ToSerializable(v))
    decreases v
  {
    match v
    case PyList(items) =>
      forall k | 0 <= k < |items| ensures Plain(ToSerializable(items[k])) {
        SerializedIsPlain(items[k]);
      }
    case PyDict(entries) =>
      forall k | 0 <= k < |entries| ensures Plain(ToSerializable(entries[k].1)) {
        SerializedIsPlain(entries[k].1);
      }
    case PyDataclass(fields) =>
      forall k | 0 <= k < |fields| ensures Plain(ToSerializable(fields[k].1)) {
        SerializedIsPlain(fields[k].1);
      }
    case PyMessage(kind, content, name, kwargs) =>
      var r := ToSerializable(v);
      assert r.entries[2].1 == name && r.entries[3].1 == kwargs;
    case _ =>
  }

  /** Serialising twice is serialising once, when messages hold plain parts. */
  lemma SerializeIdempotent(v: Py)
    requires MessagesPlain(v)
    ensures ToSerializable(ToSerializable(v)) == ToSerializable(v)
  {
    SerializedIsPlain(v);
    PlainUnchanged(ToSerializable(v));
  }

  /** Without that condition the flattening is not complete: a datetime inside a message's
      content survives serialisation, and a second pass changes the result. */
  lemma MessageContentNotFlattened()
    ensures var v := PyMessage("human", PyDatetime("2024-01-01T00:00:00"), PyNone, PyDict([]));
            && !Plain(ToSerializable(v))
            && ToSerializable(ToSerializable(v)) != ToSerializable(v)
  {
    var v := PyMessage("human", PyDatetime("2024-01-01T00:00:00"), PyNone, PyDict([]));
    var r := ToSerializable(v);
    assert r.entries[1].1 == PyDatetime("2024-01-01T00:00:00");
    assert ToSerializable(r).entries[1].1 == PyStr("2024-01-01T00:00:00");
  }

  // ---------------------------------------------------------------------------
  // The payload

  /** The position of the first `key` in `ks`, or `|ks|` when it is absent. */
  function IndexOf(ks: seq<string>, key: string): (i: nat)
    ensures i <= |ks|
    ensures forall j :: 0 <= j < i ==> ks[j] != key
    ensures i < |ks| ==> ks[i] == key
    decreases |ks|
  {
    if ks == [] || ks[0] == key then 0 else 1 + IndexOf(ks[1..], key)
  }

  /** The first position of `key` is the one before which it does not occur. */
  lemma IndexOfIs(ks: seq<string>, key: string, i: nat)
    requires i <= |ks| && forall j :: 0 <= j < i ==> ks[j] != key
    requires i < |ks| ==> ks[i] == key
    ensures IndexOf(ks, key) == i
  {
  }

  /** `d.get(key)`. */
  function Lookup(entries: seq<(string, Py)>, key: string): (r: Option<Py>)
    ensures r.Some? <==> key in KeysOf(entries)
    ensures r.Some? ==> (key, r.value) in entries
  {
    var i := IndexOf(KeysOf(entries), key);
    if i == |entries| then None else Some(entries[i].1)
  }

  /** `d[key] = value` on a dict: an existing key keeps its place and takes the new value, a
      new key goes last. */
  function Assign(entries: seq<(string, Py)>, key: string, value: Py): (r: seq<(string, Py)>)
    ensures key in KeysOf(entries) ==> KeysOf(r) == KeysOf(entries)
    ensures key !in KeysOf(entries) ==> KeysOf(r) == KeysOf(entries) + [key]
    ensures forall k :: 0 <= k < |r| ==> r[k] == (key, value) || (k < |entries| && r[k] == entries[k])
  {
    var i := IndexOf(KeysOf(entries), key);
    if i == |entries| then entries + [(key, value)]
    else
      var r := entries[i := (key, value)];
      assert KeysOf(r) == KeysOf(entries);
      r
  }

  /** After `d[key] = value` the key maps to the new value, and every other key keeps its
      value. */
  lemma AssignLookup(entries: seq<(string, Py)>, key: string, value: Py, other: string)
    requires other != key
    ensures Lookup(Assign(entries, key, value), key) == Some(value)
    ensures Lookup(Assign(entries, key, value), other) == Lookup(entries, other)
  {
    var ks := KeysOf(entries);
    var r := Assign(entries, key, value);
    var i := IndexOf(ks, key);
    var j := IndexOf(ks, other);
    if i == |entries| {
      assert KeysOf(r) == ks + [key];
      IndexOfIs(ks + [key], key, |ks|);
      if j < |ks| {
        IndexOfIs(ks + [key], other, j);
      } else {
        IndexOfIs(ks + [key], other, |ks| + 1);
      }
    } else {
      assert KeysOf(r) == ks;
      assert r[i] == (key, value);
      assert j != i;
    }
  }

  /** `ResearchLogger.log`'s payload: the serialised state with `run_id` and `timestamp`
      assigned last. */
  function Payload(state: seq<(string, Py)>, runId: string, timestamp: string): (r: seq<(string, Py)>)
    ensures Lookup(r, "run_id") == Some(PyStr(runId))
    ensures Lookup(r, "timestamp") == Some(PyStr(timestamp))
    ensures forall key :: key != "run_id" && key != "timestamp" ==>
              Lookup(r, key) == Lookup(MapValues(state, PyDict(state)), key)
  {
    var flat := MapValues(state, PyDict(state));
    var withId := Assign(flat, "run_id", PyStr(runId));
    var r := Assign(withId, "timestamp", PyStr(timestamp));
    AssignLookup(flat, "run_id", PyStr(runId), "timestamp");
    AssignLookup(withId, "timestamp", PyStr(timestamp), "run_id");
    forall key | key != "run_id" && key != "timestamp"
      ensures Lookup(r, key) == Lookup(flat, key)
    {
      AssignLookup(flat, "run_id", PyStr(runId), key);
      AssignLookup(withId, "timestamp", PyStr(timestamp), key);
    }
    r
  }

  // ---------------------------------------------------------------------------
  // The state as Python values

  function OptionalStr(o: Option<string>): Py {
    if o.Some? then PyStr(o.value) else PyNone
  }

  function JsonToPy(v: Json.Value): Py
    decreases v
  {
    match v
    case Null => PyNone
    case Bool(b) => PyBool(b)
    case Int(i) => PyInt(i)
    case Real(r) => PyFloat(r)
    case Str(s) => PyStr(s)
    case Array(items) => PyList(seq(|items|, k requires 0 <= k < |items| => JsonToPy(items[k])))
    case Object(fields) => PyDict(JsonFields(fields, v))
  }

  function JsonFields(fields: seq<(string, Json.Value)>, ghost parent: Json.Value): (r: seq<(string, Py)>)
    requires forall k :: 0 <= k < |fields| ==> fields[k].1 < parent
    ensures |r| == |fields|
    ensures forall k :: 0 <= k < |fields| ==> r[k] == (fields[k].0, JsonToPy(fields[k].1))
    decreases parent, 0
  {
    seq(|fields|, k requires 0 <= k < |fields| => (fields[k].0, JsonToPy(fields[k].1)))
  }

  /** Decoded JSON is plain. */
  lemma {:induction false} JsonPlain(v: Json.Value)
    ensures Plain(JsonToPy(v))
    decreases v
  {
    match v
    case Array(items) =>
      forall k | 0 <= k < |items| ensures Plain(JsonToPy(items[k])) {
        JsonPlain(items[k]);
      }
    case Object(fields) =>
      forall k | 0 <= k < |fields| ensures Plain(JsonToPy(fields[k].1)) {
        JsonPlain(fields[k].1);
      }
    case _ =>
  }

  function FindingToPy(f: Finding): Py {
    PyDataclass([("source", PyStr(f.source)), ("content", PyStr(f.content)),
                 ("confidence", PyFloat(f.confidence)), ("captured_at", PyDatetime(f.capturedAt.iso))])
  }

  function MessageToPy(m: Message): Py {
    PyMessage(if m.kind == Human then "human" else "ai", PyStr(m.content), OptionalStr(m.name), PyDict([]))
  }

  /** The state dict, keys in their declared order. */
  function StateEntries(s: ResearchState): seq<(string, Py)> {
    [("query", PyStr(s.query)),
     ("scope", OptionalStr(s.scope)),
     ("plan", PyList(seq(|s.plan|, k requires 0 <= k < |s.plan| => PyStr(s.plan[k])))),
     ("findings", PyList(seq(|s.findings|, k requires 0 <= k < |s.findings| => FindingToPy(s.findings[k])))),
     ("draft_report", OptionalStr(s.draftReport)),
     ("review", if s.review.Some? then JsonToPy(s.review.value) else PyNone),
     ("needs_revision", PyBool(s.needsRevision)),
     ("loop_count", PyInt(s.loopCount)),
     ("messages", PyList(seq(|s.messages|, k requires 0 <= k < |s.messages| => MessageToPy(s.messages[k]))))]
  }

  /** A finding is logged as a dict whose capture time is an ISO string. */
  lemma FindingLogged(f: Finding)
    ensures ToSerializable(FindingToPy(f)) ==
              PyDict([("source", PyStr(f.source)), ("content", PyStr(f.content)),
                      ("confidence", PyFloat(f.confidence)), ("captured_at", PyStr(f.capturedAt.iso))])
  {
  }

  /** A payload gets `run_id` and `timestamp` after the state's own keys, and is fully
      flattened when the state's messages hold plain parts. */
  lemma PayloadShape(entries: seq<(string, Py)>, runId: string, timestamp: string)
    requires "run_id" !in KeysOf(entries) && "timestamp" !in KeysOf(entries)
    requires forall k :: 0 <= k < |entries| ==> MessagesPlain(entries[k].1)
    ensures var r := Payload(entries, runId, timestamp);
            && KeysOf(r) == KeysOf(entries) + ["run_id", "timestamp"]
            && forall k :: 0 <= k < |r| ==> Plain(r[k].1)
  {
    var flat := MapValues(entries, PyDict(entries));
    assert KeysOf(flat) == KeysOf(entries);
    var withId := Assign(flat, "run_id", PyStr(runId));
    assert KeysOf(withId) == KeysOf(entries) + ["run_id"];
    forall k | 0 <= k < |entries| ensures Plain(flat[k].1) {
      SerializedIsPlain(entries[k].1);
    }
    AssignKeepsPlain(flat, "run_id", PyStr(runId));
    AssignKeepsPlain(withId, "timestamp", PyStr(timestamp));
  }

  const StateKeyOrder: seq<string> :=
    ["query", "scope", "plan", "findings", "draft_report", "review", "needs_revision", "loop_count", "messages"]

  /** A logged state is fully flattened (so `json.dumps` accepts it), has the state's keys
      in order followed by `run_id` and `timestamp`, and carries the run id and time. */
  lemma StateLogShape(s: ResearchState, runId: string, timestamp: string)
    ensures var r := Payload(StateEntries(s), runId, timestamp);
            && KeysOf(r) == StateKeyOrder + ["run_id", "timestamp"]
            && (forall k :: 0 <= k < |r| ==> Plain(r[k].1))
            && Lookup(r, "run_id") == Some(PyStr(runId))
            && Lookup(r, "timestamp") == Some(PyStr(timestamp))
  {
    var entries := StateEntries(s);
    StateEntriesKeys(s);
    forall k | 0 <= k < |entries| ensures MessagesPlain(entries[k].1) {
      StateEntryMessagesPlain(s, k);
    }
    PayloadShape(entries, runId, timestamp);
  }

  lemma StateEntriesKeys(s: ResearchState)
    ensures |StateEntries(s)| == 9 && KeysOf(StateEntries(s)) == StateKeyOrder
  {
  }

  /** Assigning a plain value keeps every value plain. */
  lemma AssignKeepsPlain(entries: seq<(string, Py)>, key: string, value: Py)
    requires Plain(value) && forall k :: 0 <= k < |entries| ==> Plain(entries[k].1)
    ensures var r := Assign(entries, key, value);
            forall k :: 0 <= k < |r| ==> Plain(r[k].1)
  {
  }

  /** The state's values satisfy the serialiser's condition. */
  lemma StateEntryMessagesPlain(s: ResearchState, k: nat)
    requires k < 9
    ensures MessagesPlain(StateEntries(s)[k].1)
  {
    var v := StateEntries(s)[k].1;
    if k == 5 && s.review.Some? {
      JsonPlainMessages(s.review.value);
    }
    if k == 8 {
      forall i | 0 <= i < |s.messages| ensures MessagesPlain(v.items[i]) {
        assert v.items[i] == MessageToPy(s.messages[i]);
      }
    }
  }

  lemma {:induction false} JsonPlainMessages(v: Json.Value)
    ensures MessagesPlain(JsonToPy(v))
    decreases v
  {
    match v
    case Array(items) =>
      forall k | 0 <= k < |items| ensures MessagesPlain(JsonToPy(items[k])) {
        JsonPlainMessages(items[k]);
      }
    case Object(fields) =>
      forall k | 0 <= k < |fields| ensures MessagesPlain(JsonToPy(fields[k].1)) {
        JsonPlainMessages(fields[k].1);
      }
    case _ =>
  }
}

=== FILE: planner.dfy ===
/** The planner node: asks the summarising model for a plan and parses its answer into
    steps, one per line, with list bullets trimmed off. */
module Planner {
  import opened Wrappers
  import opened Strings
  import opened State

  /** The characters trimmed from both ends of each line. They form a set: "- -a-" trims
      to "a", not to "-a-". */
  const BulletChars: set<char> := {'-', ' '}

  /** The step used when the model's answer has none. It is written in pieces because the
      verifier checks `NoLineBreak` on short literals and not on the whole sentence. */
  const DefaultStep: string :=
    "Review" + " question" + " and" + " perform" + " general" + " reconn" + "aissance"

  /** Non-empty, with no bullet character at either end. */
  predicate Trimmed(step: string) {
    && step != ""
    && step[0] !in BulletChars
    && step[|step| - 1] !in BulletChars
  }

  /** A step as the parser can produce it: trimmed, and a single line. */
  predicate WellFormedStep(step: string) {
    Trimmed(step) && NoLineBreak(step)
  }

  /** Made of bullet characters only, the empty line included. */
  predicate BulletsOnly(s: string) {
    forall k :: 0 <= k < |s| ==> s[k] in BulletChars
  }

  /** What one line contributes: its stripped text, unless that is empty. A line is
      dropped exactly when it is bullets only. */
  function KeptStep(line: string): (r: seq<string>)
    ensures |r| <= 1
    ensures forall k :: 0 <= k < |r| ==> Trimmed(r[k])
    ensures NoLineBreak(line) ==> AllSingleLine(r)
    ensures r == [] <==> BulletsOnly(line)
  {
    var step := Strip(line, BulletChars);
    StripKeepsNoLineBreak(line, BulletChars);
    StripEmpty(line, BulletChars);
    if step == "" then [] else [step]
  }

  /** A line is its step with bullet characters around it: the step is what is kept. */
  lemma KeptStepAround(p: string, m: string, q: string)
    requires BulletsOnly(p) && BulletsOnly(q) && Trimmed(m)
    ensures KeptStep(p + m + q) == [m]
  {
    StripAround(p, m, q, BulletChars);
  }

  /** The stripped lines that are not empty, in their order: at most one step per line,
      each non-empty with no bullet character at either end. */
  function KeepSteps(lines: seq<string>): (steps: seq<string>)
    ensures |steps| <= |lines|
    ensures forall k :: 0 <= k < |steps| ==> Trimmed(steps[k])
    decreases |lines|
  {
    if |lines| == 0 then []
    else
      var head, rest := KeptStep(lines[0]), KeepSteps(lines[1..]);
      ConcatTrimmed(head, rest);
      head + rest
  }

  lemma ConcatTrimmed(a: seq<string>, b: seq<string>)
    requires forall k :: 0 <= k < |a| ==> Trimmed(a[k])
    requires forall k :: 0 <= k < |b| ==> Trimmed(b[k])
    ensures forall k :: 0 <= k < |a + b| ==> Trimmed((a + b)[k])
  {
    forall k | |a| <= k < |a + b|
      ensures Trimmed((a + b)[k])
    {
      assert (a + b)[k] == b[k - |a|];
    }
  }

  /** Steps kept from single lines are single lines. */
  lemma {:induction false} KeepStepsSingleLine(lines: seq<string>)
    requires AllSingleLine(lines)
    ensures AllSingleLine(KeepSteps(lines))
    decreases |lines|
  {
    if |lines| > 0 {
      assert NoLineBreak(lines[0]);
      assert AllSingleLine(lines[1..]);
      KeepStepsSingleLine(lines[1..]);
    }
  }

  /** `_parse_plan(raw)`: the kept steps of `raw`'s lines, or the default step when none is
      kept. */
  function ParsePlan(raw: string): (plan: seq<string>)
    ensures |plan| >= 1
    ensures forall k :: 0 <= k < |plan| ==> WellFormedStep(plan[k])
    ensures KeepSteps(SplitLines(raw)) != [] ==> plan == KeepSteps(SplitLines(raw))
    ensures KeepSteps(SplitLines(raw)) == [] ==> plan == [DefaultStep]
  {
    var steps := KeepSteps(SplitLines(raw));
    if steps == [] then
      DefaultStepWellFormed();
      [DefaultStep]
    else
      KeepStepsSingleLine(SplitLines(raw));
      steps
  }

  lemma DefaultStepWellFormed()
    ensures WellFormedStep(DefaultStep)
  {
    var a, b, c, d, e, f, g := "Review", " question", " and", " perform", " general", " reconn", "aissance";
    assert NoLineBreak(a) && NoLineBreak(b) && NoLineBreak(c) && NoLineBreak(d);
    assert NoLineBreak(e) && NoLineBreak(f) && NoLineBreak(g);
    NoLineBreakAppend(a, b);
    NoLineBreakAppend(a + b, c);
    NoLineBreakAppend(a + b + c, d);
    NoLineBreakAppend(a + b + c + d, e);
    NoLineBreakAppend(a + b + c + d + e, f);
    NoLineBreakAppend(a + b + c + d + e + f, g);
    assert DefaultStep[0] == a[0];
  }

  /** Keeping steps line by line: the steps of two blocks of lines are the steps of the
      first followed by the steps of the second, so the order of lines is kept. */
  lemma {:induction false} KeepStepsAppend(a: seq<string>, b: seq<string>)
    ensures KeepSteps(a + b) == KeepSteps(a) + KeepSteps(b)
    decreases |a|
  {
    var ab := a + b;
    if |a| == 0 {
      assert ab == b;
    } else {
      assert ab[0] == a[0] && ab[1..] == a[1..] + b;
      KeepStepsAppend(a[1..], b);
      var h, x, y := KeptStep(a[0]), KeepSteps(a[1..]), KeepSteps(b);
      assert KeepSteps(ab) == h + (x + y);
      assert KeepSteps(a) == h + x;
      ConcatAssoc(h, x, y);
    }
  }

  /** Steps that are already well formed are kept as they are. */
  lemma {:induction false} KeepStepsFixed(steps: seq<string>)
    requires forall k :: 0 <= k < |steps| ==> Trimmed(steps[k])
    ensures KeepSteps(steps) == steps
    decreases |steps|
  {
    if |steps| > 0 {
      var rest := steps[1..];
      forall k | 0 <= k < |rest|
        ensures Trimmed(rest[k])
      {
        assert rest[k] == steps[k + 1];
      }
      KeepStepsFixed(rest);
      KeptStepFixed(steps[0]);
      assert KeepSteps(steps) == KeptStep(steps[0]) + KeepSteps(rest);
      assert steps == [steps[0]] + rest;
    }
  }

  /** A trimmed line is kept as it is. */
  lemma KeptStepFixed(step: string)
    requires Trimmed(step)
    ensures KeptStep(step) == [step]
  {
    StripFixed(step, BulletChars);
  }

  /** Each line is a trimmed step with bullet characters before and after it. */
  ghost predicate Decorates(lines: seq<string>, ps: seq<string>, ms: seq<string>, qs: seq<string>) {
    && |lines| == |ps| == |ms| == |qs|
    && forall k :: 0 <= k < |lines| ==>
         lines[k] == ps[k] + ms[k] + qs[k] && BulletsOnly(ps[k]) && BulletsOnly(qs[k]) && Trimmed(ms[k])
  }

  /** Each decorated line gives back its own step, in order. */
  lemma {:induction false} KeepStepsAround(lines: seq<string>, ps: seq<string>, ms: seq<string>, qs: seq<string>)
    requires Decorates(lines, ps, ms, qs)
    ensures KeepSteps(lines) == ms
    decreases |ms|
  {
    if |ms| > 0 {
      var p, m, q := ps[0], ms[0], qs[0];
      assert lines[0] == p + m + q && BulletsOnly(p) && BulletsOnly(q) && Trimmed(m);
      KeptStepAround(p, m, q);
      DecoratesTail(lines, ps, ms, qs);
      KeepStepsAround(lines[1..], ps[1..], ms[1..], qs[1..]);
      KeepStepsCons(lines);
      assert ms == [m] + ms[1..];
    }
  }

  lemma KeepStepsCons(lines: seq<string>)
    requires lines != []
    ensures KeepSteps(lines) == KeptStep(lines[0]) + KeepSteps(lines[1..])
  {
  }

  lemma DecoratesTail(lines: seq<string>, ps: seq<string>, ms: seq<string>, qs: seq<string>)
    requires Decorates(lines, ps, ms, qs) && |ms| > 0
    ensures Decorates(lines[1..], ps[1..], ms[1..], qs[1..])
  {
    forall k | 0 <= k < |lines| - 1
      ensures lines[1..][k] == ps[1..][k] + ms[1..][k] + qs[1..][k]
      ensures BulletsOnly(ps[1..][k]) && BulletsOnly(qs[1..][k]) && Trimmed(ms[1..][k])
    {
      assert lines[1..][k] == lines[k + 1];
    }
  }

  /** A bulleted list answer, one step per line, parses to exactly its steps. */
  lemma ParsePlanBulleted(lines: seq<string>, ps: seq<string>, ms: seq<string>, qs: seq<string>)
    requires Decorates(lines, ps, ms, qs) && |ms| > 0
    requires AllSingleLine(ms)
    ensures ParsePlan(Join(lines, "\n")) == ms
  {
    forall k | 0 <= k < |lines|
      ensures NoLineBreak(lines[k])
    {
      assert NoLineBreak(ps[k]) && NoLineBreak(qs[k]);
      NoLineBreakAppend(ps[k], ms[k]);
      NoLineBreakAppend(ps[k] + ms[k], qs[k]);
    }
    SplitJoinRoundTrip(lines);
    KeepStepsAround(lines, ps, ms, qs);
  }

  /** The list answer "- a\n- b" gives the plan ["a", "b"]. */
  lemma ParsePlanExample()
    ensures ParsePlan("- a\n- b") == ["a", "b"]
  {
    var lines, ps, ms, qs := ["- a", "- b"], ["- ", "- "], ["a", "b"], ["", ""];
    assert lines[0] == ps[0] + ms[0] + qs[0] && lines[1] == ps[1] + ms[1] + qs[1];
    assert Join(lines, "\n") == "- a\n- b";
    ParsePlanBulleted(lines, ps, ms, qs);
  }

  /** The plan's own message (its steps joined by newlines) parses back to the same plan. */
  lemma ParsePlanReparse(raw: string)
    ensures ParsePlan(Join(ParsePlan(raw), "\n")) == ParsePlan(raw)
  {
    var plan := ParsePlan(raw);
    SplitJoinRoundTrip(plan);
    KeepStepsFixed(plan);
  }

  /** Bullets are trimmed as a set of characters, from both ends only. */
  lemma BulletsTrimmedAsSet()
    ensures ParsePlan("- -a-b -") == ["a-b"]
  {
    var raw := "- -a-b -";
    ExampleIsOneLine(raw);
    ExampleStrip(raw);
    assert KeptStep(raw) == ["a-b"];
    assert KeepSteps([raw]) == KeptStep(raw) + KeepSteps([]);
  }

  lemma ExampleIsOneLine(raw: string)
    requires raw == "- -a-b -"
    ensures SplitLines(raw) == [raw]
  {
    assert NoLineBreak(raw);
    FirstBreakNone(raw);
  }

  lemma ExampleStrip(raw: string)
    requires raw == "- -a-b -"
    ensures Strip(raw, BulletChars) == "a-b"
  {
    assert raw == "- -" + "a-b" + " -";
    StripAround("- -", "a-b", " -", BulletChars);
  }

  // ---------------------------------------------------------------------------
  // The node

  const PreviewWindow: nat := 3
  const NoFindingsPreview: string := "none yet"

  /** "- " before each finding's source. */
  function Bullets(fs: seq<Finding>): (r: seq<string>)
    ensures |r| == |fs|
    ensures forall k :: 0 <= k < |fs| ==> r[k] == "- " + fs[k].source
  {
    seq(|fs|, k requires 0 <= k < |fs| => "- " + fs[k].source)
  }

  /** The findings shown to the planner: the last three sources as bullets, one per line,
      or "none yet" exactly when there are no findings. */
  function FindingsPreview(fs: seq<Finding>): (r: string)
    ensures fs == [] <==> r == NoFindingsPreview
  {
    var lines := Bullets(LastN(fs, PreviewWindow));
    var text := Join(lines, "\n");
    if text == "" then NoFindingsPreview
    else
      JoinHead(lines, "\n");
      text
  }

  /** When sources are single lines, the preview's lines are the last three bullets. */
  lemma PreviewRecoversSources(fs: seq<Finding>)
    requires fs != []
    requires forall k :: 0 <= k < |fs| ==> NoLineBreak(fs[k].source)
    ensures SplitLines(FindingsPreview(fs)) == Bullets(LastN(fs, PreviewWindow))
  {
    var window := LastN(fs, PreviewWindow);
    SuffixSingleLineSources(fs, window);
    var lines := Bullets(window);
    forall k | 0 <= k < |lines|
      ensures lines[k] != "" && NoLineBreak(lines[k])
    {
      assert lines[k][0] == '-';
      assert lines[k][2..] == window[k].source;
    }
    JoinHead(lines, "\n");
    SplitJoinRoundTrip(lines);
  }

  /** A suffix of findings with single-line sources holds findings with single-line sources. */
  lemma SuffixSingleLineSources(fs: seq<Finding>, suffix: seq<Finding>)
    requires |suffix| <= |fs| && fs == fs[..|fs| - |suffix|] + suffix
    requires forall k :: 0 <= k < |fs| ==> NoLineBreak(fs[k].source)
    ensures forall k :: 0 <= k < |suffix| ==> NoLineBreak(suffix[k].source)
  {
    forall k | 0 <= k < |suffix|
      ensures NoLineBreak(suffix[k].source)
    {
      assert suffix[k] == fs[|fs| - |suffix| + k];
    }
  }

  function PlannerPrompt(s: ResearchState): Prompt {
    [("query", s.query), ("scope", s.scope.GetOr("")), ("findings", FindingsPreview(s.findings))]
  }

  /** What the planner sets for a completion `text`: exactly `plan` and `messages`; the plan
      is the parse of the text (never empty) and the message is the plan, one step per line. */
  function PlannerUpdate(s: ResearchState, text: string): (u: Update)
    ensures Keys(u) == {PlanKey, MessagesKey}
    ensures u.plan == Some(ParsePlan(text)) && |u.plan.value| >= 1
    ensures u.messages == Some(s.messages + [AiMessage(Join(u.plan.value, "\n"), "planner")])
  {
    var plan := ParsePlan(text);
    NoUpdate.(plan := Some(plan), messages := Some(s.messages + [AiMessage(Join(plan, "\n"), "planner")]))
  }

  /** The planner node: it fails exactly when the completion fails, with its error, and
      otherwise returns the planner's update for the completion's text. */
  function PlannerNode(s: ResearchState, chain: Chain): (r: Result<Update, NodeError>)
    ensures r.Success? <==> Complete(chain, PlannerPrompt(s)).Success?
    ensures r.Failure? ==> r.error == Complete(chain, PlannerPrompt(s)).error
    ensures r.Success? ==> r.value == PlannerUpdate(s, Complete(chain, PlannerPrompt(s)).value)
  {
    match Complete(chain, PlannerPrompt(s))
    case Failure(e) => Failure(e)
    case Success(text) => Success(PlannerUpdate(s, text))
  }
}

=== FILE: researcher.dfy ===
/** The researcher node: runs a web search per plan step and the MCP search tools, then asks
    the research model to summarise the gathered evidence. Findings are only ever appended. */
module Researcher {
  import opened Wrappers
  import opened Strings
  import Json
  import Tools
  import opened State

  // ---------------------------------------------------------------------------
  // Web search

  datatype SearchHit = SearchHit(url: string, content: string, score: real)

  /** What `TavilySearchTool.search(query, max_results)` does: return hits or raise. */
  datatype SearchOutcome = Hits(results: seq<SearchHit>) | SearchRaised(message: string)

  type SearchTool = (string, nat) -> SearchOutcome

  const SearchLimit: nat := 3
  const SearchErrorUrl: string := "tavily:error"
  const DefaultPlanStep: string := "survey open web"

  /** `_search_web(query)`: no tool gives no hits, and a failing search gives one
      zero-score hit that carries the failure text. */
  function SearchWeb(tool: Option<SearchTool>, query: string): (hits: seq<SearchHit>)
    ensures tool.None? ==> hits == []
    ensures tool.Some? && tool.value(query, SearchLimit).Hits? ==>
              hits == tool.value(query, SearchLimit).results
    ensures tool.Some? && tool.value(query, SearchLimit).SearchRaised? ==>
              hits == [SearchHit(SearchErrorUrl, SearchFailure(query, tool.value(query, SearchLimit).message), 0.0)]
  {
    match tool
    case None => []
    case Some(search) =>
      match search(query, SearchLimit)
      case Hits(results) => results
      case SearchRaised(message) => [SearchHit(SearchErrorUrl, SearchFailure(query, message), 0.0)]
  }

  function SearchFailure(query: string, message: string): string {
    "Search failed for '" + query + "': " + message
  }

  /** Python's `min(1.0, score)`. */
  function Confidence(score: real): (c: real)
    ensures c <= 1.0 && c <= score
    ensures c == 1.0 || c == score
  {
    if score < 1.0 then score else 1.0
  }

  function HitFinding(h: SearchHit, now: Timestamp): Finding {
    Finding(h.url, h.content, Confidence(h.score), now)
  }

  function WebQuery(query: string, step: string): string {
    query + " :: " + step
  }

  /** The web findings of a plan: step by step, each step's hits in the order returned. */
  function WebFindings(tool: Option<SearchTool>, query: string, steps: seq<string>, now: Timestamp): (fs: seq<Finding>)
    ensures forall k :: 0 <= k < |fs| ==> fs[k].confidence <= 1.0
    ensures tool.None? ==> fs == []
    decreases |steps|
  {
    if steps == [] then []
    else
      var hits := SearchWeb(tool, WebQuery(query, steps[0]));
      seq(|hits|, k requires 0 <= k < |hits| => HitFinding(hits[k], now))
        + WebFindings(tool, query, steps[1..], now)
  }

  /** The findings of a plan are those of its first steps followed by those of the rest. */
  lemma {:induction false} WebFindingsAppend(tool: Option<SearchTool>, query: string,
                                             a: seq<string>, b: seq<string>, now: Timestamp)
    ensures WebFindings(tool, query, a + b, now) == WebFindings(tool, query, a, now) + WebFindings(tool, query, b, now)
    decreases |a|
  {
    if a == [] {
      assert a + b == b;
    } else {
      assert (a + b)[0] == a[0];
      assert (a + b)[1..] == a[1..] + b;
      WebFindingsAppend(tool, query, a[1..], b, now);
    }
  }

  /** A step's findings are its search hits, queried as "query :: step". */
  lemma WebFindingsOfStep(tool: Option<SearchTool>, query: string, step: string, now: Timestamp)
    ensures var hits := SearchWeb(tool, query + " :: " + step);
            var fs := WebFindings(tool, query, [step], now);
            && |fs| == |hits|
            && forall k :: 0 <= k < |hits| ==>
                 fs[k].source == hits[k].url && fs[k].content == hits[k].content
                 && fs[k].confidence == Confidence(hits[k].score)
  {
    var hits := SearchWeb(tool, query + " :: " + step);
    assert WebFindings(tool, query, [step], now)
        == seq(|hits|, k requires 0 <= k < |hits| => HitFinding(hits[k], now)) + [];
  }

  // ---------------------------------------------------------------------------
  // MCP tools

  /** The MCP tools the researcher uses: those whose lower-cased name mentions "search" or
      "rag". */
  predicate IsSearchTool(name: string) {
    Contains(Lower(name), "search") || Contains(Lower(name), "rag")
  }

  /** The search tools among `names`, in order. */
  function SearchTools(names: seq<string>): (r: seq<string>)
    ensures |r| <= |names|
    ensures forall k :: 0 <= k < |r| ==> IsSearchTool(r[k]) && r[k] in names
    ensures forall k :: 0 <= k < |names| && IsSearchTool(names[k]) ==> names[k] in r
    decreases |names|
  {
    if names == [] then []
    else (if IsSearchTool(names[0]) then [names[0]] else []) + SearchTools(names[1..])
  }

  /** Selecting distributes over concatenation: the selected tools keep the registry's order. */
  lemma {:induction false} SearchToolsAppend(a: seq<string>, b: seq<string>)
    ensures SearchTools(a + b) == SearchTools(a) + SearchTools(b)
    decreases |a|
  {
    if |a| > 0 {
      assert (a + b)[0] == a[0];
      assert (a + b)[1..] == a[1..] + b;
      SearchToolsAppend(a[1..], b);
      var h := if IsSearchTool(a[0]) then [a[0]] else [];
      assert SearchTools(a + b) == h + (SearchTools(a[1..]) + SearchTools(b));
      assert SearchTools(a) == h + SearchTools(a[1..]);
    } else {
      assert a + b == b;
    }
  }

  /** One tool is selected exactly when its name mentions "search" or "rag". */
  lemma SearchToolsSingle(name: string)
    ensures SearchTools([name]) == if IsSearchTool(name) then [name] else []
  {
    assert [name][1..] == [];
  }

  const McpSuccessConfidence: real := 0.7
  const McpFailureConfidence: real := 0.2

  /** The finding one tool call yields: its rendered output, or the text of the error it
      raised (`explain` is `str(exc)`). */
  function McpFinding(name: string, result: Result<string, Tools.InvokeError>,
                      explain: Tools.InvokeError -> string, now: Timestamp): (f: Finding)
    ensures f.source == "mcp:" + name
    ensures result.Success? ==> f.content == result.value && f.confidence == McpSuccessConfidence
    ensures result.Failure? ==> f.content == explain(result.error) && f.confidence == McpFailureConfidence
  {
    match result
    case Success(payload) => Finding("mcp:" + name, payload, McpSuccessConfidence, now)
    case Failure(e) => Finding("mcp:" + name, explain(e), McpFailureConfidence, now)
  }

  /** A gateway together with the findings gathered from it. */
  datatype McpRun = McpRun(gateway: Tools.Gateway, findings: seq<Finding>)

  /** How one tool is called: the gateway and the tool's name give the result and the
      gateway afterwards. */
  type ToolCaller = (Tools.Gateway, string) -> Tools.InvokeResult

  /** `gateway.invoke(name, {"query": query})`. */
  function QueryCaller(env: Tools.McpEnv, query: string): ToolCaller {
    (g: Tools.Gateway, name: string) => Tools.Invoke(g, name, [("query", Json.Str(query))], env)
  }

  /** Call each search tool among `names` with `call`, in order. */
  function InvokeEach(call: ToolCaller, g: Tools.Gateway, names: seq<string>,
                      explain: Tools.InvokeError -> string, now: Timestamp): McpRun
    decreases |names|
  {
    if names == [] then McpRun(g, [])
    else if !IsSearchTool(names[0]) then InvokeEach(call, g, names[1..], explain, now)
    else
      var c := call(g, names[0]);
      var rest := InvokeEach(call, c.gateway, names[1..], explain, now);
      McpRun(rest.gateway, [McpFinding(names[0], c.result, explain, now)] + rest.findings)
  }

  /** Calling tools on a started gateway leaves the gateway as it is. */
  lemma {:induction false} InvokeEachKeepsGateway(env: Tools.McpEnv, query: string, g: Tools.Gateway,
                                                  names: seq<string>, explain: Tools.InvokeError -> string,
                                                  now: Timestamp)
    requires g.started
    ensures InvokeEach(QueryCaller(env, query), g, names, explain, now).gateway == g
    decreases |names|
  {
    if names != [] {
      assert QueryCaller(env, query)(g, names[0]).gateway == g;
      InvokeEachKeepsGateway(env, query, g, names[1..], explain, now);
    }
  }

  /** One finding per search tool. */
  lemma {:induction false} InvokeEachCount(call: ToolCaller, g: Tools.Gateway, names: seq<string>,
                                           explain: Tools.InvokeError -> string, now: Timestamp)
    ensures |InvokeEach(call, g, names, explain, now).findings| == |SearchTools(names)|
    decreases |names|
  {
    if names != [] {
      if !IsSearchTool(names[0]) {
        InvokeEachCount(call, g, names[1..], explain, now);
      } else {
        InvokeEachCount(call, call(g, names[0]).gateway, names[1..], explain, now);
      }
    }
  }

  /** The finding comes from the MCP tool `name`. */
  predicate FromTool(f: Finding, name: string) {
    f.source == "mcp:" + name
  }

  /** The `k`-th finding is named after the `k`-th search tool. */
  lemma {:induction false} InvokeEachSources(call: ToolCaller, g: Tools.Gateway, names: seq<string>,
                                             explain: Tools.InvokeError -> string, now: Timestamp)
    ensures var fs := InvokeEach(call, g, names, explain, now).findings;
            forall k :: 0 <= k < |fs| && k < |SearchTools(names)| ==> FromTool(fs[k], SearchTools(names)[k])
    decreases |names|
  {
    if names != [] {
      if !IsSearchTool(names[0]) {
        InvokeEachSources(call, g, names[1..], explain, now);
        assert InvokeEach(call, g, names, explain, now) == InvokeEach(call, g, names[1..], explain, now);
        assert SearchTools(names) == SearchTools(names[1..]);
      } else {
        var c := call(g, names[0]);
        InvokeEachSources(call, c.gateway, names[1..], explain, now);
        var f := McpFinding(names[0], c.result, explain, now);
        var rest := InvokeEach(call, c.gateway, names[1..], explain, now).findings;
        assert InvokeEach(call, g, names, explain, now).findings == [f] + rest;
        assert SearchTools(names) == [names[0]] + SearchTools(names[1..]);
        ConsFromTool(f, rest, names[0], SearchTools(names[1..]));
      }
    }
  }

  lemma ConsFromTool(f: Finding, rest: seq<Finding>, name: string, tools: seq<string>)
    requires FromTool(f, name)
    requires forall j :: 0 <= j < |rest| && j < |tools| ==> FromTool(rest[j], tools[j])
    ensures forall k :: 0 <= k < |[f] + rest| && k < |[name] + tools| ==> FromTool(([f] + rest)[k], ([name] + tools)[k])
  {
    forall k | 0 < k < |[f] + rest| && k < |[name] + tools|
      ensures FromTool(([f] + rest)[k], ([name] + tools)[k])
    {
      assert ([f] + rest)[k] == rest[k - 1] && ([name] + tools)[k] == tools[k - 1];
    }
  }

  /** The confidence an MCP finding can have. */
  predicate McpConfidence(f: Finding) {
    f.confidence == McpSuccessConfidence || f.confidence == McpFailureConfidence
  }

  /** Every finding has confidence 0.7 or 0.2. */
  lemma {:induction false} InvokeEachConfidences(call: ToolCaller, g: Tools.Gateway, names: seq<string>,
                                                 explain: Tools.InvokeError -> string, now: Timestamp)
    ensures var fs := InvokeEach(call, g, names, explain, now).findings;
            forall k :: 0 <= k < |fs| ==> McpConfidence(fs[k])
    decreases |names|
  {
    if names != [] {
      if !IsSearchTool(names[0]) {
        InvokeEachConfidences(call, g, names[1..], explain, now);
        assert InvokeEach(call, g, names, explain, now) == InvokeEach(call, g, names[1..], explain, now);
      } else {
        var c := call(g, names[0]);
        InvokeEachConfidences(call, c.gateway, names[1..], explain, now);
        assert forall j :: 0 <= j < |InvokeEach(call, c.gateway, names[1..], explain, now).findings| ==>
          McpConfidence(InvokeEach(call, c.gateway, names[1..], explain, now).findings[j]);
        var f := McpFinding(names[0], c.result, explain, now);
        var rest := InvokeEach(call, c.gateway, names[1..], explain, now).findings;
        var fs := InvokeEach(call, g, names, explain, now).findings;
        assert McpConfidence(f);
        forall k | 0 <= k < |fs|
          ensures McpConfidence(fs[k])
        {
          if k > 0 {
            assert fs[k] == rest[k - 1];
          }
        }
      }
    }
  }

  /** One finding per search tool, in order, named after it, with confidence 0.7 or 0.2. */
  lemma InvokeEachFindings(call: ToolCaller, g: Tools.Gateway, names: seq<string>,
                           explain: Tools.InvokeError -> string, now: Timestamp)
    ensures var fs := InvokeEach(call, g, names, explain, now).findings;
            && |fs| == |SearchTools(names)|
            && (forall k :: 0 <= k < |fs| ==> FromTool(fs[k], SearchTools(names)[k]))
            && (forall k :: 0 <= k < |fs| ==> McpConfidence(fs[k]))
  {
    InvokeEachCount(call, g, names, explain, now);
    InvokeEachSources(call, g, names, explain, now);
    InvokeEachConfidences(call, g, names, explain, now);
  }

  /** `_call_mcp(query)`: start the gateway, then call its search tools in registry order. */
  function CallMcp(gateway: Option<Tools.Gateway>, env: Tools.McpEnv, query: string,
                   explain: Tools.InvokeError -> string, now: Timestamp): (r: (Option<Tools.Gateway>, seq<Finding>))
    ensures gateway.None? ==> r == (None, [])
    ensures gateway.Some? ==>
              var g1 := Tools.Start(gateway.value, env);
              && r.0.Some?
              && (g1.started ==> r.0 == Some(g1))
              && r.1 == InvokeEach(QueryCaller(env, query), g1, Tools.AvailableTools(g1), explain, now).findings
  {
    match gateway
    case None => (None, [])
    case Some(g) =>
      var g1 := Tools.Start(g, env);
      var run := InvokeEach(QueryCaller(env, query), g1, Tools.AvailableTools(g1), explain, now);
      if g1.started then
        InvokeEachKeepsGateway(env, query, g1, Tools.AvailableTools(g1), explain, now);
        (Some(run.gateway), run.findings)
      else (Some(run.gateway), run.findings)
  }

  // ---------------------------------------------------------------------------
  // The node

  const NoEvidence: string := "No external evidence gathered yet"
  const SummarySource: string := "researcher"
  const SummaryConfidence: real := 0.8

  /** `state.get("plan") or ["survey open web"]`. */
  function EffectiveSteps(plan: seq<string>): (steps: seq<string>)
    ensures |steps| >= 1
    ensures plan != [] ==> steps == plan
  {
    if plan == [] then [DefaultPlanStep] else plan
  }

  function EvidenceLine(f: Finding): string {
    f.source + ": " + f.content
  }

  /** The evidence shown to the model: one "source: content" blob per gathered finding,
      separated by blank lines, or a placeholder when nothing was gathered. */
  function EvidenceText(gathered: seq<Finding>): (r: string)
    ensures gathered == [] ==> r == NoEvidence
    ensures gathered != [] ==> r == Join(seq(|gathered|, k requires 0 <= k < |gathered| => EvidenceLine(gathered[k])), "\n\n")
  {
    var blobs := seq(|gathered|, k requires 0 <= k < |gathered| => EvidenceLine(gathered[k]));
    var text := Join(blobs, "\n\n");
    if gathered != [] then
      assert blobs[0] != "" by { assert |blobs[0]| >= 2; }
      JoinNonEmpty(blobs, "\n\n", 0);
      text
    else NoEvidence
  }

  function ResearcherPrompt(query: string, steps: seq<string>, gathered: seq<Finding>): Prompt {
    [("query", query), ("plan", Join(steps, "\n")), ("findings", EvidenceText(gathered))]
  }

  /** What the researcher node returns, and the MCP gateway after it ran. */
  datatype ResearchRun = ResearchRun(result: Result<Update, NodeError>, gateway: Option<Tools.Gateway>)

  /** The findings gathered before the summary: web findings, then MCP findings. */
  function Gathered(s: ResearchState, tool: Option<SearchTool>, gateway: Option<Tools.Gateway>,
                    env: Tools.McpEnv, explain: Tools.InvokeError -> string, now: Timestamp): seq<Finding> {
    WebFindings(tool, s.query, EffectiveSteps(s.plan), now) + CallMcp(gateway, env, s.query, explain, now).1
  }

  /** The researcher node: on success it sets exactly `findings` and `messages`. The findings
      are the old ones, then the gathered ones, then one summary finding from "researcher"
      with confidence 0.8; the message is the summary. */
  function ResearcherNode(s: ResearchState, chain: Chain, tool: Option<SearchTool>,
                          gateway: Option<Tools.Gateway>, env: Tools.McpEnv,
                          explain: Tools.InvokeError -> string, now: Timestamp): (r: ResearchRun)
    ensures var gathered := Gathered(s, tool, gateway, env, explain, now);
            var done := Complete(chain, ResearcherPrompt(s.query, EffectiveSteps(s.plan), gathered));
            && r.gateway == CallMcp(gateway, env, s.query, explain, now).0
            && (r.result.Success? <==> done.Success?)
            && (r.result.Failure? ==> r.result.error == done.error)
            && (r.result.Success? ==>
                  && Keys(r.result.value) == {FindingsKey, MessagesKey}
                  && r.result.value.findings == Some(s.findings + gathered + [Finding(SummarySource, done.value, SummaryConfidence, now)])
                  && r.result.value.messages == Some(s.messages + [AiMessage(done.value, "researcher")]))
  {
    var steps := EffectiveSteps(s.plan);
    var web := WebFindings(tool, s.query, steps, now);
    var mcp := CallMcp(gateway, env, s.query, explain, now);
    var gathered := web + mcp.1;
    match Complete(chain, ResearcherPrompt(s.query, steps, gathered))
    case Failure(e) => ResearchRun(Failure(e), mcp.0)
    case Success(summary) =>
      var findings := s.findings + gathered + [Finding(SummarySource, summary, SummaryConfidence, now)];
      ResearchRun(Success(NoUpdate.(findings := Some(findings), messages := Some(s.messages + [AiMessage(summary, "researcher")]))), mcp.0)
  }

  /** The node only appends: the old findings are a prefix of the new ones, at least one
      finding is added, and every added finding has confidence at most 1. */
  lemma FindingsOnlyGrow(s: ResearchState, chain: Chain, tool: Option<SearchTool>,
                         gateway: Option<Tools.Gateway>, env: Tools.McpEnv,
                         explain: Tools.InvokeError -> string, now: Timestamp)
    requires ResearcherNode(s, chain, tool, gateway, env, explain, now).result.Success?
    ensures var fs := ResearcherNode(s, chain, tool, gateway, env, explain, now).result.value.findings.value;
            && |fs| >= |s.findings| + 1
            && fs[..|s.findings|] == s.findings
            && (forall k :: |s.findings| <= k < |fs| ==> fs[k].confidence <= 1.0)
            && fs[|fs| - 1].source == SummarySource
  {
    var gathered := Gathered(s, tool, gateway, env, explain, now);
    GatheredBounded(s, tool, gateway, env, explain, now);
    var fs := ResearcherNode(s, chain, tool, gateway, env, explain, now).result.value.findings.value;
    var last := fs[|fs| - 1];
    assert fs == s.findings + gathered + [last];
    AppendKeepsPrefix(s.findings, gathered, last);
  }

  /** Every finding the MCP tools produce has an MCP confidence. */
  lemma CallMcpConfidences(gateway: Option<Tools.Gateway>, env: Tools.McpEnv, query: string,
                           explain: Tools.InvokeError -> string, now: Timestamp)
    ensures var fs := CallMcp(gateway, env, query, explain, now).1;
            forall k :: 0 <= k < |fs| ==> McpConfidence(fs[k])
  {
    if gateway.Some? {
      var g1 := Tools.Start(gateway.value, env);
      var call := QueryCaller(env, query);
      InvokeEachConfidences(call, g1, Tools.AvailableTools(g1), explain, now);
      assert CallMcp(gateway, env, query, explain, now).1
          == InvokeEach(call, g1, Tools.AvailableTools(g1), explain, now).findings;
    }
  }

  /** Every gathered finding has confidence at most 1. */
  lemma GatheredBounded(s: ResearchState, tool: Option<SearchTool>, gateway: Option<Tools.Gateway>,
                        env: Tools.McpEnv, explain: Tools.InvokeError -> string, now: Timestamp)
    ensures forall k :: 0 <= k < |Gathered(s, tool, gateway, env, explain, now)| ==>
              Gathered(s, tool, gateway, env, explain, now)[k].confidence <= 1.0
  {
    var web := WebFindings(tool, s.query, EffectiveSteps(s.plan), now);
    var mcp := CallMcp(gateway, env, s.query, explain, now).1;
    CallMcpConfidences(gateway, env, s.query, explain, now);
    var all := web + mcp;
    forall k | 0 <= k < |all|
      ensures all[k].confidence <= 1.0
    {
      if k < |web| {
        assert all[k] == web[k];
      } else {
        assert all[k] == mcp[k - |web|];
      }
    }
  }

  lemma AppendKeepsPrefix(prior: seq<Finding>, added: seq<Finding>, last: Finding)
    requires forall k :: 0 <= k < |added| ==> added[k].confidence <= 1.0
    requires last.confidence <= 1.0
    ensures var fs := prior + added + [last];
            && fs[..|prior|] == prior
            && forall k :: |prior| <= k < |fs| ==> fs[k].confidence <= 1.0
  {
    var fs := prior + added + [last];
    forall k | |prior| <= k < |fs|
      ensures fs[k].confidence <= 1.0
    {
      if k < |prior| + |added| {
        assert fs[k] == added[k - |prior|];
      }
    }
  }

  /** With neither a search tool nor an MCP gateway nothing is gathered, and the model is
      told so. */
  lemma NoToolsNoEvidence(s: ResearchState, explain: Tools.InvokeError -> string, env: Tools.McpEnv, now: Timestamp)
    ensures Gathered(s, None, None, env, explain, now) == []
    ensures ResearcherPrompt(s.query, EffectiveSteps(s.plan), [])[2].1 == NoEvidence
  {
  }
}

=== FILE: retry.dfy ===
/** The retry wrapper around every completion call (src/deep_research/retry.py).

    An exception is a record of what the classifier looks at: whether it is a
    `QuotaExhaustedError`, its class name, `str(exc)`, its own `status_code`/`status`/`code`
    attributes and its `response`. A call is the sequence of outcomes its successive
    attempts would have: `call(i)` is what the `i`-th invocation returns or raises.
    Backoff delays and jitter are not modelled; only which attempts happen and what escapes.
 */
module Retry {
  import opened Wrappers
  import opened Strings

  /** `getattr(obj, name, None)` seen through `isinstance(value, int)`: missing or `None`,
      an integer (a Python `bool` is an integer too), or some other value. */
  datatype Attr = Absent | IntAttr(n: int) | OtherAttr

  /** The attributes read from a truthy `exc.response`. */
  datatype Response = Response(status: Attr, statusCode: Attr, code: Attr)

  /** An exception raised by a provider call. `response` is `None` when the attribute is
      missing or falsy. `isQuotaExhausted` is `isinstance(exc, QuotaExhaustedError)`. */
  datatype Error = Error(
    isQuotaExhausted: bool,
    className: string,
    message: string,
    statusCode: Attr,
    status: Attr,
    code: Attr,
    response: Option<Response>)

  const RetryableStatusCodes: set<int> := {408, 409, 429, 500, 502, 503, 504}
  const MessageKeywords: seq<string> := ["rate limit", "quota", "exceeded", "temporarily unavailable"]
  const ClassNameKeywords: seq<string> := ["ratelimit", "resourceexhausted", "quota"]
  const QuotaExhaustedMessage: string :=
    "Provider reported zero available quota. Switch models or enable billing."

  /** The `QuotaExhaustedError` raised in place of a zero-quota failure. */
  const QuotaExhaustedError: Error :=
    Error(true, "QuotaExhaustedError", QuotaExhaustedMessage, Absent, Absent, Absent, None)

  // ---------------------------------------------------------------------------
  // Classification

  /** The first integer among `attrs`, scanning in order. */
  function FirstInt(attrs: seq<Attr>): (r: Option<int>)
    ensures r.None? <==> forall k :: 0 <= k < |attrs| ==> !attrs[k].IntAttr?
    ensures r.Some? ==> exists k :: 0 <= k < |attrs| && attrs[k] == IntAttr(r.value)
                                    && forall j :: 0 <= j < k ==> !attrs[j].IntAttr?
    decreases |attrs|
  {
    if |attrs| == 0 then None
    else if attrs[0].IntAttr? then Some(attrs[0].n)
    else
      var r := FirstInt(attrs[1..]);
      assert forall k :: 0 < k < |attrs| ==> attrs[k] == attrs[1..][k - 1];
      if r.Some? then
        ghost var k :| 0 <= k < |attrs[1..]| && attrs[1..][k] == IntAttr(r.value)
                       && forall j :: 0 <= j < k ==> !attrs[1..][j].IntAttr?;
        assert attrs[k + 1] == IntAttr(r.value);
        r
      else r
  }

  /** One step of the scan from position `k`. */
  lemma FirstIntUnfold(attrs: seq<Attr>, k: nat)
    requires k < |attrs|
    ensures FirstInt(attrs[k..]) == if attrs[k].IntAttr? then Some(attrs[k].n) else FirstInt(attrs[k + 1..])
  {
    assert attrs[k..][1..] == attrs[k + 1..];
  }

  /** Where a status code may be found, in the order they are consulted: the exception's
      `status_code`, `status`, `code`, then a truthy response's `status`, `status_code`, `code`. */
  function StatusCandidates(e: Error): seq<Attr> {
    [e.statusCode, e.status, e.code]
    + (match e.response
       case None => []
       case Some(resp) => [resp.status, resp.statusCode, resp.code])
  }

  /** Scanning a concatenation scans the first part, then the second. */
  lemma {:induction false} FirstIntAppend(a: seq<Attr>, b: seq<Attr>)
    ensures FirstInt(a + b) == if FirstInt(a).Some? then FirstInt(a) else FirstInt(b)
    decreases |a|
  {
    if |a| > 0 {
      assert (a + b)[1..] == a[1..] + b;
      FirstIntAppend(a[1..], b);
    } else {
      assert a + b == b;
    }
  }

  /** `_extract_status_code`: the exception's own attributes first, then a truthy response's. */
  function ExtractStatusCode(e: Error): (r: Option<int>)
    ensures r == FirstInt(StatusCandidates(e))
  {
    var own := [e.statusCode, e.status, e.code];
    FirstIntAppend(own, StatusCandidates(e)[3..]);
    assert StatusCandidates(e) == own + StatusCandidates(e)[3..];
    match FirstInt(own)
    case Some(n) => Some(n)
    case None =>
      match e.response
      case None => None
      case Some(resp) => FirstInt([resp.status, resp.statusCode, resp.code])
  }

  /** Some keyword of `keywords` occurs in `text`. */
  predicate MentionsAny(text: string, keywords: seq<string>) {
    exists k :: 0 <= k < |keywords| && Contains(text, keywords[k])
  }

  /** `_is_zero_quota`: the provider says no quota is left at all. */
  predicate IsZeroQuota(message: string) {
    var m := Lower(message);
    || Contains(m, "insufficient_quota")
    || Contains(m, "insufficient quota")
    || Contains(m, "limit: 0")
    || (Contains(m, "quota exceeded") && Contains(m, "limit"))
  }

  /** The status-code rule: a truthy code among the retryable ones. */
  predicate HasRetryableStatus(e: Error) {
    var code := ExtractStatusCode(e);
    code.Some? && code.value != 0 && code.value in RetryableStatusCodes
  }

  predicate ClassNameLooksTransient(e: Error) {
    MentionsAny(Lower(e.className), ClassNameKeywords)
  }

  predicate MessageLooksTransient(e: Error) {
    MentionsAny(Lower(e.message), MessageKeywords)
  }

  /** `_should_retry`: the quota checks come first, then status code, class name, message. */
  predicate ShouldRetry(e: Error) {
    if e.isQuotaExhausted then false
    else if IsZeroQuota(e.message) then false
    else if HasRetryableStatus(e) then true
    else if ClassNameLooksTransient(e) then true
    else MessageLooksTransient(e)
  }

  /** Transient failures are exactly the non-quota failures that one of the three signals marks. */
  lemma ShouldRetryMeaning(e: Error)
    ensures e.isQuotaExhausted ==> !ShouldRetry(e)
    ensures IsZeroQuota(e.message) ==> !ShouldRetry(e)
    ensures !e.isQuotaExhausted && !IsZeroQuota(e.message) ==>
              (ShouldRetry(e) <==> HasRetryableStatus(e) || ClassNameLooksTransient(e) || MessageLooksTransient(e))
  {
  }

  /** The class name of `QuotaExhaustedError` and its message both carry the "quota" keyword,
      so only the `isinstance` check that runs first keeps it from being retried. */
  lemma QuotaExhaustedNeverRetried()
    ensures ClassNameLooksTransient(QuotaExhaustedError)
    ensures MessageLooksTransient(QuotaExhaustedError)
    ensures !ShouldRetry(QuotaExhaustedError)
  {
    QuotaExhaustedNameMentionsQuota();
    QuotaExhaustedMessageMentionsQuota();
    assert ClassNameKeywords[2] == "quota" && MessageKeywords[1] == "quota";
    assert Contains(Lower(QuotaExhaustedError.className), ClassNameKeywords[2]);
    assert Contains(Lower(QuotaExhaustedError.message), MessageKeywords[1]);
  }

  lemma QuotaExhaustedNameMentionsQuota()
    ensures Contains(Lower("QuotaExhaustedError"), "quota")
  {
    var n := "QuotaExhaustedError";
    assert n[0] == 'Q' && n[1] == 'u' && n[2] == 'o' && n[3] == 't' && n[4] == 'a';
    LowerSlice(n, 0, 5);
    assert Lower(n)[0..5] == "quota";
    assert OccursAt(Lower(n), "quota", 0);
  }

  lemma QuotaExhaustedMessageMentionsQuota()
    ensures Contains(Lower(QuotaExhaustedMessage), "quota")
  {
    var m := QuotaExhaustedMessage;
    assert m[33] == 'q' && m[34] == 'u' && m[35] == 'o' && m[36] == 't' && m[37] == 'a';
    LowerSlice(m, 33, 38);
    assert Lower(m)[33..38] == "quota";
    assert OccursAt(Lower(m), "quota", 33);
  }

  /** Lower-casing commutes with slicing. */
  lemma LowerSlice(s: string, i: nat, j: nat)
    requires i <= j <= |s|
    ensures Lower(s)[i..j] == Lower(s[i..j])
  {
  }

  /** A status code of 429 on a non-quota failure is retried (example of the status rule). */
  lemma RateLimitStatusRetried(e: Error)
    requires !e.isQuotaExhausted && !IsZeroQuota(e.message)
    requires e.statusCode == IntAttr(429)
    ensures ShouldRetry(e)
  {
  }

  // ---------------------------------------------------------------------------
  // The attempt loop

  datatype Outcome<T> = Returned(value: T) | Raised(error: Error)

  /** What a call through `ainvoke_with_retry` ends with, and how many times the underlying
      call was made. */
  datatype Retried<T> = Retried(outcome: Outcome<T>, calls: nat)

  /** `stop_after_attempt(attempts)` is consulted only after a failed attempt, so at least
      one call is always made. */
  function MaxCalls(attempts: int): (n: nat)
    ensures n >= 1 && (attempts >= 1 ==> n == attempts)
    ensures attempts < 1 ==> n == 1
  {
    if attempts < 1 then 1 else attempts
  }

  /** What escapes one attempt: a zero-quota failure is replaced by `QuotaExhaustedError`,
      anything else is re-raised as it is. */
  function Escalate(e: Error): (r: Error)
    ensures IsZeroQuota(e.message) ==> r == QuotaExhaustedError
    ensures !IsZeroQuota(e.message) ==> r == e
  {
    if IsZeroQuota(e.message) then QuotaExhaustedError else e
  }

  /** Whether the retry policy lets the loop go on after the `i`-th call (0-based). */
  predicate RetriesAfter<T>(call: nat -> Outcome<T>, i: nat) {
    call(i).Raised? && ShouldRetry(Escalate(call(i).error))
  }

  /** `r` is the outcome the attempt loop must produce for `call` with `attempts`:
      every call but the last failed with a retried error, and the last call either
      succeeded, failed with an error that is not retried, or used the final attempt. */
  ghost predicate Explains<T>(call: nat -> Outcome<T>, attempts: int, r: Retried<T>) {
    && 1 <= r.calls <= MaxCalls(attempts)
    && (forall j :: 0 <= j < r.calls - 1 ==> RetriesAfter(call, j))
    && match call(r.calls - 1)
       case Returned(v) => r.outcome == Returned(v)
       case Raised(e) =>
         && r.outcome == Raised(Escalate(e))
         && (!ShouldRetry(Escalate(e)) || r.calls == MaxCalls(attempts))
  }

  /** The attempt loop from the `i`-th call on. */
  function AttemptFrom<T>(call: nat -> Outcome<T>, attempts: int, i: nat): (r: Retried<T>)
    requires i < MaxCalls(attempts)
    requires forall j :: 0 <= j < i ==> RetriesAfter(call, j)
    ensures Explains(call, attempts, r)
    ensures r.calls > i
    decreases MaxCalls(attempts) - i
  {
    match call(i)
    case Returned(v) =>
      ExplainsLast(call, attempts, i, Returned(v));
      Retried(Returned(v), i + 1)
    case Raised(e) =>
      var escaped := Escalate(e);
      if ShouldRetry(escaped) && i + 1 < MaxCalls(attempts) then
        AttemptFrom(call, attempts, i + 1)
      else
        ExplainsLast(call, attempts, i, Raised(escaped));
        Retried(Raised(escaped), i + 1)
  }

  /** The loop stopping at the `i`-th call, after retried failures, is explained when that
      call returned or failed in a way the loop does not retry. */
  lemma ExplainsLast<T>(call: nat -> Outcome<T>, attempts: int, i: nat, o: Outcome<T>)
    requires i < MaxCalls(attempts)
    requires forall j :: 0 <= j < i ==> RetriesAfter(call, j)
    requires call(i).Returned? ==> o == call(i)
    requires call(i).Raised? ==> o == Raised(Escalate(call(i).error))
    requires call(i).Raised? ==> !ShouldRetry(o.error) || i + 1 == MaxCalls(attempts)
    ensures Explains(call, attempts, Retried(o, i + 1))
  {
  }

  /** `ainvoke_with_retry(chain, payload, attempts=attempts)`: the outcome the retry rule
      admits for the calls it sees. */
  function Invoke<T>(call: nat -> Outcome<T>, attempts: int): (r: Retried<T>)
    ensures Explains(call, attempts, r)
  {
    AttemptFrom(call, attempts, 0)
  }

  /** The loop's outcome is determined by the call sequence: only one result explains it. */
  lemma ExplainsUnique<T>(call: nat -> Outcome<T>, attempts: int, r1: Retried<T>, r2: Retried<T>)
    requires Explains(call, attempts, r1) && Explains(call, attempts, r2)
    ensures r1 == r2
  {
    StopsNoEarlier(call, attempts, r1, r2);
    StopsNoEarlier(call, attempts, r2, r1);
  }

  /** Two explanations of the same calls stop at the same call: stopping earlier than the
      other would contradict the policy the other retried under. */
  lemma StopsNoEarlier<T>(call: nat -> Outcome<T>, attempts: int, r1: Retried<T>, r2: Retried<T>)
    requires Explains(call, attempts, r1) && Explains(call, attempts, r2)
    ensures r1.calls <= r2.calls
  {
    StopsAtLast(call, attempts, r2);
    var last: nat := r2.calls - 1;
    assert r2.calls < r1.calls ==> RetriesAfter(call, last);
  }

  /** The loop stops at its last call because the policy or the attempt budget says so. */
  lemma StopsAtLast<T>(call: nat -> Outcome<T>, attempts: int, r: Retried<T>)
    requires Explains(call, attempts, r)
    ensures !RetriesAfter(call, r.calls - 1) || r.calls == MaxCalls(attempts)
  {
  }

  /** `Invoke` is the one outcome the loop can have. */
  lemma InvokeIsExplained<T>(call: nat -> Outcome<T>, attempts: int, r: Retried<T>)
    requires Explains(call, attempts, r)
    ensures Invoke(call, attempts) == r
  {
    ExplainsUnique(call, attempts, Invoke(call, attempts), r);
  }

  /** The attempt loop as the source runs it: call, classify, stop or go round again. */
  method AinvokeWithRetry<T>(call: nat -> Outcome<T>, attempts: int) returns (r: Retried<T>)
    ensures 1 <= r.calls <= MaxCalls(attempts)
    ensures forall j :: 0 <= j < r.calls - 1 ==> RetriesAfter(call, j)
    ensures call(r.calls - 1).Returned? ==> r.outcome == call(r.calls - 1)
    ensures call(r.calls - 1).Raised? ==>
              && r.outcome == Raised(Escalate(call(r.calls - 1).error))
              && (!ShouldRetry(r.outcome.error) || r.calls == MaxCalls(attempts))
  {
    var i: nat := 0;
    while true
      invariant i < MaxCalls(attempts)
      invariant forall j :: 0 <= j < i ==> RetriesAfter(call, j)
      decreases MaxCalls(attempts) - i
    {
      var outcome := call(i);
      match outcome {
        case Returned(v) =>
          return Retried(Returned(v), i + 1);
        case Raised(e) =>
          var escaped := Escalate(e);
          if !ShouldRetry(escaped) || i + 1 == MaxCalls(attempts) {
            return Retried(Raised(escaped), i + 1);
          }
      }
      i := i + 1;
    }
  }

  /** A retried error is never a zero-quota one, so retrying re-raises the original error. */
  lemma RetriedErrorsAreOriginal(e: Error)
    requires ShouldRetry(Escalate(e))
    ensures Escalate(e) == e && !IsZeroQuota(e.message)
  {
    QuotaExhaustedNeverRetried();
  }

  /** The first call that succeeds ends the loop, with its value. */
  lemma FirstSuccessReturned<T>(call: nat -> Outcome<T>, attempts: int, k: nat)
    requires k < MaxCalls(attempts)
    requires forall j :: 0 <= j < k ==> RetriesAfter(call, j)
    requires call(k).Returned?
    ensures Invoke(call, attempts) == Retried(call(k), k + 1)
  {
    InvokeIsExplained(call, attempts, Retried(call(k), k + 1));
  }

  /** A failure that is not retried escapes after exactly one call. */
  lemma NonRetryablePropagatesAtOnce<T>(call: nat -> Outcome<T>, attempts: int, e: Error)
    requires call(0) == Raised(e) && !IsZeroQuota(e.message) && !ShouldRetry(e)
    ensures Invoke(call, attempts) == Retried(Raised(e), 1)
  {
    InvokeIsExplained(call, attempts, Retried(Raised(e), 1));
  }

  /** When every attempt fails with a retried error, the last one is re-raised after exactly
      `max(attempts, 1)` calls. */
  lemma ExhaustionReraisesLast<T>(call: nat -> Outcome<T>, attempts: int)
    requires forall j :: 0 <= j < MaxCalls(attempts) ==> RetriesAfter(call, j)
    ensures Invoke(call, attempts) == Retried(call(MaxCalls(attempts) - 1), MaxCalls(attempts))
  {
    var n := MaxCalls(attempts);
    assert RetriesAfter(call, n - 1);
    RetriedErrorsAreOriginal(call(n - 1).error);
    InvokeIsExplained(call, attempts, Retried(call(n - 1), n));
  }

  /** A zero-quota failure becomes `QuotaExhaustedError` on the call where it happens. */
  lemma ZeroQuotaFailsFast<T>(call: nat -> Outcome<T>, attempts: int, k: nat)
    requires k < MaxCalls(attempts)
    requires forall j :: 0 <= j < k ==> RetriesAfter(call, j)
    requires call(k).Raised? && IsZeroQuota(call(k).error.message)
    ensures Invoke(call, attempts) == Retried(Raised(QuotaExhaustedError), k + 1)
  {
    QuotaExhaustedNeverRetried();
    InvokeIsExplained(call, attempts, Retried(Raised(QuotaExhaustedError), k + 1));
  }
}

=== FILE: reviewer.dfy ===
/** The reviewer node: asks the reviewing model to critique the draft, decodes its answer as
    JSON (falling back to a rejection when it is not JSON), and counts the review. */
module Reviewer {
  import opened Wrappers
  import Json
  import opened State

  const FallbackAction: string := "Revise and retry"

  /** The review used when the model's answer is not JSON: a rejection that quotes it. */
  function FallbackReview(raw: string): (v: Json.Value)
    ensures v.Object?
    ensures Json.Get(v.fields, "approved") == Some(Json.Bool(false))
    ensures Json.Get(v.fields, "critique") == Some(Json.Str(raw))
    ensures Json.Get(v.fields, "next_action") == Some(Json.Str(FallbackAction))
  {
    var fields := [("approved", Json.Bool(false)), ("critique", Json.Str(raw)),
                   ("next_action", Json.Str(FallbackAction))];
    assert fields[1..][1..] == [("next_action", Json.Str(FallbackAction))];
    assert Json.Get(fields[1..], "next_action") == Json.Get(fields[1..][1..], "next_action");
    Json.Object(fields)
  }

  /** `not parsed.get("approved", False)`: a missing `approved` counts as false. */
  function NeedsRevision(fields: seq<(string, Json.Value)>): (b: bool)
    ensures Json.Get(fields, "approved").None? ==> b
    ensures Json.Get(fields, "approved") == Some(Json.Bool(true)) ==> !b
    ensures Json.Get(fields, "approved") == Some(Json.Bool(false)) ==> b
  {
    !Json.Truthy(Json.Get(fields, "approved").GetOr(Json.Bool(false)))
  }

  /** Python truthiness of the draft: `None` and "" are both falsy. */
  predicate HasDraft(s: ResearchState) {
    s.draftReport.Some? && s.draftReport.value != ""
  }

  function ReviewerPrompt(s: ResearchState): Prompt {
    [("query", s.query), ("report", s.draftReport.GetOr(""))]
  }

  /** The decoded review, or the error of calling `.get` on a decoded non-object. */
  function Decode(raw: string, loads: string -> Json.Parsed): (r: Result<seq<(string, Json.Value)>, NodeError>)
    ensures loads(raw).NotJson? ==> r == Success(FallbackReview(raw).fields)
    ensures loads(raw).ParsedObject? ==> r == Success(loads(raw).fields)
    ensures loads(raw).ParsedOther? ==> r == Failure(NotAnObject(loads(raw).value))
  {
    match loads(raw)
    case ParsedObject(fields) => Success(fields)
    case ParsedOther(v) => Failure(NotAnObject(v))
    case NotJson => Success(FallbackReview(raw).fields)
  }

  /** The reviewer node. `loads` is `json.loads` (an object, another JSON value, or a decode
      error) and `dumps` is `json.dumps(..., indent=2)`. */
  function ReviewerNode(s: ResearchState, chain: Chain, loads: string -> Json.Parsed,
                        dumps: Json.Value -> string): (r: Result<Update, NodeError>)
    ensures !HasDraft(s) ==> r == Success(NoUpdate.(needsRevision := Some(true)))
    ensures HasDraft(s) && r.Success? ==>
              && Keys(r.value) == {ReviewKey, NeedsRevisionKey, MessagesKey, LoopCountKey}
              && r.value.loopCount == Some(s.loopCount + 1)
              && r.value.review.Some? && r.value.review.value.Object?
              && r.value.needsRevision == Some(NeedsRevision(r.value.review.value.fields))
              && r.value.messages == Some(s.messages + [AiMessage(dumps(r.value.review.value), "reviewer")])
    ensures HasDraft(s) && Complete(chain, ReviewerPrompt(s)).Failure? ==>
              r == Failure(Complete(chain, ReviewerPrompt(s)).error)
    ensures HasDraft(s) && r.Success? ==>
              Decode(Complete(chain, ReviewerPrompt(s)).value, loads) == Success(r.value.review.value.fields)
    ensures HasDraft(s) && Complete(chain, ReviewerPrompt(s)).Success?
            && Decode(Complete(chain, ReviewerPrompt(s)).value, loads).Failure? ==>
              r == Failure(Decode(Complete(chain, ReviewerPrompt(s)).value, loads).error)
  {
    if !HasDraft(s) then Success(NoUpdate.(needsRevision := Some(true)))
    else match Complete(chain, ReviewerPrompt(s))
      case Failure(e) => Failure(e)
      case Success(raw) =>
        match Decode(raw, loads)
        case Failure(e) => Failure(e)
        case Success(fields) =>
          var review := Json.Object(fields);
          Success(NoUpdate.(review := Some(review), needsRevision := Some(NeedsRevision(fields)),
                            messages := Some(s.messages + [AiMessage(dumps(review), "reviewer")]),
                            loopCount := Some(s.loopCount + 1)))
  }

  /** A missing or empty draft is sent back for revision without consulting the model:
      whatever the chain would answer, the update is `needs_revision` alone and the loop
      count does not move. */
  lemma ShortCircuitIgnoresModel(s: ResearchState, chain1: Chain, chain2: Chain,
                                 loads: string -> Json.Parsed, dumps: Json.Value -> string)
    requires !HasDraft(s)
    ensures ReviewerNode(s, chain1, loads, dumps) == ReviewerNode(s, chain2, loads, dumps)
    ensures Keys(ReviewerNode(s, chain1, loads, dumps).value) == {NeedsRevisionKey}
    ensures Apply(s, ReviewerNode(s, chain1, loads, dumps).value, Overwrite).loopCount == s.loopCount
  {
  }

  /** An answer that is not JSON is a rejection: it is stored as the fallback review, and the
      draft needs revision. */
  lemma NonJsonAnswerRejects(s: ResearchState, chain: Chain, loads: string -> Json.Parsed,
                             dumps: Json.Value -> string, raw: string)
    requires HasDraft(s)
    requires Complete(chain, ReviewerPrompt(s)) == Success(raw) && loads(raw).NotJson?
    ensures ReviewerNode(s, chain, loads, dumps).Success?
    ensures ReviewerNode(s, chain, loads, dumps).value.review == Some(FallbackReview(raw))
    ensures ReviewerNode(s, chain, loads, dumps).value.needsRevision == Some(true)
  {
  }

  /** JSON that is not an object makes the node raise rather than fall back. */
  lemma NonObjectAnswerRaises(s: ResearchState, chain: Chain, loads: string -> Json.Parsed,
                              dumps: Json.Value -> string, raw: string)
    requires HasDraft(s)
    requires Complete(chain, ReviewerPrompt(s)) == Success(raw) && loads(raw).ParsedOther?
    ensures ReviewerNode(s, chain, loads, dumps) == Failure(NotAnObject(loads(raw).value))
  {
  }

  /** An object review approves the draft exactly when its `approved` value is truthy. */
  lemma ApprovalDecidesRevision(s: ResearchState, chain: Chain, loads: string -> Json.Parsed,
                                dumps: Json.Value -> string, raw: string)
    requires HasDraft(s)
    requires Complete(chain, ReviewerPrompt(s)) == Success(raw) && loads(raw).ParsedObject?
    ensures ReviewerNode(s, chain, loads, dumps).Success?
    ensures ReviewerNode(s, chain, loads, dumps).value.needsRevision.value <==>
              !(Json.Get(loads(raw).fields, "approved").Some? && Json.Truthy(Json.Get(loads(raw).fields, "approved").value))
  {
  }
}

=== FILE: scoper.dfy ===
/** The scoper node: asks the summarising model to restate the research scope, given the
    question, the current scope and the last few messages of the conversation. */
module Scoper {
  import opened Wrappers
  import opened Strings
  import opened State

  const HistoryWindow: nat := 4
  const NoHistory: string := "(no prior conversation)"
  const NoScope: string := "(not defined yet)"

  /** The text of each message, in order. */
  function Contents(ms: seq<Message>): (r: seq<string>)
    ensures |r| == |ms|
    ensures forall k :: 0 <= k < |ms| ==> r[k] == ms[k].content
  {
    seq(|ms|, k requires 0 <= k < |ms| => ms[k].content)
  }

  /** The conversation shown to the model: the last four messages' texts, one per line, or
      a placeholder when that comes out empty. */
  function History(messages: seq<Message>): (h: string)
    ensures h != ""
    ensures messages == [] ==> h == NoHistory
  {
    var text := Join(Contents(LastN(messages, HistoryWindow)), "\n");
    if text == "" then NoHistory else text
  }

  /** Python's `x or placeholder` on an optional string: `None` and "" both fall back. */
  function OrElse(x: Option<string>, placeholder: string): (r: string)
    ensures x.Some? && x.value != "" ==> r == x.value
    ensures x.None? || x.value == "" ==> r == placeholder
  {
    if x.Some? && x.value != "" then x.value else placeholder
  }

  function ScoperPrompt(s: ResearchState): Prompt {
    [("query", s.query), ("scope", OrElse(s.scope, NoScope)), ("history", History(s.messages))]
  }

  /** The scoper node: on success it sets exactly `scope` and `messages`, the scope being
      the completion text and the messages the prior ones plus that text from "scoper". */
  function ScoperNode(s: ResearchState, chain: Chain): (r: Result<Update, NodeError>)
    ensures r.Success? <==> Complete(chain, ScoperPrompt(s)).Success?
    ensures r.Failure? ==> r.error == Complete(chain, ScoperPrompt(s)).error
    ensures r.Success? ==>
              && Keys(r.value) == {ScopeKey, MessagesKey}
              && r.value.scope == Some(Complete(chain, ScoperPrompt(s)).value)
              && r.value.messages == Some(s.messages + [AiMessage(r.value.scope.value, "scoper")])
  {
    match Complete(chain, ScoperPrompt(s))
    case Failure(e) => Failure(e)
    case Success(scope) =>
      Success(NoUpdate.(scope := Some(scope), messages := Some(s.messages + [AiMessage(scope, "scoper")])))
  }

  /** When the last four messages have non-empty single-line texts, splitting the history
      back into lines gives exactly those texts, oldest first. */
  lemma HistoryRecoversWindow(messages: seq<Message>)
    requires messages != []
    requires forall k :: 0 <= k < |messages| ==> messages[k].content != "" && NoLineBreak(messages[k].content)
    ensures SplitLines(History(messages)) == Contents(LastN(messages, HistoryWindow))
    ensures |SplitLines(History(messages))| == if |messages| < 4 then |messages| else 4
  {
    var window := LastN(messages, HistoryWindow);
    var xs := Contents(window);
    assert window[|window| - 1] == messages[|messages| - 1];
    JoinNonEmpty(xs, "\n", |xs| - 1);
    SplitJoinRoundTrip(xs);
  }

  /** An earlier message outside the window does not affect the history. */
  lemma HistoryIgnoresOlder(older: seq<Message>, recent: seq<Message>)
    requires |recent| == HistoryWindow
    ensures History(older + recent) == History(recent)
  {
    assert LastN(older + recent, HistoryWindow) == recent;
  }
}

=== FILE: state.dfy ===
/** The records the workflow threads through its nodes: findings, chat messages, the
    nine-field research state, and the partial updates a node returns.

    A node's update is a Python dict holding some of the state's keys; here each key is
    an `Option` field, present when `Some`. How an update is merged into the state is a
    parameter (`MessageMerge`): the state declares a concatenating reducer for `messages`
    and nothing for the other keys, while every node returns the full prior message list
    plus one new message.
 */
module State {
  import opened Wrappers
  import Json
  import Retry

  /** The time a finding was captured, as its ISO-8601 text. */
  datatype Timestamp = Timestamp(iso: string)

  /** A research snippet. Confidence carries no range constraint of its own. */
  datatype Finding = Finding(source: string, content: string, confidence: real, capturedAt: Timestamp)

  /** The confidence a `Finding` gets when its creator does not give one. */
  const DefaultConfidence: real := 0.5

  /** `Finding(source=..., content=...)` with the default confidence, captured at `now`. */
  function DefaultFinding(source: string, content: string, now: Timestamp): (f: Finding)
    ensures f.source == source && f.content == content && f.capturedAt == now
    ensures f.confidence == DefaultConfidence
  {
    Finding(source, content, DefaultConfidence, now)
  }

  datatype MessageKind = Human | Ai

  /** A chat message: who wrote it, its text, and the node name for AI messages. */
  datatype Message = Message(kind: MessageKind, content: string, name: Option<string>)

  function AiMessage(content: string, node: string): Message {
    Message(Ai, content, Some(node))
  }

  function HumanMessage(content: string): Message {
    Message(Human, content, None)
  }

  /** The nine keys of the research state. The review is the decoded JSON the reviewer
      produced; none of its keys is required, so `approved` may be absent. */
  datatype ResearchState = ResearchState(
    query: string,
    scope: Option<string>,
    plan: seq<string>,
    findings: seq<Finding>,
    draftReport: Option<string>,
    review: Option<Json.Value>,
    needsRevision: bool,
    loopCount: int,
    messages: seq<Message>)

  /** The keys of the state dict, as the constructors of `Key`; `KeyName` gives each
      key's text. */
  datatype Key =
    | QueryKey | ScopeKey | PlanKey | FindingsKey | DraftReportKey | ReviewKey
    | NeedsRevisionKey | LoopCountKey | MessagesKey

  function KeyName(k: Key): string {
    match k
    case QueryKey => "query"
    case ScopeKey => "scope"
    case PlanKey => "plan"
    case FindingsKey => "findings"
    case DraftReportKey => "draft_report"
    case ReviewKey => "review"
    case NeedsRevisionKey => "needs_revision"
    case LoopCountKey => "loop_count"
    case MessagesKey => "messages"
  }

  /** A node's update: the keys it sets, each with its new value. */
  datatype Update = Update(
    query: Option<string>,
    scope: Option<string>,
    plan: Option<seq<string>>,
    findings: Option<seq<Finding>>,
    draftReport: Option<string>,
    review: Option<Json.Value>,
    needsRevision: Option<bool>,
    loopCount: Option<int>,
    messages: Option<seq<Message>>)

  /** The update that sets nothing. */
  const NoUpdate: Update := Update(None, None, None, None, None, None, None, None, None)

  /** The keys an update sets. */
  function Keys(u: Update): (ks: set<Key>)
    ensures u == NoUpdate <==> ks == {}
  {
    (if u.query.Some? then {QueryKey} else {})
    + (if u.scope.Some? then {ScopeKey} else {})
    + (if u.plan.Some? then {PlanKey} else {})
    + (if u.findings.Some? then {FindingsKey} else {})
    + (if u.draftReport.Some? then {DraftReportKey} else {})
    + (if u.review.Some? then {ReviewKey} else {})
    + (if u.needsRevision.Some? then {NeedsRevisionKey} else {})
    + (if u.loopCount.Some? then {LoopCountKey} else {})
    + (if u.messages.Some? then {MessagesKey} else {})
  }

  /** A key an update does not set is absent from it. */
  lemma UnsetIsAbsent(u: Update)
    ensures LoopCountKey !in Keys(u) ==> u.loopCount.None?
    ensures NeedsRevisionKey !in Keys(u) ==> u.needsRevision.None?
    ensures PlanKey !in Keys(u) ==> u.plan.None?
    ensures DraftReportKey !in Keys(u) ==> u.draftReport.None?
  {
  }

  /** How a returned `messages` value meets the state's: replaced (a plain `dict.update`,
      as the streaming run does) or appended (the reducer the state declares). */
  datatype MessageMerge = Overwrite | Concatenate

  /** Merge an update into the state: every key the update does not set keeps the
      state's value (what a set key becomes is `ApplySets`). */
  function Apply(s: ResearchState, u: Update, mode: MessageMerge): (r: ResearchState)
    ensures u.query.None? ==> r.query == s.query
    ensures u.scope.None? ==> r.scope == s.scope
    ensures u.plan.None? ==> r.plan == s.plan
    ensures u.findings.None? ==> r.findings == s.findings
    ensures u.draftReport.None? ==> r.draftReport == s.draftReport
    ensures u.review.None? ==> r.review == s.review
    ensures u.needsRevision.None? ==> r.needsRevision == s.needsRevision
    ensures u.loopCount.None? ==> r.loopCount == s.loopCount
    ensures u.messages.None? ==> r.messages == s.messages
  {
    ResearchState(
      u.query.GetOr(s.query),
      if u.scope.Some? then Some(u.scope.value) else s.scope,
      u.plan.GetOr(s.plan),
      u.findings.GetOr(s.findings),
      if u.draftReport.Some? then Some(u.draftReport.value) else s.draftReport,
      if u.review.Some? then Some(u.review.value) else s.review,
      u.needsRevision.GetOr(s.needsRevision),
      u.loopCount.GetOr(s.loopCount),
      match u.messages
      case None => s.messages
      case Some(ms) => if mode == Overwrite then ms else s.messages + ms)
  }

  /** A key the update sets takes the update's value; a returned `messages` replaces the
      transcript under overwriting and is appended to it under the concatenating reducer. */
  lemma ApplySets(s: ResearchState, u: Update, mode: MessageMerge)
    ensures var r := Apply(s, u, mode);
            && (u.query.Some? ==> r.query == u.query.value)
            && (u.scope.Some? ==> r.scope == u.scope)
            && (u.plan.Some? ==> r.plan == u.plan.value)
            && (u.findings.Some? ==> r.findings == u.findings.value)
            && (u.draftReport.Some? ==> r.draftReport == u.draftReport)
            && (u.review.Some? ==> r.review == u.review)
            && (u.needsRevision.Some? ==> r.needsRevision == u.needsRevision.value)
            && (u.loopCount.Some? ==> r.loopCount == u.loopCount.value)
            && (u.messages.Some? && mode == Overwrite ==> r.messages == u.messages.value)
            && (u.messages.Some? && mode == Concatenate ==> r.messages == s.messages + u.messages.value)
  {
  }

  /** Setting no key changes nothing, under either merge. */
  lemma ApplyNothing(s: ResearchState, mode: MessageMerge)
    ensures Apply(s, NoUpdate, mode) == s
  {
  }

  /** Under overwriting, merging the same update twice is merging it once. */
  lemma ApplyOverwriteIdempotent(s: ResearchState, u: Update)
    ensures Apply(Apply(s, u, Overwrite), u, Overwrite) == Apply(s, u, Overwrite)
  {
  }

  /** A node that returns the prior transcript plus one message leaves exactly that
      transcript under overwriting, and duplicates the prior transcript under the
      concatenating reducer. */
  lemma AppendedMessageMerge(s: ResearchState, u: Update, m: Message)
    requires u.messages == Some(s.messages + [m])
    ensures Apply(s, u, Overwrite).messages == s.messages + [m]
    ensures Apply(s, u, Concatenate).messages == s.messages + s.messages + [m]
    ensures |Apply(s, u, Concatenate).messages| == 2 * |s.messages| + 1
  {
  }

  // ---------------------------------------------------------------------------
  // The completion call every node makes

  /** The variables a prompt template is filled with, in the order the node passes them. */
  type Prompt = seq<(string, string)>

  /** A prompt | model | parser chain: for each prompt, what its i-th attempt yields. */
  type Chain = Prompt -> nat -> Retry.Outcome<string>

  /** The attempt budget every node uses (`ainvoke_with_retry`'s default). */
  const Attempts: int := 3

  /** What a node can fail with: the completion's final error, or the reviewer calling
      `.get` on decoded JSON that is not an object. */
  datatype NodeError = CallFailed(error: Retry.Error) | NotAnObject(value: Json.Value)

  /** The text `ainvoke_with_retry(chain, prompt)` returns, or the error it raises. */
  function Complete(chain: Chain, prompt: Prompt): (r: Result<string, NodeError>)
    ensures r.Success? <==> Retry.Invoke(chain(prompt), Attempts).outcome.Returned?
    ensures r.Failure? ==> r.error == CallFailed(Retry.Invoke(chain(prompt), Attempts).outcome.error)
  {
    match Retry.Invoke(chain(prompt), Attempts).outcome
    case Returned(text) => Success(text)
    case Raised(e) => Failure(CallFailed(e))
  }

  /** A chain whose first attempt returns `text` completes with `text` after one call. */
  lemma CompleteFirstAttempt(chain: Chain, prompt: Prompt, text: string)
    requires chain(prompt)(0) == Retry.Returned(text)
    ensures Complete(chain, prompt) == Success(text)
  {
    Retry.FirstSuccessReturned(chain(prompt), Attempts, 0);
  }
}

=== FILE: strings.dfy ===
/** The handful of Python `str` operations the pipeline relies on, over `seq<char>`.

    `Lower` is ASCII lower-casing (Python's `str.lower` also folds non-ASCII letters;
    every keyword the pipeline searches for is ASCII). `SplitLines` follows Python's
    `str.splitlines` line boundaries, `Strip` follows `str.strip(chars)`, and `Join`
    follows `sep.join(xs)`.
 */
module Strings {

  /** ASCII lower-casing of one character. */
  function LowerChar(c: char): char {
    if 'A' <= c <= 'Z' then (c as int + 32) as char else c
  }

  function Lower(s: string): (r: string)
    ensures |r| == |s|
  {
    seq(|s|, i requires 0 <= i < |s| => LowerChar(s[i]))
  }

  predicate StartsWith(s: string, prefix: string) {
    |prefix| <= |s| && s[..|prefix|] == prefix
  }

  predicate EndsWith(s: string, suffix: string) {
    |suffix| <= |s| && s[|s| - |suffix|..] == suffix
  }

  /** `sub` occurs in `s` starting at index `i`. */
  ghost predicate OccursAt(s: string, sub: string, i: int) {
    0 <= i && i + |sub| <= |s| && s[i..i + |sub|] == sub
  }

  /** Python's `sub in s`, computed by scanning `s` left to right. */
  function Contains(s: string, sub: string): (r: bool)
    ensures r <==> exists i :: OccursAt(s, sub, i)
    decreases |s|
  {
    if StartsWith(s, sub) then
      assert OccursAt(s, sub, 0);
      true
    else if |s| == 0 then
      false
    else
      var r := Contains(s[1..], sub);
      ShiftOccurrence(s, sub);
      r
  }

  /** An occurrence in `s[1..]` is an occurrence in `s` one place later, and an
      occurrence in `s` other than at 0 is one in `s[1..]`. */
  lemma ShiftOccurrence(s: string, sub: string)
    requires |s| > 0 && !StartsWith(s, sub)
    ensures (exists i :: OccursAt(s, sub, i)) <==> (exists i :: OccursAt(s[1..], sub, i))
  {
    if i :| OccursAt(s, sub, i) {
      assert i != 0;
      assert s[1..][i - 1..i - 1 + |sub|] == s[i..i + |sub|];
      assert OccursAt(s[1..], sub, i - 1);
    }
    if i :| OccursAt(s[1..], sub, i) {
      assert s[1..][i..i + |sub|] == s[i + 1..i + 1 + |sub|];
      assert OccursAt(s, sub, i + 1);
    }
  }

  /** Concatenation is associative. Stated over an arbitrary element type, so that the
      solver does not compare the elements themselves. */
  lemma ConcatAssoc<T>(h: seq<T>, x: seq<T>, y: seq<T>)
    ensures h + (x + y) == (h + x) + y
  {
  }

  /** Python's `sep.join(xs)`. */
  function Join(xs: seq<string>, sep: string): string
    decreases |xs|
  {
    if |xs| == 0 then ""
    else if |xs| == 1 then xs[0]
    else xs[0] + sep + Join(xs[1..], sep)
  }

  /** Joining is empty only when every piece is empty and no separator is emitted. */
  lemma {:induction false} JoinNonEmpty(xs: seq<string>, sep: string, k: int)
    requires 0 <= k < |xs| && xs[k] != ""
    ensures Join(xs, sep) != ""
    decreases |xs|
  {
    if |xs| > 1 && k > 0 {
      JoinNonEmpty(xs[1..], sep, k - 1);
    }
  }

  /** Appending a piece to a join adds one separator before it, unless there was nothing
      to join. */
  lemma {:induction false} JoinSnoc(xs: seq<string>, y: string, sep: string)
    ensures Join(xs + [y], sep) == if |xs| == 0 then y else Join(xs, sep) + sep + y
    decreases |xs|
  {
    if |xs| > 1 {
      assert (xs + [y])[1..] == xs[1..] + [y];
      JoinSnoc(xs[1..], y, sep);
    }
  }

  /** The first character of a join is the first character of its first piece. */
  lemma JoinHead(xs: seq<string>, sep: string)
    requires |xs| > 0 && xs[0] != ""
    ensures Join(xs, sep) != "" && Join(xs, sep)[0] == xs[0][0]
  {
  }

  /** The last `n` elements of `s`, or all of it when it is shorter: Python's `s[-n:]`
      for a positive `n`. */
  function LastN<T>(s: seq<T>, n: nat): (r: seq<T>)
    ensures |r| <= n && |r| <= |s|
    ensures s == s[..|s| - |r|] + r
    ensures |s| <= n ==> r == s
    ensures |s| > n ==> |r| == n
  {
    if |s| <= n then s else s[|s| - n..]
  }

  // ---------------------------------------------------------------------------
  // str.strip(chars)

  /** `s` without its longest prefix made of characters in `cs` (`str.lstrip(chars)`). */
  function TrimStart(s: string, cs: set<char>): (r: string)
    ensures |r| <= |s| && r == s[|s| - |r|..]
    ensures forall k :: 0 <= k < |s| - |r| ==> s[k] in cs
    ensures r == [] || r[0] !in cs
    decreases |s|
  {
    if |s| > 0 && s[0] in cs then TrimStart(s[1..], cs) else s
  }

  /** `s` without its longest suffix made of characters in `cs` (`str.rstrip(chars)`). */
  function TrimEnd(s: string, cs: set<char>): (r: string)
    ensures |r| <= |s| && r == s[..|r|]
    ensures forall k :: |r| <= k < |s| ==> s[k] in cs
    ensures r == [] || r[|r| - 1] !in cs
    decreases |s|
  {
    if |s| > 0 && s[|s| - 1] in cs then TrimEnd(s[..|s| - 1], cs) else s
  }

  /** Python's `s.strip(chars)`: the characters are a set, not a prefix string. */
  function Strip(s: string, cs: set<char>): (r: string)
    ensures |r| <= |s|
    ensures r == [] || (r[0] !in cs && r[|r| - 1] !in cs)
  {
    TrimEnd(TrimStart(s, cs), cs)
  }

  /** What stripping leaves is a piece of the input with only characters of `cs` around it. */
  lemma StripIsInfix(s: string, cs: set<char>)
    ensures StrippedAt(s, cs, Strip(s, cs), |s| - |TrimStart(s, cs)|)
  {
    var t := TrimStart(s, cs);
    InfixOfSuffix(s, t, TrimEnd(t, cs), cs);
  }

  /** A prefix of a suffix of `s`, with only characters of `cs` cut off, is stripped at the
      suffix's start. */
  lemma InfixOfSuffix(s: string, t: string, r: string, cs: set<char>)
    requires |t| <= |s| && t == s[|s| - |t|..]
    requires forall k :: 0 <= k < |s| - |t| ==> s[k] in cs
    requires |r| <= |t| && r == t[..|r|]
    requires forall k :: |r| <= k < |t| ==> t[k] in cs
    ensures StrippedAt(s, cs, r, |s| - |t|)
  {
    var i := |s| - |t|;
    forall k | i + |r| <= k < |s|
      ensures s[k] in cs
    {
      assert s[k] == t[k - i];
    }
  }

  /** `r` is the infix of `s` at `i`, and everything around it is made of characters in `cs`. */
  ghost predicate StrippedAt(s: string, cs: set<char>, r: string, i: int) {
    && 0 <= i <= |s| - |r|
    && r == s[i..i + |r|]
    && (forall k :: 0 <= k < i ==> s[k] in cs)
    && (forall k :: i + |r| <= k < |s| ==> s[k] in cs)
  }

  /** A string that neither starts nor ends with a character of `cs` is left as it is. */
  lemma StripFixed(s: string, cs: set<char>)
    requires s == [] || (s[0] !in cs && s[|s| - 1] !in cs)
    ensures Strip(s, cs) == s
  {
    var t := TrimStart(s, cs);
    assert t == s;
    assert TrimEnd(t, cs) == t;
  }

  /** Stripping what is already stripped changes nothing. */
  lemma StripIdempotent(s: string, cs: set<char>)
    ensures Strip(Strip(s, cs), cs) == Strip(s, cs)
  {
    StripFixed(Strip(s, cs), cs);
  }

  /** A prefix made of characters in `cs` is trimmed away entirely. */
  lemma {:induction false} TrimStartSkips(p: string, rest: string, cs: set<char>)
    requires forall k :: 0 <= k < |p| ==> p[k] in cs
    ensures TrimStart(p + rest, cs) == TrimStart(rest, cs)
    decreases |p|
  {
    if |p| > 0 {
      assert (p + rest)[1..] == p[1..] + rest;
      TrimStartSkips(p[1..], rest, cs);
    } else {
      assert p + rest == rest;
    }
  }

  /** A suffix made of characters in `cs` is trimmed away entirely. */
  lemma {:induction false} TrimEndSkips(rest: string, q: string, cs: set<char>)
    requires forall k :: 0 <= k < |q| ==> q[k] in cs
    ensures TrimEnd(rest + q, cs) == TrimEnd(rest, cs)
    decreases |q|
  {
    if |q| > 0 {
      assert (rest + q)[..|rest + q| - 1] == rest + q[..|q| - 1];
      TrimEndSkips(rest, q[..|q| - 1], cs);
    } else {
      assert rest + q == rest;
    }
  }

  /** Stripping removes exactly the surrounding characters of `cs`, however they are mixed. */
  lemma StripAround(p: string, m: string, q: string, cs: set<char>)
    requires forall k :: 0 <= k < |p| ==> p[k] in cs
    requires forall k :: 0 <= k < |q| ==> q[k] in cs
    requires m != [] && m[0] !in cs && m[|m| - 1] !in cs
    ensures Strip(p + m + q, cs) == m
  {
    assert p + m + q == p + (m + q);
    TrimStartSkips(p, m + q, cs);
    assert TrimStart(m + q, cs) == m + q;
    TrimEndSkips(m, q, cs);
    assert TrimEnd(m, cs) == m;
  }

  /** Stripping leaves nothing exactly when every character is one of `cs`. */
  lemma StripEmpty(s: string, cs: set<char>)
    ensures Strip(s, cs) == [] <==> forall k :: 0 <= k < |s| ==> s[k] in cs
  {
    StripIsInfix(s, cs);
  }

  /** Stripping keeps a line a line: the result is a piece of the input. */
  lemma StripKeepsNoLineBreak(s: string, cs: set<char>)
    ensures NoLineBreak(s) ==> NoLineBreak(Strip(s, cs))
  {
    var r := Strip(s, cs);
    var i := |s| - |TrimStart(s, cs)|;
    StripIsInfix(s, cs);
    assert forall k :: 0 <= k < |r| ==> r[k] == s[i + k];
  }

  // ---------------------------------------------------------------------------
  // str.splitlines()

  /** The characters Python's `str.splitlines` treats as line boundaries. */
  predicate IsLineBreak(c: char) {
    c in {'\n', '\r', '\U{000B}', '\U{000C}', '\U{001C}', '\U{001D}', '\U{001E}',
          '\U{0085}', '\U{2028}', '\U{2029}'}
  }

  predicate NoLineBreak(s: string) {
    forall k :: 0 <= k < |s| ==> !IsLineBreak(s[k])
  }

  /** Every element of `xs` is a single line. */
  predicate AllSingleLine(xs: seq<string>) {
    forall k :: 0 <= k < |xs| ==> NoLineBreak(xs[k])
  }

  lemma NoLineBreakAppend(a: string, b: string)
    requires NoLineBreak(a) && NoLineBreak(b)
    ensures NoLineBreak(a + b)
  {
    assert forall k :: |a| <= k < |a + b| ==> (a + b)[k] == b[k - |a|];
  }

  /** Index of the first line boundary in `s`, or `|s|` when there is none. */
  function FirstBreak(s: string): (i: nat)
    ensures i <= |s|
    ensures NoLineBreak(s[..i])
    ensures i < |s| ==> IsLineBreak(s[i])
    decreases |s|
  {
    if |s| == 0 then 0
    else if IsLineBreak(s[0]) then 0
    else 1 + FirstBreak(s[1..])
  }

  /** A string without boundaries has its first boundary at its end. */
  lemma {:induction false} FirstBreakNone(s: string)
    requires NoLineBreak(s)
    ensures FirstBreak(s) == |s|
    decreases |s|
  {
    if |s| > 0 {
      FirstBreakNone(s[1..]);
    }
  }

  /** Python's `s.splitlines()`: "\r\n" is one boundary, and a trailing boundary does not
      start an extra empty line. */
  function SplitLines(s: string): (lines: seq<string>)
    ensures forall k :: 0 <= k < |lines| ==> NoLineBreak(lines[k])
    decreases |s|
  {
    if |s| == 0 then []
    else
      var i := FirstBreak(s);
      if i == |s| then [s]
      else
        var width := if s[i] == '\r' && i + 1 < |s| && s[i + 1] == '\n' then 2 else 1;
        [s[..i]] + SplitLines(s[i + width..])
  }

  /** The first boundary of `x + tail` is at `|x|` when `x` has none and `tail` starts with one. */
  lemma {:induction false} FirstBreakAfter(x: string, tail: string)
    requires NoLineBreak(x) && |tail| > 0 && IsLineBreak(tail[0])
    ensures FirstBreak(x + tail) == |x|
    decreases |x|
  {
    if |x| > 0 {
      assert (x + tail)[1..] == x[1..] + tail;
      FirstBreakAfter(x[1..], tail);
    }
  }

  /** Splitting the newline-join of non-empty lines without boundaries gives back the lines. */
  lemma {:induction false} SplitJoinRoundTrip(xs: seq<string>)
    requires forall k :: 0 <= k < |xs| ==> xs[k] != "" && NoLineBreak(xs[k])
    ensures SplitLines(Join(xs, "\n")) == xs
    decreases |xs|
  {
    if |xs| == 1 {
      assert FirstBreak(xs[0]) == |xs[0]|;
    } else if |xs| > 1 {
      var s := Join(xs, "\n");
      var rest := Join(xs[1..], "\n");
      assert s == xs[0] + ("\n" + rest);
      FirstBreakAfter(xs[0], "\n" + rest);
      var i := |xs[0]|;
      assert s[i] == '\n';
      assert s[..i] == xs[0];
      assert s[i + 1..] == rest;
      SplitJoinRoundTrip(xs[1..]);
      assert SplitLines(s) == [xs[0]] + xs[1..];
    }
  }
}

=== FILE: synthesizer.dfy ===
/** The synthesizer node: writes the report from the query, a clipped scope and the most
    recent findings, each clipped so the prompt stays bounded. */
module Synthesizer {
  import opened Wrappers
  import opened Strings
  import opened State

  const Ellipsis: string := "..."

  /** The end index of Python's `value[:stop]` on a string of length `len`: a negative
      `stop` counts from the end, and both kinds are clamped into `0..len`. */
  function SliceStop(stop: int, len: nat): (e: nat)
    ensures e <= len
    ensures 0 <= stop <= len ==> e == stop
  {
    if stop >= 0 then (if stop <= len then stop else len)
    else if len + stop >= 0 then len + stop
    else 0
  }

  /** `_clip_text(value, max_len)`: the value when it fits, otherwise its first
      `max_len - 3` characters (Python slice semantics) followed by "...". */
  function Clip(value: string, maxLen: int): (r: string)
    ensures |value| <= maxLen ==> r == value
    ensures |value| > maxLen ==> EndsWith(r, Ellipsis) && StartsWith(value, r[..|r| - 3])
    ensures |value| > maxLen >= 3 ==> r == value[..maxLen - 3] + Ellipsis
  {
    if |value| <= maxLen then value
    else
      var head := value[..SliceStop(maxLen - 3, |value|)];
      assert (head + Ellipsis)[..|head|] == head;
      head + Ellipsis
  }

  /** With a limit of at least 3, the clipped length is the smaller of the length and the
      limit. */
  lemma ClipLength(value: string, maxLen: int)
    requires maxLen >= 3
    ensures |Clip(value, maxLen)| == if |value| <= maxLen then |value| else maxLen
  {
  }

  /** With a limit of at least 3, clipping twice is clipping once. */
  lemma ClipIdempotent(value: string, maxLen: int)
    requires maxLen >= 3
    ensures Clip(Clip(value, maxLen), maxLen) == Clip(value, maxLen)
  {
    ClipLength(value, maxLen);
  }

  /** At a limit of 1 or 2 the slice stop is negative and counts from the end, so clipping
      a value that does not fit makes it longer, and clipping it again longer still. */
  lemma ClipBelowThreeGrows(value: string, maxLen: int)
    requires 1 <= maxLen < 3 && |value| > maxLen
    ensures |Clip(value, maxLen)| == |value| + maxLen
    ensures |Clip(Clip(value, maxLen), maxLen)| == |value| + 2 * maxLen
  {
  }

  /** At a limit of 0 the stop is 3 before the end, so a value of at least 3 characters
      keeps its length and only its last three characters become the ellipsis. */
  lemma ClipZeroKeepsLength(value: string)
    requires |value| >= 3
    ensures Clip(value, 0) == value[..|value| - 3] + Ellipsis
  {
  }

  /** A 2000-character content is cut to 797 characters and the ellipsis. */
  lemma ClipLongContent(value: string)
    requires |value| == 2000
    ensures Clip(value, ContentLimit) == value[..797] + Ellipsis
    ensures |Clip(value, ContentLimit)| == 800
  {
  }

  /** Clipping a single line gives a single line. */
  lemma ClipSingleLine(value: string, maxLen: int)
    requires NoLineBreak(value)
    ensures NoLineBreak(Clip(value, maxLen))
  {
    if |value| > maxLen {
      var head := value[..SliceStop(maxLen - 3, |value|)];
      assert NoLineBreak(head);
      assert NoLineBreak(Ellipsis);
      NoLineBreakAppend(head, Ellipsis);
    }
  }

  // ---------------------------------------------------------------------------
  // The evidence shown to the model

  const FindingsWindow: nat := 12
  const SourceLimit: int := 120
  const ContentLimit: int := 800
  const ScopeLimit: int := 500
  const NoFindingsText: string := "No findings yet"

  function FindingLine(f: Finding): string {
    "- " + Clip(f.source, SourceLimit) + ": " + Clip(f.content, ContentLimit)
  }

  /** One rendered line per finding, in order. */
  function FindingLines(fs: seq<Finding>): (r: seq<string>)
    ensures |r| == |fs|
    ensures forall k :: 0 <= k < |fs| ==> r[k] == FindingLine(fs[k])
  {
    seq(|fs|, k requires 0 <= k < |fs| => FindingLine(fs[k]))
  }

  /** Each rendered line is bounded whatever the finding's size. */
  lemma FindingLineBounded(f: Finding)
    ensures |FindingLine(f)| <= 2 + SourceLimit + 2 + ContentLimit
  {
    ClipLength(f.source, SourceLimit);
    ClipLength(f.content, ContentLimit);
  }

  /** The findings text: the last twelve findings, one line each, or "No findings yet"
      exactly when there are none. */
  function FindingsText(fs: seq<Finding>): (r: string)
    ensures fs == [] <==> r == NoFindingsText
  {
    var lines := FindingLines(LastN(fs, FindingsWindow));
    var text := Join(lines, "\n");
    if text == "" then NoFindingsText
    else
      JoinHead(lines, "\n");
      text
  }

  lemma FindingLineSingleLine(f: Finding)
    requires NoLineBreak(f.source) && NoLineBreak(f.content)
    ensures FindingLine(f) != "" && NoLineBreak(FindingLine(f))
  {
    var a := Clip(f.source, SourceLimit);
    var b := Clip(f.content, ContentLimit);
    ClipSingleLine(f.source, SourceLimit);
    ClipSingleLine(f.content, ContentLimit);
    assert NoLineBreak("- ") && NoLineBreak(": ");
    NoLineBreakAppend("- ", a);
    NoLineBreakAppend("- " + a, ": ");
    NoLineBreakAppend("- " + a + ": ", b);
  }

  /** When sources and contents are single lines, the findings text splits back into the
      rendered lines of the most recent twelve findings, oldest first. */
  lemma FindingsTextRecoversWindow(fs: seq<Finding>)
    requires fs != []
    requires forall k :: 0 <= k < |fs| ==> NoLineBreak(fs[k].source) && NoLineBreak(fs[k].content)
    ensures SplitLines(FindingsText(fs)) == FindingLines(LastN(fs, FindingsWindow))
    ensures |SplitLines(FindingsText(fs))| == if |fs| < 12 then |fs| else 12
  {
    var window := LastN(fs, FindingsWindow);
    SuffixSingleLines(fs, window);
    var lines := FindingLines(window);
    forall k | 0 <= k < |lines|
      ensures lines[k] != "" && NoLineBreak(lines[k])
    {
      FindingLineSingleLine(window[k]);
    }
    JoinHead(lines, "\n");
    SplitJoinRoundTrip(lines);
  }

  /** A suffix of single-line findings holds single-line findings. */
  lemma SuffixSingleLines(fs: seq<Finding>, suffix: seq<Finding>)
    requires |suffix| <= |fs| && fs == fs[..|fs| - |suffix|] + suffix
    requires forall k :: 0 <= k < |fs| ==> NoLineBreak(fs[k].source) && NoLineBreak(fs[k].content)
    ensures forall k :: 0 <= k < |suffix| ==> NoLineBreak(suffix[k].source) && NoLineBreak(suffix[k].content)
  {
    forall k | 0 <= k < |suffix|
      ensures NoLineBreak(suffix[k].source) && NoLineBreak(suffix[k].content)
    {
      assert suffix[k] == fs[|fs| - |suffix| + k];
    }
  }

  /** Findings older than the twelve most recent do not reach the prompt. */
  lemma FindingsTextIgnoresOlder(older: seq<Finding>, recent: seq<Finding>)
    requires |recent| == FindingsWindow
    ensures FindingsText(older + recent) == FindingsText(recent)
  {
    assert LastN(older + recent, FindingsWindow) == recent;
  }

  function SynthesizerPrompt(s: ResearchState): Prompt {
    [("query", s.query), ("scope", Clip(s.scope.GetOr(""), ScopeLimit)), ("findings", FindingsText(s.findings))]
  }

  /** The scope the synthesizer sees is at most 500 characters, and a missing scope is "". */
  lemma SynthesizerScopeBounded(s: ResearchState)
    ensures |SynthesizerPrompt(s)[1].1| <= ScopeLimit
    ensures s.scope.None? ==> SynthesizerPrompt(s)[1].1 == ""
  {
    ClipLength(s.scope.GetOr(""), ScopeLimit);
  }

  /** The synthesizer node: on success it sets exactly `draft_report` (the completion text),
      `needs_revision` (always false) and `messages` (one message from "synthesizer"). */
  function SynthesizerNode(s: ResearchState, chain: Chain): (r: Result<Update, NodeError>)
    ensures r.Success? <==> Complete(chain, SynthesizerPrompt(s)).Success?
    ensures r.Failure? ==> r.error == Complete(chain, SynthesizerPrompt(s)).error
    ensures r.Success? ==>
              && Keys(r.value) == {DraftReportKey, NeedsRevisionKey, MessagesKey}
              && r.value.draftReport == Some(Complete(chain, SynthesizerPrompt(s)).value)
              && r.value.needsRevision == Some(false)
              && r.value.messages == Some(s.messages + [AiMessage(r.value.draftReport.value, "synthesizer")])
  {
    match Complete(chain, SynthesizerPrompt(s))
    case Failure(e) => Failure(e)
    case Success(report) =>
      Success(NoUpdate.(draftReport := Some(report), needsRevision := Some(false),
                        messages := Some(s.messages + [AiMessage(report, "synthesizer")])))
  }
}

=== FILE: tools.dfy ===
/** The MCP tool gateway and the rendering of tool results (src/deep_research/tools.py).

    The gateway is a value: `Start`, `Shutdown` and `Invoke` return the gateway after the
    call. Connecting to a server, the session handshake, `list_tools` and `call_tool` are
    external; what each server does is given per server position by `McpEnv.connect`,
    and what a tool call returns by `McpEnv.callTool`. A session is identified by the
    position of the server whose connection produced it. `json.dumps` is `McpEnv.dumps`.
 */
module Tools {
  import opened Wrappers
  import opened Strings
  import Json
  import opened OrderedDict

  // ---------------------------------------------------------------------------
  // Rendering tool results

  /** One content block of a `CallToolResult`, by its `type`. */
  datatype Block =
    | TextBlock(text: string)     // type "text": its `text` ("" when missing)
    | ImageBlock(uri: string)     // type "image": its `uri` ("" when missing)
    | OtherBlock(repr: string)    // any other type: `str(block)`

  /** What `session.call_tool` returns. `error` is the message of a truthy `error`, and an
      empty `structured` stands for a missing or empty `structuredContent`. */
  datatype ToolResult =
    | CallToolResult(isError: bool, error: Option<string>, content: seq<Block>,
                     structured: seq<(string, Json.Value)>)
    | DictResult(fields: seq<(string, Json.Value)>)
    | OtherResult(text: string)     // anything else, as `str(result)`

  /** The chunk a content block contributes. An image block's chunk is never empty, so it
      survives the filter on empty chunks even without a `uri`. */
  function BlockChunk(b: Block): (chunk: string)
    ensures b.TextBlock? ==> chunk == b.text
    ensures b.ImageBlock? ==> chunk != "" && EndsWith(chunk, b.uri)
    ensures b.OtherBlock? ==> chunk == b.repr
  {
    match b
    case TextBlock(text) => text
    case ImageBlock(uri) => "[image] " + uri
    case OtherBlock(repr) => repr
  }

  /** The chunks a non-error `CallToolResult` produces, before empty ones are dropped:
      one per content block in order, then the structured content. */
  function ResultChunks(content: seq<Block>, structured: seq<(string, Json.Value)>,
                        dumps: Json.Value -> string): (chunks: seq<string>)
    ensures |chunks| == |content| + (if |structured| > 0 then 1 else 0)
    ensures forall k :: 0 <= k < |content| ==> chunks[k] == BlockChunk(content[k])
    ensures |structured| > 0 ==> chunks[|content|] == dumps(Json.Object(structured))
  {
    seq(|content|, k requires 0 <= k < |content| => BlockChunk(content[k]))
    + (if |structured| > 0 then [dumps(Json.Object(structured))] else [])
  }

  /** The non-empty chunks, in order. */
  function NonEmpty(chunks: seq<string>): (r: seq<string>)
    ensures |r| <= |chunks|
    ensures forall k :: 0 <= k < |r| ==> r[k] != "" && r[k] in chunks
    ensures (forall k :: 0 <= k < |chunks| ==> chunks[k] != "") ==> r == chunks
    decreases |chunks|
  {
    if |chunks| == 0 then []
    else if chunks[0] == "" then NonEmpty(chunks[1..])
    else [chunks[0]] + NonEmpty(chunks[1..])
  }

  /** Dropping empty chunks distributes over concatenation: what is kept keeps its order. */
  lemma {:induction false} NonEmptyAppend(a: seq<string>, b: seq<string>)
    ensures NonEmpty(a + b) == NonEmpty(a) + NonEmpty(b)
    decreases |a|
  {
    if |a| > 0 {
      assert (a + b)[0] == a[0];
      assert (a + b)[1..] == a[1..] + b;
      NonEmptyAppend(a[1..], b);
      if a[0] != "" {
        assert NonEmpty(a + b) == [a[0]] + (NonEmpty(a[1..]) + NonEmpty(b));
        assert NonEmpty(a) == [a[0]] + NonEmpty(a[1..]);
      }
    } else {
      assert a + b == b;
    }
  }

  /** A single chunk is kept exactly when it is not empty. */
  lemma NonEmptySingle(c: string)
    ensures NonEmpty([c]) == (if c == "" then [] else [c])
  {
    assert [c][1..] == [];
  }

  /** `_render_tool_result`. */
  function Render(result: ToolResult, dumps: Json.Value -> string): (text: string)
    ensures result.CallToolResult? && result.isError && result.error.Some? ==>
              text == "Error: " + result.error.value
    ensures result.DictResult? ==> text == dumps(Json.Object(result.fields))
    ensures result.OtherResult? ==> text == result.text
  {
    match result
    case CallToolResult(isError, error, content, structured) =>
      if isError && error.Some? then "Error: " + error.value
      else Join(NonEmpty(ResultChunks(content, structured, dumps)), "\n")
    case DictResult(fields) => dumps(Json.Object(fields))
    case OtherResult(s) => Join(NonEmpty([s]), "\n")
  }

  /** Without structured content, a result whose blocks render on one line each splits
      back into exactly the non-empty block chunks, in block order. */
  lemma RenderRecoversChunks(content: seq<Block>, dumps: Json.Value -> string,
                             isError: bool, error: Option<string>)
    requires !(isError && error.Some?)
    requires forall k :: 0 <= k < |content| ==> NoLineBreak(BlockChunk(content[k]))
    ensures SplitLines(Render(CallToolResult(isError, error, content, []), dumps))
            == NonEmpty(ResultChunks(content, [], dumps))
  {
    var chunks := ResultChunks(content, [], dumps);
    var kept := NonEmpty(chunks);
    forall k | 0 <= k < |kept|
      ensures kept[k] != "" && NoLineBreak(kept[k])
    {
      var j :| 0 <= j < |chunks| && chunks[j] == kept[k];
    }
    SplitJoinRoundTrip(kept);
  }

  /** Non-empty structured content is rendered last: the text is its dump, after the
      kept block chunks and a newline when any block chunk is kept. */
  lemma RenderStructuredLast(content: seq<Block>, structured: seq<(string, Json.Value)>,
                             dumps: Json.Value -> string, isError: bool, error: Option<string>)
    requires !(isError && error.Some?)
    requires |structured| > 0 && dumps(Json.Object(structured)) != ""
    ensures var kept := NonEmpty(ResultChunks(content, [], dumps));
            var d := dumps(Json.Object(structured));
            Render(CallToolResult(isError, error, content, structured), dumps)
            == if kept == [] then d else Join(kept, "\n") + "\n" + d
  {
    var blocks := ResultChunks(content, [], dumps);
    var d := dumps(Json.Object(structured));
    assert ResultChunks(content, structured, dumps) == blocks + [d];
    NonEmptyAppend(blocks, [d]);
    NonEmptySingle(d);
    JoinSnoc(NonEmpty(blocks), d, "\n");
  }

  // ---------------------------------------------------------------------------
  // Configuration and environment

  datatype Transport = Stdio | Sse | Websocket

  /** `MCPServerConfig` as the gateway reads it. */
  datatype ServerConfig = ServerConfig(
    name: string,
    transport: Transport,
    command: Option<string>,
    sseUrl: Option<string>,
    websocketUrl: Option<string>)

  /** A configuration value that is missing or falsy. */
  predicate Blank(v: Option<string>) {
    v.None? || v.value == ""
  }

  /** The `ValueError` raised before any connection is attempted. */
  predicate MissingEndpoint(c: ServerConfig) {
    match c.transport
    case Stdio => Blank(c.command)
    case Sse => Blank(c.sseUrl)
    case Websocket => Blank(c.websocketUrl)
  }

  /** How far connecting to one server gets. */
  datatype Connection =
    | TransportFails                 // opening the transport raises: nothing acquired
    | SessionFails                   // transport open; entering the client session raises
    | InitializeFails                // session entered; the handshake raises
    | ListToolsFails                 // session stored; `list_tools` raises
    | Lists(toolNames: seq<string>)  // session stored; these tools are listed

  /** An outcome of `session.call_tool`. */
  datatype ToolCall = CallRaised(message: string) | CallReturned(result: ToolResult)

  /** Keyword arguments of a tool call. */
  type Arguments = seq<(string, Json.Value)>

  datatype McpEnv = McpEnv(
    installed: bool,                                   // the `mcp` package imports
    connect: nat -> Connection,                        // per server position
    callTool: (nat, string, Arguments) -> ToolCall,    // session, tool name, arguments
    dumps: Json.Value -> string)

  // ---------------------------------------------------------------------------
  // Gateway state

  /** A context entered on the gateway's exit stack, by server position. */
  datatype Resource = TransportContext(server: nat) | SessionContext(server: nat)

  /** A registry entry: the server name and the tool's own name. */
  datatype ToolEntry = ToolEntry(server: string, tool: string)

  datatype Gateway = Gateway(
    servers: seq<ServerConfig>,
    stack: seq<Resource>,             // contexts entered, oldest first
    sessions: ODict<nat>,             // server name -> session (server position)
    tools: ODict<ToolEntry>,          // qualified name -> entry
    started: bool)

  /** A freshly constructed gateway. */
  function NewGateway(servers: seq<ServerConfig>): (g: Gateway)
    ensures Wf(g) && !g.started && AvailableTools(g) == []
  {
    Gateway(servers, [], Empty(), Empty(), false)
  }

  /** `available_tools`: every registered qualified name once, in registration order. */
  function AvailableTools(g: Gateway): (names: seq<string>)
    ensures forall q :: q in names <==> q in g.tools.entries
    ensures forall i, j :: 0 <= i < j < |names| ==> names[i] != names[j]
  {
    g.tools.keys
  }

  function Qualify(server: string, tool: string): string {
    server + ":" + tool
  }

  /** Every tool is registered under its server's name and its own name, its server has a
      session, and every session belongs to a configured server of that name. */
  ghost predicate Registered(g: Gateway) {
    && (forall q :: q in g.tools.entries ==>
          q == Qualify(g.tools.entries[q].server, g.tools.entries[q].tool)
          && g.tools.entries[q].server in g.sessions.entries)
    && (forall n :: n in g.sessions.entries ==>
          g.sessions.entries[n] < |g.servers| && g.servers[g.sessions.entries[n]].name == n)
  }

  /** The gateway invariant: registration facts, and nothing held while not started. */
  ghost predicate Wf(g: Gateway) {
    && Registered(g)
    && (!g.started ==> g.sessions.IsEmpty() && g.tools.IsEmpty() && g.stack == [])
  }

  // ---------------------------------------------------------------------------
  // start()

  function RegisterTools(tools: ODict<ToolEntry>, server: string, names: seq<string>): (r: ODict<ToolEntry>)
    ensures r.entries.Keys == tools.entries.Keys + (set t | t in names :: Qualify(server, t))
    ensures forall q :: q in r.entries ==>
              || (q in tools.entries && r.entries[q] == tools.entries[q])
              || (r.entries[q].server == server && q == Qualify(server, r.entries[q].tool))
    decreases |names|
  {
    if |names| == 0 then tools
    else
      var put := Put(tools, Qualify(server, names[0]), ToolEntry(server, names[0]));
      var r := RegisterTools(put, server, names[1..]);
      QualifiedCons(server, names);
      RegisterStep(tools.entries, put.entries, r.entries, server, names[0]);
      r
  }

  /** The qualified names of a list are its first one's and the rest's. */
  lemma QualifiedCons(server: string, names: seq<string>)
    requires |names| > 0
    ensures (set t | t in names :: Qualify(server, t))
            == {Qualify(server, names[0])} + (set t | t in names[1..] :: Qualify(server, t))
  {
    assert names == [names[0]] + names[1..];
  }

  /** Registering one tool and then more: every entry at the end is an old one or one of
      this server's, under its qualified name. */
  lemma RegisterStep(tools: map<string, ToolEntry>, put: map<string, ToolEntry>, r: map<string, ToolEntry>,
                     server: string, name: string)
    requires put == tools[Qualify(server, name) := ToolEntry(server, name)]
    requires forall q :: q in r ==>
               || (q in put && r[q] == put[q])
               || (r[q].server == server && q == Qualify(server, r[q].tool))
    ensures forall q :: q in r ==>
              || (q in tools && r[q] == tools[q])
              || (r[q].server == server && q == Qualify(server, r[q].tool))
  {
  }

  /** The keys one server contributes: its listed tools, if it gets that far. */
  ghost function Contributed(servers: seq<ServerConfig>, env: McpEnv, i: nat): set<string>
    requires i < |servers|
  {
    if !MissingEndpoint(servers[i]) && env.connect(i).Lists? then
      set t | t in env.connect(i).toolNames :: Qualify(servers[i].name, t)
    else {}
  }

  /** The keys servers `i..` contribute. */
  ghost function ContributedFrom(servers: seq<ServerConfig>, env: McpEnv, i: nat): set<string>
    requires i <= |servers|
    decreases |servers| - i
  {
    if i == |servers| then {} else Contributed(servers, env, i) + ContributedFrom(servers, env, i + 1)
  }

  /** Connecting to the `i`-th server inside `start`'s `try`: a failure anywhere leaves what
      was already entered on the stack and moves on. */
  function ConnectOne(g: Gateway, env: McpEnv, i: nat): (r: Gateway)
    requires i < |g.servers|
    ensures r.servers == g.servers && r.started == g.started
    ensures r.tools.entries.Keys == g.tools.entries.Keys + Contributed(g.servers, env, i)
    ensures Registered(g) ==> Registered(r)
  {
    var c := g.servers[i];
    if MissingEndpoint(c) then g
    else match env.connect(i)
      case TransportFails => g
      case SessionFails => g.(stack := g.stack + [TransportContext(i)])
      case InitializeFails => g.(stack := g.stack + [TransportContext(i), SessionContext(i)])
      case ListToolsFails =>
        g.(stack := g.stack + [TransportContext(i), SessionContext(i)],
           sessions := Put(g.sessions, c.name, i))
      case Lists(names) =>
        var sessions := Put(g.sessions, c.name, i);
        var tools := RegisterTools(g.tools, c.name, names);
        g.(stack := g.stack + [TransportContext(i), SessionContext(i)],
           sessions := sessions, tools := tools)
  }

  /** The server loop from position `i` on. */
  function ConnectFrom(g: Gateway, env: McpEnv, i: nat): (r: Gateway)
    requires i <= |g.servers|
    ensures r.servers == g.servers && r.started == g.started
    ensures r.tools.entries.Keys == g.tools.entries.Keys + ContributedFrom(g.servers, env, i)
    ensures Registered(g) ==> Registered(r)
    decreases |g.servers| - i
  {
    if i == |g.servers| then g
    else ConnectFrom(ConnectOne(g, env, i), env, i + 1)
  }

  /** `start()`: a no-op when already started, when no servers are configured, or when the
      `mcp` package is missing; otherwise every server is tried in order on a fresh stack. */
  function Start(g: Gateway, env: McpEnv): (r: Gateway)
    ensures g.started || |g.servers| == 0 || !env.installed ==> r == g
    ensures !g.started && |g.servers| > 0 && env.installed ==>
              && r.started
              && r.tools.entries.Keys == g.tools.entries.Keys + ContributedFrom(g.servers, env, 0)
    ensures r.servers == g.servers
    ensures Wf(g) ==> Wf(r)
  {
    if g.started || |g.servers| == 0 then g
    else if !env.installed then g
    else ConnectFrom(g.(stack := []), env, 0).(started := true)
  }

  /** Starting twice is starting once. */
  lemma StartIdempotent(g: Gateway, env: McpEnv)
    ensures Start(Start(g, env), env) == Start(g, env)
  {
  }

  // ---------------------------------------------------------------------------
  // Registry order

  /** Python's insertion order as a reference: each of `qs` not yet present is appended,
      in turn, and a present one keeps its place. */
  function InsertOrder(keys: seq<string>, qs: seq<string>): seq<string>
    decreases |qs|
  {
    if qs == [] then keys
    else InsertOrder(if qs[0] in keys then keys else keys + [qs[0]], qs[1..])
  }

  /** Inserting `a` and then `b` is inserting `a + b`. */
  lemma {:induction false} InsertOrderAppend(keys: seq<string>, a: seq<string>, b: seq<string>)
    ensures InsertOrder(keys, a + b) == InsertOrder(InsertOrder(keys, a), b)
    decreases |a|
  {
    if a == [] {
      assert a + b == b;
    } else {
      assert (a + b)[0] == a[0] && (a + b)[1..] == a[1..] + b;
      InsertOrderAppend(if a[0] in keys then keys else keys + [a[0]], a[1..], b);
    }
  }

  /** The qualified names of one server's listing, in listing order. */
  function QualifiedAll(server: string, names: seq<string>): seq<string> {
    seq(|names|, k requires 0 <= k < |names| => Qualify(server, names[k]))
  }

  /** Registering a listing orders the registry as inserting its qualified names one by
      one: old keys keep their places and new ones follow in listing order. */
  lemma {:induction false} RegisterToolsKeys(tools: ODict<ToolEntry>, server: string, names: seq<string>)
    ensures RegisterTools(tools, server, names).keys == InsertOrder(tools.keys, QualifiedAll(server, names))
    decreases |names|
  {
    if names != [] {
      var q := Qualify(server, names[0]);
      var put := Put(tools, q, ToolEntry(server, names[0]));
      var qs := QualifiedAll(server, names);
      RegisterToolsCons(tools, server, names);
      RegisterToolsKeys(put, server, names[1..]);
      assert qs[0] == q && qs[1..] == QualifiedAll(server, names[1..]);
      assert put.keys == if q in tools.keys then tools.keys else tools.keys + [q];
      assert InsertOrder(tools.keys, qs) == InsertOrder(put.keys, qs[1..]);
    }
  }

  /** Registering a listing is assigning its first name and registering the rest. */
  lemma RegisterToolsCons(tools: ODict<ToolEntry>, server: string, names: seq<string>)
    requires names != []
    ensures RegisterTools(tools, server, names)
            == RegisterTools(Put(tools, Qualify(server, names[0]), ToolEntry(server, names[0])), server, names[1..])
  {
  }

  /** Registering `a` and then `b` is registering `a + b`. */
  lemma {:induction false} RegisterToolsAppend(tools: ODict<ToolEntry>, server: string, a: seq<string>, b: seq<string>)
    ensures RegisterTools(tools, server, a + b) == RegisterTools(RegisterTools(tools, server, a), server, b)
    decreases |a|
  {
    if a == [] {
      assert a + b == b;
    } else {
      assert (a + b)[0] == a[0] && (a + b)[1..] == a[1..] + b;
      RegisterToolsAppend(Put(tools, Qualify(server, a[0]), ToolEntry(server, a[0])), server, a[1..], b);
    }
  }

  /** Registering one tool is one dictionary assignment under its qualified name. */
  lemma RegisterToolsSingle(tools: ODict<ToolEntry>, server: string, name: string)
    ensures RegisterTools(tools, server, [name]) == Put(tools, Qualify(server, name), ToolEntry(server, name))
  {
  }

  /** The qualified names one server registers, in its listing order. */
  ghost function Listed(servers: seq<ServerConfig>, env: McpEnv, i: nat): seq<string>
    requires i < |servers|
  {
    if !MissingEndpoint(servers[i]) && env.connect(i).Lists? then
      QualifiedAll(servers[i].name, env.connect(i).toolNames)
    else []
  }

  /** The qualified names servers `i..` register, server by server in configuration order. */
  ghost function ListedFrom(servers: seq<ServerConfig>, env: McpEnv, i: nat): seq<string>
    requires i <= |servers|
    decreases |servers| - i
  {
    if i == |servers| then [] else Listed(servers, env, i) + ListedFrom(servers, env, i + 1)
  }

  /** One server's keys are inserted after everything already registered. */
  lemma ConnectOneKeys(g: Gateway, env: McpEnv, i: nat)
    requires i < |g.servers|
    ensures ConnectOne(g, env, i).tools.keys == InsertOrder(g.tools.keys, Listed(g.servers, env, i))
  {
    ConnectOneTools(g, env, i);
    if !MissingEndpoint(g.servers[i]) && env.connect(i).Lists? {
      RegisterToolsKeys(g.tools, g.servers[i].name, env.connect(i).toolNames);
    }
  }

  /** Only a server that lists its tools changes the registry, by registering them. */
  lemma ConnectOneTools(g: Gateway, env: McpEnv, i: nat)
    requires i < |g.servers|
    ensures ConnectOne(g, env, i).tools
            == if !MissingEndpoint(g.servers[i]) && env.connect(i).Lists? then
                 RegisterTools(g.tools, g.servers[i].name, env.connect(i).toolNames)
               else g.tools
  {
    if !MissingEndpoint(g.servers[i]) {
      match env.connect(i)
      case Lists(names) =>
      case TransportFails =>
      case SessionFails =>
      case InitializeFails =>
      case ListToolsFails =>
    }
  }

  /** The server loop inserts each server's listing in turn, in configuration order. */
  lemma {:induction false} ConnectFromKeys(g: Gateway, env: McpEnv, i: nat)
    requires i <= |g.servers|
    ensures ConnectFrom(g, env, i).tools.keys == InsertOrder(g.tools.keys, ListedFrom(g.servers, env, i))
    decreases |g.servers| - i
  {
    if i < |g.servers| {
      var g1 := ConnectOne(g, env, i);
      var a, b := Listed(g.servers, env, i), ListedFrom(g.servers, env, i + 1);
      ConnectOneKeys(g, env, i);
      ConnectFromKeys(g1, env, i + 1);
      InsertOrderAppend(g.tools.keys, a, b);
      assert ListedFrom(g.servers, env, i) == a + b;
      assert ConnectFrom(g, env, i) == ConnectFrom(g1, env, i + 1);
    }
  }

  /** After `start`, `available_tools` lists the earlier names and then every listed tool's
      qualified name, server by server in configuration order and in listing order within
      a server, each at its first registration. */
  lemma StartKeys(g: Gateway, env: McpEnv)
    requires !g.started && |g.servers| > 0 && env.installed
    ensures AvailableTools(Start(g, env)) == InsertOrder(AvailableTools(g), ListedFrom(g.servers, env, 0))
  {
    ConnectFromKeys(g.(stack := []), env, 0);
  }

  /** A server that gets as far as listing its tools has all of them registered, whatever
      the servers before and after it did. */
  lemma {:induction false} ListedToolsRegistered(g: Gateway, env: McpEnv, j: nat, t: string)
    requires !g.started && env.installed && j < |g.servers|
    requires !MissingEndpoint(g.servers[j]) && env.connect(j).Lists? && t in env.connect(j).toolNames
    ensures Qualify(g.servers[j].name, t) in Start(g, env).tools.entries
  {
    InContributedFrom(g.servers, env, 0, j, Qualify(g.servers[j].name, t));
  }

  lemma {:induction false} InContributedFrom(servers: seq<ServerConfig>, env: McpEnv, i: nat, j: nat, q: string)
    requires i <= j < |servers| && q in Contributed(servers, env, j)
    ensures q in ContributedFrom(servers, env, i)
    decreases j - i
  {
    if i < j {
      InContributedFrom(servers, env, i + 1, j, q);
    }
  }

  /** A failing server, a misconfigured one included, registers nothing of its own: every
      key that start adds comes from a server that listed its tools. */
  lemma {:induction false} StartKeysComeFromListingServers(g: Gateway, env: McpEnv, q: string)
    requires !g.started && |g.servers| > 0 && env.installed
    requires q in Start(g, env).tools.entries && q !in g.tools.entries
    ensures exists j, t :: 0 <= j < |g.servers| && !MissingEndpoint(g.servers[j])
                           && env.connect(j).Lists? && t in env.connect(j).toolNames
                           && q == Qualify(g.servers[j].name, t)
  {
    FromContributedFrom(g.servers, env, 0, q);
  }

  lemma {:induction false} FromContributedFrom(servers: seq<ServerConfig>, env: McpEnv, i: nat, q: string)
    requires i <= |servers| && q in ContributedFrom(servers, env, i)
    ensures exists j, t :: i <= j < |servers| && !MissingEndpoint(servers[j])
                           && env.connect(j).Lists? && t in env.connect(j).toolNames
                           && q == Qualify(servers[j].name, t)
    decreases |servers| - i
  {
    if q in Contributed(servers, env, i) {
      var t :| t in env.connect(i).toolNames && q == Qualify(servers[i].name, t);
    } else {
      FromContributedFrom(servers, env, i + 1, q);
    }
  }

  // ---------------------------------------------------------------------------
  // shutdown()

  /** What `shutdown()` leaves behind: the gateway, the contexts closed (in closing order),
      and the error closing raised, if any. */
  datatype ShutdownResult = ShutdownResult(gateway: Gateway, closed: seq<Resource>, raised: Option<string>)

  function Reverse<T>(s: seq<T>): (r: seq<T>)
    ensures |r| == |s| && forall k :: 0 <= k < |s| ==> r[k] == s[|s| - 1 - k]
  {
    seq(|s|, k requires 0 <= k < |s| => s[|s| - 1 - k])
  }

  /** `shutdown()`: a no-op when not started; otherwise the exit stack is closed last-in
      first-out and, whether or not closing raised (`closeError`), the registry and session
      table are cleared and the gateway is no longer started. The error still propagates. */
  function Shutdown(g: Gateway, closeError: Option<string>): (r: ShutdownResult)
    ensures !g.started ==> r == ShutdownResult(g, [], None)
    ensures g.started ==>
              && !r.gateway.started
              && r.gateway.sessions.IsEmpty() && r.gateway.tools.IsEmpty() && r.gateway.stack == []
              && AvailableTools(r.gateway) == []
              && r.gateway.servers == g.servers
              && r.closed == Reverse(g.stack)
              && r.raised == closeError
    ensures Wf(r.gateway) || !Wf(g)
  {
    if !g.started then ShutdownResult(g, [], None)
    else ShutdownResult(g.(sessions := Empty(), tools := Empty(), stack := [], started := false),
                        Reverse(g.stack), closeError)
  }

  // ---------------------------------------------------------------------------
  // invoke()

  datatype InvokeError =
    | NoToolsAvailable                          // "No MCP tools available"
    | NotFound(raw: string)                     // KeyError: not found in MCP registry
    | Ambiguous(raw: string, matches: seq<string>)  // KeyError: ambiguous
    | MissingSession(server: string)            // KeyError from the session table
    | ToolFailed(message: string)               // `call_tool` raised

  /** Registry keys, in order, that end in ":" + raw. */
  function SuffixMatches(keys: seq<string>, raw: string): (ms: seq<string>)
    ensures forall k :: k in ms <==> k in keys && EndsWith(k, ":" + raw)
    ensures |ms| <= |keys|
    decreases |keys|
  {
    if |keys| == 0 then []
    else if EndsWith(keys[0], ":" + raw) then [keys[0]] + SuffixMatches(keys[1..], raw)
    else SuffixMatches(keys[1..], raw)
  }

  /** Matching distributes over concatenation: the matches keep the registry's order. */
  lemma {:induction false} SuffixMatchesAppend(a: seq<string>, b: seq<string>, raw: string)
    ensures SuffixMatches(a + b, raw) == SuffixMatches(a, raw) + SuffixMatches(b, raw)
    decreases |a|
  {
    if |a| > 0 {
      assert (a + b)[0] == a[0];
      assert (a + b)[1..] == a[1..] + b;
      SuffixMatchesAppend(a[1..], b, raw);
      if EndsWith(a[0], ":" + raw) {
        assert SuffixMatches(a + b, raw) == [a[0]] + (SuffixMatches(a[1..], raw) + SuffixMatches(b, raw));
        assert SuffixMatches(a, raw) == [a[0]] + SuffixMatches(a[1..], raw);
      }
    } else {
      assert a + b == b;
    }
  }

  /** One key matches exactly when it ends in ":" + raw. */
  lemma SuffixMatchesSingle(key: string, raw: string)
    ensures SuffixMatches([key], raw) == if EndsWith(key, ":" + raw) then [key] else []
  {
    assert [key][1..] == [];
  }

  /** `_resolve_name`. */
  function ResolveName(tools: ODict<ToolEntry>, raw: string): (r: Result<string, InvokeError>)
    ensures r.Success? ==> r.value in tools.entries
    ensures raw in tools.entries ==> r == Success(raw)
    ensures raw !in tools.entries ==>
              && (r.Success? <==> |SuffixMatches(tools.keys, raw)| == 1)
              && (r.Success? ==> EndsWith(r.value, ":" + raw))
              && (r == Failure(NotFound(raw)) <==> |SuffixMatches(tools.keys, raw)| == 0)
              && (r.Failure? && |SuffixMatches(tools.keys, raw)| > 0 ==>
                    r == Failure(Ambiguous(raw, SuffixMatches(tools.keys, raw))))
  {
    if raw in tools.entries then Success(raw)
    else
      var matches := SuffixMatches(tools.keys, raw);
      if |matches| == 1 then
        assert matches[0] in matches;
        Success(matches[0])
      else if |matches| == 0 then Failure(NotFound(raw))
      else Failure(Ambiguous(raw, matches))
  }

  /** Two registered tools sharing a bare name make that name ambiguous. */
  lemma ResolveAmbiguous(tools: ODict<ToolEntry>, raw: string, q1: string, q2: string)
    requires raw !in tools.entries && q1 != q2
    requires q1 in tools.entries && EndsWith(q1, ":" + raw)
    requires q2 in tools.entries && EndsWith(q2, ":" + raw)
    ensures ResolveName(tools, raw) == Failure(Ambiguous(raw, SuffixMatches(tools.keys, raw)))
  {
    var ms := SuffixMatches(tools.keys, raw);
    assert q1 in tools.keys && q2 in tools.keys;
    var i :| 0 <= i < |ms| && ms[i] == q1;
    var j :| 0 <= j < |ms| && ms[j] == q2;
    assert i != j;
    assert |ms| >= 2;
  }

  /** A bare name that exactly one registered tool ends with resolves to that tool. */
  lemma ResolveUnique(tools: ODict<ToolEntry>, raw: string, q1: string)
    requires raw !in tools.entries
    requires q1 in tools.entries && EndsWith(q1, ":" + raw)
    requires forall q :: q in tools.entries && EndsWith(q, ":" + raw) ==> q == q1
    ensures ResolveName(tools, raw) == Success(q1)
  {
    var ms := SuffixMatches(tools.keys, raw);
    assert q1 in tools.keys;
    assert Distinct(tools.keys);
    SuffixMatchesDistinct(tools.keys, raw);
    forall k | 0 <= k < |ms|
      ensures ms[k] == q1
    {
      assert ms[k] in ms;
    }
    assert q1 in ms;
    DistinctFirstTwo(ms);
  }

  ghost predicate Distinct(s: seq<string>) {
    forall i, j :: 0 <= i < j < |s| ==> s[i] != s[j]
  }

  lemma DistinctFirstTwo(s: seq<string>)
    requires Distinct(s)
    ensures |s| >= 2 ==> s[0] != s[1]
  {
  }

  /** Matches of distinct keys are distinct. */
  lemma {:induction false} SuffixMatchesDistinct(keys: seq<string>, raw: string)
    requires Distinct(keys)
    ensures Distinct(SuffixMatches(keys, raw))
    decreases |keys|
  {
    if |keys| > 0 {
      assert Distinct(keys[1..]);
      SuffixMatchesDistinct(keys[1..], raw);
      var rest := SuffixMatches(keys[1..], raw);
      assert keys[0] !in keys[1..];
      assert keys[0] !in rest;
      if EndsWith(keys[0], ":" + raw) {
        var ms := [keys[0]] + rest;
        assert forall j :: 0 < j < |ms| ==> ms[j] == rest[j - 1];
        assert ms == SuffixMatches(keys, raw);
      }
    }
  }

  /** What `invoke(tool_name, arguments)` returns, and the gateway afterwards. */
  datatype InvokeResult = InvokeResult(gateway: Gateway, result: Result<string, InvokeError>)

  /** `invoke(raw, arguments)`: start lazily, then resolve, look up the session, call, render. */
  function Invoke(g: Gateway, raw: string, arguments: Arguments, env: McpEnv): (r: InvokeResult)
    ensures r.gateway == (if g.started then g else Start(g, env))
    ensures r.gateway.tools.IsEmpty() ==> r.result == Failure(NoToolsAvailable)
    ensures !r.gateway.tools.IsEmpty() && ResolveName(r.gateway.tools, raw).Failure? ==>
              r.result == Failure(ResolveName(r.gateway.tools, raw).error)
    ensures r.result.Success? || r.result.error.ToolFailed? ==>
              var q := ResolveName(r.gateway.tools, raw);
              q.Success? && q.value in r.gateway.tools.entries
  {
    var g1 := if g.started then g else Start(g, env);
    if g1.tools.IsEmpty() then
      assert g1.tools.entries.Keys == {};
      InvokeResult(g1, Failure(NoToolsAvailable))
    else match ResolveName(g1.tools, raw)
      case Failure(e) => InvokeResult(g1, Failure(e))
      case Success(q) =>
        var entry := g1.tools.entries[q];
        if entry.server !in g1.sessions.entries then InvokeResult(g1, Failure(MissingSession(entry.server)))
        else match env.callTool(g1.sessions.entries[entry.server], entry.tool, arguments)
          case CallRaised(message) => InvokeResult(g1, Failure(ToolFailed(message)))
          case CallReturned(result) => InvokeResult(g1, Success(Render(result, env.dumps)))
  }

  /** On a well-formed gateway the session lookup never fails: a name that resolves, as a
      qualified key or as a unique bare name, is called on its own server's session under
      the tool's own name, and the call's result is rendered. */
  lemma InvokeResolved(g: Gateway, raw: string, arguments: Arguments, env: McpEnv)
    requires Wf(g) && g.started && ResolveName(g.tools, raw).Success?
    ensures var r := Invoke(g, raw, arguments, env);
            var q := ResolveName(g.tools, raw).value;
            var e := g.tools.entries[q];
            && r.gateway == g
            && e.server in g.sessions.entries
            && g.servers[g.sessions.entries[e.server]].name == e.server
            && q == Qualify(e.server, e.tool)
            && r.result == match env.callTool(g.sessions.entries[e.server], e.tool, arguments)
                           case CallRaised(m) => Failure(ToolFailed(m))
                           case CallReturned(res) => Success(Render(res, env.dumps))
  {
    var q := ResolveName(g.tools, raw).value;
    assert q in g.tools.keys;
  }
}

=== FILE: wrappers.dfy ===
/** Optional values and success/failure results shared by every module of the model.

    Python's `None`/value pairs become `Option`, and a call that either returns or raises
    becomes `Result` (the error side carries the modelled exception).
 */
module Wrappers {

  datatype Option<+T> = None | Some(value: T) {
    /** The value, or `default` when absent (Python's `x or default` for non-falsy x). */
    function GetOr(default: T): T {
      match this
      case Some(v) => v
      case None => default
    }
  }

  datatype Result<+T, +E> = Success(value: T) | Failure(error: E) {
    function ToOption(): Option<T> {
      match this
      case Success(v) => Some(v)
      case Failure(_) => None
    }
  }
}
